=== FILE: README.md ===
# WZCardSlide in Dafny

A model of the core of WZCardSlide, a Swift library of swipeable card stacks (Tinder-style
cards), and proofs about it. There are two containers:

- `SwipeCardStack` shows a window of `SwipeCard` views. It sits on top of
  `CardStackStateManager`, which keeps the card indices still to be shown and the swipe history.
- `WZSlideCardView` is the older slide-card container. It has its own configuration
  (`WZSlideCardConfig`) and index bookkeeping.

One Dafny module per source file:

| module | file | models |
|---|---|---|
| `Wrappers`, `RealArith`, `Rects` | `wrappers.dfy`, `real_arith.dfy`, `rects.dfy` | `Optional`, real-number helper lemmas, `CGRect` edges |
| `Direction` | `direction.dfy` | `SwipeDirection`: raw values, `allDirections`, unit vectors, descriptions |
| `Vectors` | `vectors.dfy` | `CGVector`/`CGPoint` operators and the dot product |
| `ArrayExt` | `array_ext.dfy` | `Array.shift(withDistance:)`, `removingDuplicates()` |
| `StateManager` | `state_manager.dfy` | `CardStackStateManager`: insert, delete (by index, by position, many), swipe, undo, shift, reset |
| `StringUtils` | `string_utils.dfy` | the invalid-update message and its integer formatting |
| `CardStack` | `card_stack.dfy` | `SwipeCardStack`: the visible window, gated public operations, data-source count checks, delegate events |
| `SwipeView` | `swipe_view.dfy` | drag percentage, drag speed, active direction, the swipe-or-cancel decision, pan dispatch |
| `SwipeCard` | `swipe_card.dfy` | `SwipeCard`: overlays, gesture hooks, veto handling, swipe and reverse swipe |
| `CardTransform`, `StackTransform` | `card_transform.dfy`, `stack_transform.dfy` | overlay percentage, tilt, background-card growth while dragging |
| `CardOptions`, `StackOptions` | `card_options.dfy`, `stack_options.dfy` | the animation option records and their range corrections |
| `CardAnimator`, `StackAnimator` | `card_animator.dfy`, `stack_animator.dfy` | keyframe timing, durations, rotation, translation, overlay alphas, completion plans |
| `CardLayout`, `StackLayout`, `ViewTree` | `card_layout.dfy`, `stack_layout.dfy`, `view_tree.dfy` | content, footer and overlay frames; container frames; `setUserInteraction` |
| `SlideConfig`, `SlideView` | `slide_config.dfy`, `slide_view.dfy` | `WZSlideCardConfig` corrections; `WZSlideCardView`'s ladder, drag, dismissal and index bookkeeping |

The main invariant is `StateManager.Valid(m, n)`: the remaining indices plus the swiped indices
form a permutation of `0..n-1`. Every state-manager operation preserves it, with `n` adjusted by
inserts and deletes. Deleting many indices is also characterised directly: it removes exactly
the deleted indices and renumbers each survivor down by the number of deleted indices below it.
`CardStack.Window` says the visible cards are the first remaining indices, up to the visible
count. `SlideView.Window` says the slide view's laid-out cards are consecutive data indices
starting at `currentIndex`.

How the source is represented:
- Views are represented by the data index they show.
- The delegate's `card(isCanMove:)` answer is an input (`None` when there is no delegate).
- `fatalError` becomes a `Fatal(message)` outcome.
- An animation's completion block becomes an explicit completion event or plan. A
  non-animated call completes at once with `finished == true`, as the animators do.
- π, `tan` of the demarcation angle, screen sizes and the card diagonal are parameters.

Two behaviours of the code that a reader might not expect:
- `shift(withDistance:)` does nothing when the distance is larger than the number of remaining
  cards in either direction. It does not wrap modulo the length (`ArrayExt.Shift`,
  `ArrayExt.ShiftExample`).
- A card with no recorded touch point does not tilt: `rotationDirectionY` is 0 rather than -1
  (`CardTransform.RotationDirectionY`).

## Model

| member | source | states |
|---|---|---|
| Direction.RawValue | WZCardSlide/Classes/SwipeDirection.swift:15 | Every case has a raw value in 0..3, and `SwipeDirection(rawValue:)` gives back the same case. |
| Direction.FromRawValue | WZCardSlide/Classes/SwipeDirection.swift:15 | The failable initializer succeeds exactly for the raw values 0 to 3. |
| Direction.Vector | WZCardSlide/Classes/SwipeDirection.swift:21-32 | Each direction's vector lies on one axis, and it is horizontal exactly for left and right. |
| Direction.Description | WZCardSlide/Classes/SwipeDirection.swift:35-46 | Every direction has a name of at least two characters. |
| Direction.DescriptionLiterals | WZCardSlide/Classes/SwipeDirection.swift:35-46 | The names are "left", "right", "up" and "down". |
| Direction.AllDirectionsListsEachOnce | WZCardSlide/Classes/SwipeDirection.swift:18 | `allDirections` holds four entries, every direction appears in it, and none appears twice. |
| Direction.VectorsAreUnitAxes | WZCardSlide/Classes/SwipeDirection.swift:21-32 | The vectors are the unit axis vectors, with screen y growing downwards, so up is (0, -1). |
| Direction.OppositeVectorsNegate | WZCardSlide/Classes/SwipeDirection.swift:21-32 | Opposite directions have negated vectors. |
| Direction.DirectionDotTable | WZCardSlide/Classes/SwipeDirection.swift:21-32 | The dot product of two direction vectors is 1 when the directions are equal, -1 when they are opposite, and 0 otherwise. |
| Direction.DescriptionInjective | WZCardSlide/Classes/SwipeDirection.swift:35-46 | Two directions have the same description exactly when they are the same direction. |
| Direction.RawValuesFollowDeclarationOrder | WZCardSlide/Classes/SwipeDirection.swift:15-18 | Raw values follow declaration order, so `allDirections[1]` (up) does not have raw value 1. |
| Vectors.Identity | WZCardSlide/Classes/Internal/CGVector+Extensions.swift:14-16 | Prefix `+` returns its operand unchanged (with `Vectors.NegInvolution`, it and double negation are identities). |
| Vectors.Neg | WZCardSlide/Classes/Internal/CGVector+Extensions.swift:18-20 | Unary minus gives the additive inverse. |
| Vectors.Add | WZCardSlide/Classes/Internal/CGVector+Extensions.swift:22-24 | Adding the zero vector changes nothing, and a vector plus its negation is zero; `Vectors.Sub` undoes it. |
| Vectors.Sub | WZCardSlide/Classes/Internal/CGVector+Extensions.swift:26-28 | Subtraction undoes addition: `(a - b) + b == a`. |
| Vectors.ScaleLeft | WZCardSlide/Classes/Internal/CGVector+Extensions.swift:30-32 | `scalar * vector` is the same vector as `vector * scalar` (`Vectors.ScalarCommutes`). |
| Vectors.Scale | WZCardSlide/Classes/Internal/CGVector+Extensions.swift:38-40 | Scaling by 0 gives the zero vector, by 1 the vector itself, by -1 its negation and by 2 its sum with itself; `Vectors.Div` undoes it. |
| Vectors.ScaleLeftInt | WZCardSlide/Classes/Internal/CGVector+Extensions.swift:34-36 | `Int * vector` agrees with `Double * vector` on the converted integer and with `vector * Int`; for a non-zero integer, dividing by it gives the vector back. |
| Vectors.ScaleInt | WZCardSlide/Classes/Internal/CGVector+Extensions.swift:42-44 | `vector * Int` equals the left scalar product with the converted integer. |
| Vectors.Div | WZCardSlide/Classes/Internal/CGVector+Extensions.swift:46-48 | Dividing by a non-zero scalar is undone by multiplying by that scalar. Division by zero is excluded (see Left out). |
| Vectors.DivInt | WZCardSlide/Classes/Internal/CGVector+Extensions.swift:50-52 | Dividing by a non-zero integer is undone by multiplying by that integer. |
| Vectors.FromTo | WZCardSlide/Classes/Internal/CGVector+Extensions.swift:83-86 | `CGVector(from:to:)` is the vector that carries the origin onto the target. |
| Vectors.ToPoint | WZCardSlide/Classes/Internal/CGVector+Extensions.swift:83-86 | With the default origin (.zero), the vector's components are the target's coordinates. |
| Vectors.AsPoint | WZCardSlide/Classes/Internal/CGPoint+Extensions.swift:14-16 | `CGPoint(vector)` has the vector's components, so converting it back gives the same vector. |
| Vectors.AddAssign | WZCardSlide/Classes/Internal/CGVector+Extensions.swift:54-56 | After `lhs += rhs`, subtracting `rhs` gives back the old `lhs`. |
| Vectors.SubAssign | WZCardSlide/Classes/Internal/CGVector+Extensions.swift:58-60 | After `lhs -= rhs`, adding `rhs` gives back the old `lhs`. |
| Vectors.ScaleAssign | WZCardSlide/Classes/Internal/CGVector+Extensions.swift:62-64 | `*=` by a real gives the same result as the left scalar product. |
| Vectors.ScaleAssignInt | WZCardSlide/Classes/Internal/CGVector+Extensions.swift:66-68 | `*=` by an integer gives the same result as the left scalar product with the converted integer. |
| Vectors.DivAssign | WZCardSlide/Classes/Internal/CGVector+Extensions.swift:70-72 | `/=` by a non-zero real is the same as scaling by its reciprocal. |
| Vectors.DivAssignInt | WZCardSlide/Classes/Internal/CGVector+Extensions.swift:74-76 | `/=` by a non-zero integer is the same as scaling by its reciprocal. |
| Vectors.Dot | WZCardSlide/Classes/Internal/CGVector+Extensions.swift:78-80 | The `*` between two vectors is zero when either is zero and non-negative for a vector with itself; `Vectors.DotCommutative` and `Vectors.DotBilinear` give its algebra. |
| Vectors.DotCommutative | WZCardSlide/Classes/Internal/CGVector+Extensions.swift:78-80 | The `*` dot product is symmetric. |
| Vectors.DotBilinear | WZCardSlide/Classes/Internal/CGVector+Extensions.swift:78-80 | The dot product is linear in each argument, for both addition and scaling. |
| Vectors.NegInvolution | WZCardSlide/Classes/Internal/CGVector+Extensions.swift:14-20 | Negating twice gives back the vector, and unary plus returns its operand unchanged. |
| Vectors.ScalarCommutes | WZCardSlide/Classes/Internal/CGVector+Extensions.swift:30-40 | `scalar * vector` and `vector * scalar` agree. |
| Vectors.DivIsScaleByReciprocal | WZCardSlide/Classes/Internal/CGVector+Extensions.swift:46-48 | Division by s is scaling by 1/s. |
| ArrayExt.ShiftOffset | WZCardSlide/Classes/Internal/Array+Extensions.swift:14-20 | The rotation offset is defined exactly for distances in [-n, n]; it is the distance itself or n plus the distance. |
| ArrayExt.Shift | WZCardSlide/Classes/Internal/Array+Extensions.swift:14-20 | `shift(withDistance:)` keeps the length and the elements (as a multiset); outside [-n, n] it leaves the array alone; otherwise element i of the result is element (i + offset) mod n of the input. |
| ArrayExt.ShiftNonNegative | WZCardSlide/Classes/Internal/Array+Extensions.swift:14-20 | For 0 <= d <= n the result is the suffix from d followed by the prefix before d. |
| ArrayExt.ShiftNegative | WZCardSlide/Classes/Internal/Array+Extensions.swift:14-20 | For -n <= d < 0 the rotation starts at n + d. |
| ArrayExt.ShiftExample | WZCardSlide/Classes/Internal/Array+Extensions.swift:14-20 | On [0,1,2,3,4] a shift of 2 gives [2,3,4,0,1], a shift of -2 gives [3,4,0,1,2], and a shift of 7 changes nothing. |
| ArrayExt.ShiftIdentities | WZCardSlide/Classes/Internal/Array+Extensions.swift:14-20 | Shifts of 0, n and -n change nothing. |
| ArrayExt.ShiftRoundTrip | WZCardSlide/Classes/Internal/Array+Extensions.swift:14-20 | Shifting by d and then by -d restores the array. |
| ArrayExt.FirstIndex | WZCardSlide/Classes/Internal/Array+Extensions.swift:26-29 | The index of the first occurrence: it holds the value, and no earlier element does. |
| ArrayExt.RemovingDuplicates | WZCardSlide/Classes/Internal/Array+Extensions.swift:26-29 | The loop computes the first-occurrence filter; the result has no duplicates and holds exactly the input's elements. |
| ArrayExt.KeepFirstProperties | WZCardSlide/Classes/Internal/Array+Extensions.swift:26-29 | The filter gives a duplicate-free sequence with the input's elements, never longer than the input. |
| ArrayExt.KeepFirstKeepsOrder | WZCardSlide/Classes/Internal/Array+Extensions.swift:26-29 | Kept elements stay in the order of their first occurrences in the input. |
| ArrayExt.KeepFirstOfDistinct | WZCardSlide/Classes/Internal/Array+Extensions.swift:26-29 | An array without duplicates is left unchanged. |
| ArrayExt.RemoveDuplicatesIdempotent | WZCardSlide/Classes/Internal/Array+Extensions.swift:32-34 | Removing duplicates a second time changes nothing. |
| StateManager.MapUp | WZCardSlide/Classes/SwipeCardStack/CardStackStateManager.swift:99-105 | Every index at or above the inserted one moves up by one; the others stay. |
| StateManager.MapDown | WZCardSlide/Classes/SwipeCardStack/CardStackStateManager.swift:110-119 | Every index above the deleted one moves down by one; the others stay. |
| StateManager.MapUpSwipes | WZCardSlide/Classes/SwipeCardStack/CardStackStateManager.swift:99-105 | Swipes keep their directions, and their indices are renumbered as by an insertion. |
| StateManager.MapDownSwipes | WZCardSlide/Classes/SwipeCardStack/CardStackStateManager.swift:110-119 | Swipes keep their directions, and their indices are renumbered as by a deletion. |
| StateManager.RemoveSwipesOf | WZCardSlide/Classes/SwipeCardStack/CardStackStateManager.swift:110-119 | The swipes that remain are exactly those whose index is not the deleted one. |
| StateManager.FirstPosition | WZCardSlide/Classes/SwipeCardStack/CardStackStateManager.swift:110-119 | `firstIndex(of:)`: none exactly when the value is absent; otherwise the first position that holds it. |
| StateManager.TotalIndexCount | WZCardSlide/Classes/SwipeCardStack/CardStackStateManager.swift:89-91 | The total index count is the number of remaining indices plus the number of swiped ones. |
| StateManager.Reset | WZCardSlide/Classes/SwipeCardStack/CardStackStateManager.swift:188-191 | `reset(withNumberOfCards:)` leaves 0..n-1 in order with no swipes, which is a valid state for n cards. |
| StateManager.Insert | WZCardSlide/Classes/SwipeCardStack/CardStackStateManager.swift:99-105 | The new index goes at the requested position, the other indices are renumbered upwards, the swipes are renumbered, and the total count grows by one. |
| StateManager.RemoveFirst | WZCardSlide/Classes/SwipeCardStack/CardStackStateManager.swift:110-119 | Removing the first occurrence shortens the array by one when the value is present; otherwise the array is unchanged. |
| StateManager.Delete | WZCardSlide/Classes/SwipeCardStack/CardStackStateManager.swift:110-119 | `delete(_ index:)` removes the first remaining occurrence of the index, if any, and renumbers every other remaining index down as by a deletion, in order. It never adds swipes and keeps no swipe of the deleted index; every kept swipe is an old one renumbered down. |
| StateManager.DeleteAtPosition | WZCardSlide/Classes/SwipeCardStack/CardStackStateManager.swift:139-144 | Deleting at a position removes that entry, renumbers the rest downwards, and lowers the total count by one. |
| StateManager.DeleteEachAtPosition | WZCardSlide/Classes/SwipeCardStack/CardStackStateManager.swift:149-160 | Deleting position by position, each later position re-biased past the earlier removals, removes one entry per position and keeps the swipe count. |
| StateManager.DeleteAtPositions | WZCardSlide/Classes/SwipeCardStack/CardStackStateManager.swift:149-160 | Deleting at many positions removes one entry per distinct position and keeps the swipe count. |
| StateManager.SwipeTop | WZCardSlide/Classes/SwipeCardStack/CardStackStateManager.swift:164-170 | A swipe moves the first remaining index onto the end of the swipe history; with nothing left it does nothing; the total count is kept. |
| StateManager.UndoSwipe | WZCardSlide/Classes/SwipeCardStack/CardStackStateManager.swift:173-178 | Undo pops the last swipe and puts its index back in front; with no history it returns nil and does nothing; the total count is kept. |
| StateManager.Shift | WZCardSlide/Classes/SwipeCardStack/CardStackStateManager.swift:182-184 | `shift` keeps the swipes. With an offset out of range it changes nothing; otherwise remaining index i is the old one at (i + offset) mod n, a rotation. |
| StateManager.SwipePreservesValid | WZCardSlide/Classes/SwipeCardStack/CardStackStateManager.swift:164-170 | A swipe keeps "remaining plus swiped is a permutation of 0..n-1". |
| StateManager.UndoPreservesValid | WZCardSlide/Classes/SwipeCardStack/CardStackStateManager.swift:173-178 | An undo keeps the permutation invariant. |
| StateManager.SwipeUndoRoundTrip | WZCardSlide/Classes/SwipeCardStack/CardStackStateManager.swift:164-178 | Undo after a swipe returns that swipe and restores the manager exactly. |
| StateManager.ShiftPreservesValid | WZCardSlide/Classes/SwipeCardStack/CardStackStateManager.swift:182-184 | A shift keeps the permutation invariant. |
| StateManager.InsertPreservesValid | WZCardSlide/Classes/SwipeCardStack/CardStackStateManager.swift:99-105 | Inserting an index in 0..n into a valid state for n cards gives a valid state for n+1 cards. |
| StateManager.DeletePreservesValid | WZCardSlide/Classes/SwipeCardStack/CardStackStateManager.swift:110-119 | Deleting an index in 0..n-1 from a valid state for n cards gives a valid state for n-1 cards. |
| StateManager.InsertDeleteRoundTrip | WZCardSlide/Classes/SwipeCardStack/CardStackStateManager.swift:99-119 | Deleting the index that was just inserted restores the manager. |
| StateManager.DeleteAtPositionIsDelete | WZCardSlide/Classes/SwipeCardStack/CardStackStateManager.swift:139-144 | Deleting at a position is the same as deleting the index that sits there. |
| StateManager.DeleteEachPreservesValid | WZCardSlide/Classes/SwipeCardStack/CardStackStateManager.swift:124-134 | Deleting one distinct index after another, each renumbered past the earlier deletions, keeps the invariant for n minus the number deleted. |
| StateManager.DeleteManyPreservesValid | WZCardSlide/Classes/SwipeCardStack/CardStackStateManager.swift:124-134 | `delete(_ indices:)` with in-range indices keeps the invariant for n minus the number of distinct indices. |
| StateManager.FiveCardsDeleteOne | WZCardSlide/Classes/SwipeCardStack/CardStackStateManager.swift:110-119 | Deleting index 1 from five fresh cards leaves [0,1,2,3]: the later indices are renumbered. |
| StateManager.DeleteManyExample | WZCardSlide/Classes/SwipeCardStack/CardStackStateManager.swift:124-134 | Deleting [1] and deleting [1,1] from five fresh cards give the same result, because duplicates are dropped first. |
| StateManager.DeleteManyCompacts | WZCardSlide/Classes/SwipeCardStack/CardStackStateManager.swift:124-134 | Deleting many indices removes exactly those indices and renumbers each survivor down by the number of deleted indices below it, both in the remaining indices and in the swipe history. |
| StateManager.At | WZCardSlide/Classes/SwipeCardStack/CardStackStateManager.swift:149-160 | The indices found at the given positions, in order. |
| StateManager.DeleteAtPositionsIsDeleteMany | WZCardSlide/Classes/SwipeCardStack/CardStackStateManager.swift:149-160 | Deleting at positions is the same as deleting the indices that sit at the distinct positions. |
| StringUtils.IntToString | WZCardSlide/Classes/Internal/StringUtils.swift:15-20 | The decimal text of an integer is non-empty, made of digits and '-', and starts with '-' exactly for negative numbers. |
| StringUtils.IntToStringRoundTrip | WZCardSlide/Classes/Internal/StringUtils.swift:15-20 | Parsing the text gives back the integer. |
| StringUtils.IntToStringInjective | WZCardSlide/Classes/Internal/StringUtils.swift:15-20 | Different integers have different texts. |
| StringUtils.InvalidUpdateMessage | WZCardSlide/Classes/Internal/StringUtils.swift:15-20 | The message begins with the fixed head text and ends with the fixed tail text, and holds more than both. |
| StringUtils.MessageDeterminesCounts | WZCardSlide/Classes/Internal/StringUtils.swift:15-20 | Two equal messages have the same four counts, so the message identifies the update. |
| StringUtils.IntToStringExamples | WZCardSlide/Classes/Internal/StringUtils.swift:15-20 | 0, 42 and -7 are written "0", "42" and "-7". |
| CardStack.IsEnabled | WZCardSlide/Classes/SwipeCardStack/SwipeCardStack.swift:73-75 | An enabled stack is not animating; with no card visible it is enabled exactly when not animating. After a reload it is enabled iff not animating (`CardStack.LayoutEnablesTop`). |
| CardStack.TopCardIndex | WZCardSlide/Classes/SwipeCardStack/SwipeCardStack.swift:48-50 | There is a top index exactly when a card is visible, and it is the first visible card's index. |
| CardStack.LayoutEnablesTop | WZCardSlide/Classes/SwipeCardStack/SwipeCardStack.swift:144-149 | After `reloadVisibleCards` over a consistent manager, the stack is enabled exactly when it is not animating, and the one card `layoutCard` leaves interactive (position 0) is the top card alone. |
| CardStack.InteractiveAt | WZCardSlide/Classes/SwipeCardStack/SwipeCardStack.swift:144-149 | `layoutCard` leaves only position 0 interactive; `CardStack.LayoutEnablesTop` shows that after a reload this is exactly the top card. |
| CardStack.ScaleFactor | WZCardSlide/Classes/SwipeCardStack/SwipeCardStack.swift:155-161 | The scale is 1 for the top card or when scaling is off, and 0.95 otherwise. |
| CardStack.GestureShouldBegin | WZCardSlide/Classes/SwipeCardStack/SwipeCardStack.swift:176-193 | With no card, or for a gesture that is not the top card's pan, the superclass decides. Otherwise a mostly horizontal velocity asks the horizontal flag, a mostly vertical one the vertical flag, and a diagonal one the card. |
| CardStack.ReloadVisibleCards | WZCardSlide/Classes/SwipeCardStack/SwipeCardStack.swift:342-354 | Reloading keeps the manager. With a data source the visible cards are the first remaining indices, up to the visible count; without one nothing is visible. |
| CardStack.ReloadData | WZCardSlide/Classes/SwipeCardStack/SwipeCardStack.swift:319-326 | Without a data source nothing changes. Otherwise the manager is reset for the source's count, with no history, the window is rebuilt, and the stack is enabled. |
| CardStack.SwipeAction | WZCardSlide/Classes/SwipeCardStack/SwipeCardStack.swift:234-270 | With a top card: the manager records the swipe, the delegate first hears of the swiped index and direction, the all-swiped event is added exactly when nothing remains, and while cards remain the stack is animating iff the swipe was animated; when the last card goes the animating flag is left as it was. |
| CardStack.SwipeTopCard | WZCardSlide/Classes/SwipeCardStack/SwipeCardStack.swift:202-232 | The public swipe does nothing while the stack is disabled, and is the swipe action otherwise. |
| CardStack.CardDidSwipe | WZCardSlide/Classes/SwipeCardStack/SwipeCardStack.swift:535-538 | A finished drag swipes without checking `isEnabled`. The swipe is recorded and reported first, and when cards remain the stack is animating with an interactive top card. |
| CardStack.UndoLastSwipe | WZCardSlide/Classes/SwipeCardStack/SwipeCardStack.swift:275-296 | When enabled and there is history: one undo event for the last swipe, the manager pops it, and the stack stays animating unless a top card exists and the undo was not animated. With a data source the window is rebuilt, and with a positive visible count the undone card is on top. |
| CardStack.Shift | WZCardSlide/Classes/SwipeCardStack/SwipeCardStack.swift:302-316 | Nothing happens when disabled, for distance 0, or with at most one visible card. Otherwise the manager is shifted, the window is rebuilt over the rotated indices when there is a data source, and the stack is animating iff the shift is animated. |
| CardStack.CompleteAnimation | WZCardSlide/Classes/SwipeCardStack/SwipeCardStack.swift:258-313 | A completion touches only `isAnimating`: the swipe completion always clears it, while undo and shift clear it only when finished. |
| CardStack.CompleteReverseSwipe | WZCardSlide/Classes/SwipeCard/SwipeCard.swift:63-67 | The reverse-swipe completion touches only the top card's interaction, and enables it when finished. |
| CardStack.PositionForCard | WZCardSlide/Classes/SwipeCardStack/SwipeCardStack.swift:386-388 | The position is none exactly when the index is not remaining; otherwise it is where the index sits. |
| CardStack.CardForIndex | WZCardSlide/Classes/SwipeCardStack/SwipeCardStack.swift:332-338 | The card is none exactly when the index is not visible; otherwise it is the visible card at that index. |
| CardStack.NumberOfRemainingCards | WZCardSlide/Classes/SwipeCardStack/SwipeCardStack.swift:392-394 | The count of remaining indices; `CardStack.RemainingCountSizesWindow` relates it to the visible window and to a swipe. |
| CardStack.RemainingCountSizesWindow | WZCardSlide/Classes/SwipeCardStack/SwipeCardStack.swift:392-394 | Over a window, the number of visible cards is the smaller of `numberOfRemainingCards()` and the visible count, and a swipe lowers the count by one. |
| CardStack.SwipedCards | WZCardSlide/Classes/SwipeCardStack/SwipeCardStack.swift:398-400 | The swiped cards are the history's indices, in swipe order. |
| CardStack.CardDidTap | WZCardSlide/Classes/SwipeCardStack/SwipeCardStack.swift:508-511 | A tap reports the top index when there is one, and otherwise nothing. |
| CardStack.CardDidMove | WZCardSlide/Classes/SwipeCardStack/SwipeCardStack.swift:513-525 | Beginning or continuing a drag reports the top index, or 0 when there is no top card. |
| CardStack.CardEndSwiping | WZCardSlide/Classes/SwipeCardStack/SwipeCardStack.swift:527-529 | `card(endSwiping:)` forwards only `cardStackDidEndAnimating`, whatever the stack holds; `CardStack.DragBracketsEvents` places it at the end of a drag. |
| CardStack.DeliverOne | WZCardSlide/Classes/SwipeCardStack/SwipeCardStack.swift:508-544 | One card call as the stack's delegate: an end-of-drag call gives exactly one end event, a begin or continue call reports the top index (0 without one), only a swipe changes the stack, and it goes through `card(didSwipe:with:)`. |
| CardStack.Deliver | WZCardSlide/Classes/SwipeCardStack/SwipeCardStack.swift:508-544 | A card's calls delivered in order report the end of the animation exactly as often as the card called `card(endSwiping:)`, the last one last, and leave the stack alone unless a swipe is among them. |
| CardStack.DragBracketsEvents | WZCardSlide/Classes/SwipeCardStack/SwipeCardStack.swift:513-529 | A drag's began phase reports the top index as beginning to animate and changes nothing; its ended phase, swiped or sent back, reports the end exactly once and last unless the delegate vetoes the second `card(isCanMove:)`. Here that answer is any value; `CardStack.DragEnd` has the stack give it. |
| CardStack.DeliverConcat | WZCardSlide/Classes/SwipeCardStack/SwipeCardStack.swift:508-544 | Delivering two call lists one after the other is delivering them concatenated: the second starts from the stack the first left, and the events follow on. |
| CardStack.DragEnd | WZCardSlide/Classes/SwipeCard/SwipeCard.swift:156-161 | The end of a drag as the stack hears it: the card's swipe-or-cancel decision reaches the stack first. The stack answers the card's second `card(isCanMove:)` about the top card it holds then, and the end is reported, last, exactly when that answer is yes. |
| CardStack.SwipingLastCardEndsSilently | WZCardSlide/Classes/SwipeCardStack/SwipeCardStack.swift:540-543 | Swiping the last card away by a drag reports the swipe and that every card is gone, but never the end of the animation: no top card is left to answer the second `card(isCanMove:)`. |
| CardStack.SwipeAsksAboutNextCard | WZCardSlide/Classes/SwipeCardStack/SwipeCardStack.swift:540-543 | After a drag swipes a card and cards remain, the next remaining index is on top. The end is reported after the swipe exactly when the delegate lets that next card move. |
| CardStack.CancelAsksAboutSameTop | WZCardSlide/Classes/SwipeCardStack/SwipeCardStack.swift:540-543 | A cancelled drag leaves the stack unchanged. The end is reported, alone, exactly when there is a top card and the delegate lets it move. |
| CardStack.CardIsCanMove | WZCardSlide/Classes/SwipeCardStack/SwipeCardStack.swift:540-543 | Without a top card the answer is no; otherwise it is the delegate's answer, and yes when there is no delegate. |
| CardStack.InsertCard | WZCardSlide/Classes/SwipeCardStack/SwipeCardStack.swift:407-424 | Without a source nothing changes. Otherwise the outcome is fatal exactly when the new count is not the old total plus one, with the count message. On success the manager holds the inserted index. |
| CardStack.AppendAll | WZCardSlide/Classes/SwipeCardStack/SwipeCardStack.swift:429-456 | Appending adds one remaining index per appended index, with the last appended index at the end. The swipe count and directions are kept; each swipe index can only be renumbered up. |
| CardStack.TopUp | WZCardSlide/Classes/SwipeCardStack/SwipeCardStack.swift:429-456 | Refilling keeps the visible cards as a prefix and fills the window up to the visible count from the remaining indices. |
| CardStack.AppendCards | WZCardSlide/Classes/SwipeCardStack/SwipeCardStack.swift:429-456 | Without a source nothing changes. Otherwise the outcome is fatal exactly when the count check fails; on success the stack is topped up over the appended manager. |
| CardStack.DeleteCardsAsWritten | WZCardSlide/Classes/SwipeCardStack/SwipeCardStack.swift:461-477 | As written: the fatal check compares against the old total minus the RAW number of indices. A success deletes the indices and keeps the window. |
| CardStack.DeleteCards | WZCardSlide/Classes/SwipeCardStack/SwipeCardStack.swift:461-477 | Corrected: the fatal check compares against the old total minus the number of DISTINCT indices. A success deletes the indices and keeps the window. |
| CardStack.DeleteCardsAtPositionsAsWritten | WZCardSlide/Classes/SwipeCardStack/SwipeCardStack.swift:482-497 | As written: the guard subtracts the raw number of positions. A success deletes at the positions and keeps the window. |
| CardStack.DeleteCardsAtPositions | WZCardSlide/Classes/SwipeCardStack/SwipeCardStack.swift:482-497 | Corrected: the guard subtracts the number of distinct positions. A success deletes at the positions and keeps the window. |
| CardStack.SwipeKeepsWindow | WZCardSlide/Classes/SwipeCardStack/SwipeCardStack.swift:234-270 | After a swipe, the visible cards are still the first remaining indices, up to the visible count. |
| CardStack.SwipeKeepsValid | WZCardSlide/Classes/SwipeCardStack/SwipeCardStack.swift:234-270 | A swipe keeps the manager's permutation invariant. |
| CardStack.StackSwipeUndoRoundTrip | WZCardSlide/Classes/SwipeCardStack/SwipeCardStack.swift:234-296 | A non-animated swipe followed by a non-animated undo restores the stack exactly and reports the undo of the swiped card. |
| CardStack.StackShiftRoundTrip | WZCardSlide/Classes/SwipeCardStack/SwipeCardStack.swift:302-316 | On an enabled stack showing its window of two or more cards, a non-animated shift by d followed by one by -d restores the stack exactly. |
| CardStack.UndoWithoutVisibleCardStaysAnimating | WZCardSlide/Classes/SwipeCardStack/SwipeCardStack.swift:275-296 | An undo with no card to show pops the history but leaves the stack animating. Every gated operation is then a no-op. |
| CardStack.ReloadDataClearsHistory | WZCardSlide/Classes/SwipeCardStack/SwipeCardStack.swift:319-326 | After a reload, undo has nothing to pop. |
| CardStack.InsertCardKeepsValid | WZCardSlide/Classes/SwipeCardStack/SwipeCardStack.swift:407-424 | A successful insert means the source reports n+1 cards, and the manager is valid for that count. |
| CardStack.AppendNextKeepsValid | WZCardSlide/Classes/SwipeCardStack/SwipeCardStack.swift:429-456 | Appending the next k indices n..n+k-1 puts them at the end and makes the manager valid for n+k cards. |
| CardStack.TopUpKeepsWindow | WZCardSlide/Classes/SwipeCardStack/SwipeCardStack.swift:429-456 | Refilling after remaining indices were added at the end keeps the window. |
| CardStack.AppendCardsKeepsValid | WZCardSlide/Classes/SwipeCardStack/SwipeCardStack.swift:429-456 | A successful append of the next k indices means the source reports n+k cards, and the stack stays valid with its window. |
| CardStack.DeleteCardsKeepsValid | WZCardSlide/Classes/SwipeCardStack/SwipeCardStack.swift:461-477 | A successful corrected delete leaves a manager valid for the source's count. |
| CardStack.DeleteCardsAtPositionsKeepsValid | WZCardSlide/Classes/SwipeCardStack/SwipeCardStack.swift:482-497 | A successful corrected delete at positions leaves a manager valid for the source's count. |
| CardStack.DeleteCardsAgreeWithoutDuplicates | WZCardSlide/Classes/SwipeCardStack/SwipeCardStack.swift:461-477 | Without duplicate indices, the as-written and corrected deletes agree. |
| CardStack.DeleteCardsAsWrittenMiscounts | WZCardSlide/Classes/SwipeCardStack/SwipeCardStack.swift:461-477 | Three cards, source count 1, indices [1,1]: as written the delete succeeds although two cards remain, and it refuses the true count 2; the corrected delete does the opposite. |
| CardStack.DeleteCardsAtPositionsAsWrittenMiscounts | WZCardSlide/Classes/SwipeCardStack/SwipeCardStack.swift:482-497 | Three cards, source count 1, positions [1,1]: as written the delete succeeds with two cards left; the corrected delete refuses it. |
| SwipeView.DefaultPolicy | WZCardSlide/Classes/SwipeCard/SwipeView.swift:90-101 | The default minimum speed is 1100, and the minimum distance is a quarter of the screen's shorter side. |
| SwipeView.AlongIsDot | WZCardSlide/Classes/SwipeCard/SwipeView.swift:70-84 | The component of a vector along a direction is its dot product with the direction's vector. |
| SwipeView.DragPercentage | WZCardSlide/Classes/SwipeCard/SwipeView.swift:79-84 | The percentage is never negative. It is 0 when the drag does not go the direction's way, otherwise the distance over the minimum distance, and it is at least 1 exactly when the minimum distance is reached. |
| SwipeView.DragSpeed | WZCardSlide/Classes/SwipeCard/SwipeView.swift:70-73 | The speed is never negative: the absolute velocity component along the direction. |
| SwipeView.Percentages | WZCardSlide/Classes/SwipeCard/SwipeView.swift:59-64 | The percentages line up with the directions, one per direction. |
| SwipeView.Reduce | WZCardSlide/Classes/SwipeCard/SwipeView.swift:59-64 | The fold's maximum is never negative. With no winner it is 0; a winner is positive and is one of the directions, with its percentage. |
| SwipeView.ActiveDirection | WZCardSlide/Classes/SwipeCard/SwipeView.swift:59-64 | An active direction is one of the card's directions, and it was dragged a positive amount. |
| SwipeView.EndSwiping | WZCardSlide/Classes/SwipeCard/SwipeView.swift:123-132 | A swipe happens exactly when there is an active direction whose speed or distance reaches its minimum, and the swipe is in that direction. |
| SwipeView.HandlePan | WZCardSlide/Classes/SwipeCard/SwipeView.swift:148-159 | Possible and began begin a swipe, changed continues it, ended and cancelled end it, and failed is ignored. |
| SwipeView.DragPercentageMonotone | WZCardSlide/Classes/SwipeCard/SwipeView.swift:79-84 | Dragging further along a direction never lowers its percentage. |
| SwipeView.ReduceIsFirstMaximum | WZCardSlide/Classes/SwipeCard/SwipeView.swift:59-64 | The fold returns the largest percentage. On ties the first direction in the list wins, because the comparison is strict. |
| SwipeView.ActiveDirectionIsFirstMaximum | WZCardSlide/Classes/SwipeCard/SwipeView.swift:59-64 | The active direction has the largest percentage, and it is the first such direction in the list. |
| SwipeView.EndSwipingChoosesOne | WZCardSlide/Classes/SwipeCard/SwipeView.swift:123-132 | Ending a drag either swipes or cancels, never both, and it cancels when no direction is active. |
| SwipeView.AxisDragPercentages | WZCardSlide/Classes/SwipeCard/SwipeView.swift:79-84 | A drag of length s along a direction gives that direction s/minDistance and every other direction 0. |
| SwipeView.MinimumDistanceCommits | WZCardSlide/Classes/SwipeCard/SwipeView.swift:123-132 | A drag of exactly the minimum distance along one of the card's directions swipes in that direction. |
| CardTransform.OverlayPercentage | WZCardSlide/Classes/SwipeCard/CardTransformProvider.swift:50-55 | The overlay percentage lies in [0,1] and is 0 for every direction that is not the active one. |
| CardTransform.SumSplits | WZCardSlide/Classes/SwipeCard/CardTransformProvider.swift:50-55 | Over distinct directions, the sum of the percentages is the given direction's own percentage (when listed) plus the sum over the other directions. |
| CardTransform.ActiveOverlayValue | WZCardSlide/Classes/SwipeCard/CardTransformProvider.swift:50-55 | The active direction's overlay is its percentage minus the sum of the other directions' percentages, clamped to [0,1]. |
| CardTransform.RivalHidesOverlay | WZCardSlide/Classes/SwipeCard/CardTransformProvider.swift:50-55 | An overlay is 0 while another listed direction has at least its percentage. |
| CardTransform.DiagonalShowsNoOverlay | WZCardSlide/Classes/SwipeCard/CardTransformProvider.swift:50-55 | A 45-degree drag up and to the right, all four directions allowed, shows no overlay at all. |
| CardTransform.RotationDirectionY | WZCardSlide/Classes/SwipeCard/CardTransformProvider.swift:75-80 | No touch gives 0. A touch gives 1 in the upper half of the card and -1 in the lower half. |
| CardTransform.RotationAngle | WZCardSlide/Classes/SwipeCard/CardTransformProvider.swift:62-69 | No touch gives no rotation. For a rightward drag the angle never exceeds the maximum, and a drag of a screen width or more reaches it. |
| CardTransform.SingleAxisOverlay | WZCardSlide/Classes/SwipeCard/CardTransformProvider.swift:50-55 | When only one direction is dragged, its overlay is its percentage capped at 1 and every other overlay is 0. |
| CardTransform.RotationFollowsTouchHalf | WZCardSlide/Classes/SwipeCard/CardTransformProvider.swift:62-69 | The tilt does not depend on the touch's x. For a rightward drag, a touch in the upper half tilts one way and one in the lower half the other way. |
| StackTransform.BackgroundPercentage | WZCardSlide/Classes/SwipeCardStack/CardStackTransformProvider.swift:63-68 | The percentage lies in [0,1] and is 0 at rest. It is 1 exactly when twice a translation component reaches the shorter side. |
| StackTransform.BlendedScale | WZCardSlide/Classes/SwipeCardStack/CardStackTransformProvider.swift:46-54 | The background card's scale moves between its own scale (at 0) and the scale of the position above (at 1), and stays between them. |
| StackTransform.BackgroundPercentageSymmetric | WZCardSlide/Classes/SwipeCardStack/CardStackTransformProvider.swift:63-68 | The percentage ignores the signs of the components and is symmetric in the two axes. |
| StackTransform.BackgroundPercentageMonotone | WZCardSlide/Classes/SwipeCardStack/CardStackTransformProvider.swift:63-68 | A larger drag on both axes never gives a smaller percentage. |
| StackTransform.FrontCardGrowsToFull | WZCardSlide/Classes/SwipeCardStack/CardStackTransformProvider.swift:46-54 | With scaling, the card below the top grows linearly from 0.95 to 1; without scaling it stays at 1. |
| CardOptions.Clamp | WZCardSlide/Classes/SwipeCard/CardAnimationOptions.swift:74-88 | The clamp lands in range, keeps in-range values, and saturates at the bounds. |
| CardOptions.Make | WZCardSlide/Classes/SwipeCard/CardAnimationOptions.swift:74-88 | Every option is pulled into its legal range, and options already in range are kept. |
| CardOptions.Default | WZCardSlide/Classes/SwipeCard/CardAnimationOptions.swift:74-88 | The defaults are in range: the maximum rotation is pi/10, both fade fractions are 0.15, damping 0.5, reset 0.6, reverse 0.25, swipe 0.7. |
| CardOptions.MakeIdempotent | WZCardSlide/Classes/SwipeCard/CardAnimationOptions.swift:74-88 | Correcting options twice changes nothing more. |
| CardOptions.MakeSaturates | WZCardSlide/Classes/SwipeCard/CardAnimationOptions.swift:74-88 | Out-of-range rotations go to plus or minus pi/2, negative durations go to 0, and damping above 1 goes to 1. |
| StackOptions.FloorOptional | WZCardSlide/Classes/SwipeCardStack/CardStackAnimationOptions.swift:45-68 | An optional duration stays absent or present; a present one is floored at 0 and otherwise kept. |
| StackOptions.Make | WZCardSlide/Classes/SwipeCardStack/CardStackAnimationOptions.swift:45-68 | All durations become non-negative, optionality is kept, and non-negative options are unchanged. |
| StackOptions.Default | WZCardSlide/Classes/SwipeCardStack/CardStackAnimationOptions.swift:45-68 | The defaults: no reset, swipe or undo override, and a shift of 0.1. |
| StackOptions.MakeIdempotent | WZCardSlide/Classes/SwipeCardStack/CardStackAnimationOptions.swift:45-68 | Correcting twice changes nothing more. |
| CardAnimator.RelativeSwipeOverlayFadeDuration | WZCardSlide/Classes/SwipeCard/CardAnimator.swift:188-196 | The option value for a forced swipe with an overlay, else 0. |
| CardAnimator.RelativeReverseSwipeOverlayFadeDuration | WZCardSlide/Classes/SwipeCard/CardAnimator.swift:179-186 | The option value when an overlay exists, else 0. |
| CardAnimator.SwipeKeyframes | WZCardSlide/Classes/SwipeCard/CardAnimator.swift:135-177 | The overlay fade runs first and the transform fills the rest, ending at the animation's end. |
| CardAnimator.ReverseSwipeKeyframes | WZCardSlide/Classes/SwipeCard/CardAnimator.swift:115-133 | The transform runs first and the overlay fade takes the final share. |
| CardAnimator.SwipeDuration | WZCardSlide/Classes/SwipeCard/CardAnimator.swift:198-211 | Forced swipes and swipes slower than the minimum take the configured time. A fast drag takes 1 over its speed in units of the minimum speed: duration times speed is the minimum speed, in (0, 1]. |
| CardAnimator.SwipeRotationAngle | WZCardSlide/Classes/SwipeCard/CardAnimator.swift:214-233 | Vertical swipes do not rotate; horizontal ones rotate by plus or minus twice the maximum angle. |
| CardAnimator.SwipeTranslation | WZCardSlide/Classes/SwipeCard/CardAnimator.swift:258-266 | Each component of the given vector is scaled by the larger screen side plus the card's diagonal; `CardAnimator.AxisTranslationLeavesScreen` gives the forced up or down case. |
| CardAnimator.ReverseSwipeOverlaysAsWritten | WZCardSlide/Classes/SwipeCard/CardAnimator.swift:124-126 | As written, the loop writes only the swiped direction's overlay, with the last listed direction's test, and leaves the others as they were. |
| CardAnimator.ReverseSwipeOverlays | WZCardSlide/Classes/SwipeCard/CardAnimator.swift:124-126 | Corrected: every listed direction's overlay is shown for the swiped direction and hidden for the others. |
| CardAnimator.SwipeOverlays | WZCardSlide/Classes/SwipeCard/CardAnimator.swift:141-143 | Before a swipe, every listed overlay other than the swiped direction's is hidden, and the rest are untouched. |
| CardAnimator.KeyframesFitInside | WZCardSlide/Classes/SwipeCard/CardAnimator.swift:115-196 | With options in range, both keyframe plans stay within [0,1]. |
| CardAnimator.FasterIsShorter | WZCardSlide/Classes/SwipeCard/CardAnimator.swift:198-211 | A faster drag above the minimum speed never gives a longer swipe. |
| CardAnimator.SwipeRotationCases | WZCardSlide/Classes/SwipeCard/CardAnimator.swift:214-233 | Forced or touchless swipes rotate one way fixed by the direction; touch swipes follow the touch half, and the two halves turn opposite ways. |
| CardAnimator.AxisTranslationLeavesScreen | WZCardSlide/Classes/SwipeCard/CardAnimator.swift:258-266 | `swipeTranslation` of a direction's unit vector, as a forced up or down swipe uses it, runs along that axis only, with length the larger screen side plus the card's diagonal. |
| CardAnimator.SwipeTransform | WZCardSlide/Classes/SwipeCard/CardAnimator.swift:235-256 | A forced swipe to the right ends at the fixed pose (1566.675…, 894.169…) rotated by 0.628… and the left one at its mirror image; a forced vertical swipe moves along its axis off screen without rotating; a drag is thrown along the normalised drag by `swipeTranslation`, rotated by `swipeRotationAngle`. |
| CardAnimator.ForcedSidewaysPoseIsFixed | WZCardSlide/Classes/SwipeCard/CardAnimator.swift:239-246 | The forced left and right poses mirror each other, move the card down and outward, and depend on neither the screen, the card nor the touch. |
| CardAnimator.ReplayedSwipeOverlays | WZCardSlide/Classes/SwipeCard/CardAnimator.swift:75-80 | The zero-length replay of the swipe before a reverse swipe leaves the swiped direction's overlay at 1, hides every other listed overlay, and leaves unlisted ones alone. |
| CardAnimator.ReverseSwipeOverlaysAsWrittenHidesOverlay | WZCardSlide/Classes/SwipeCard/CardAnimator.swift:75-126 | Undoing a left swipe with the default directions, from any overlays: the replay leaves left at 1, and as written the loop drops it to 0 before its fade-out, with every other overlay at 0. The corrected loop keeps left at 1 and the others at 0. |
| CardAnimator.ReverseAndSwipeHideTheOthers | WZCardSlide/Classes/SwipeCard/CardAnimator.swift:124-143 | Both animations hide every listed overlay other than the swiped direction's. |
| StackAnimator.ShiftDuration | WZCardSlide/Classes/SwipeCardStack/CardStackAnimator.swift:256-258 | The shift animation lasts the configured shift duration; `StackAnimator.AnimateShift` completes after it, and `StackAnimator.DurationsNonNegative` keeps it non-negative. |
| StackAnimator.ResetDuration | WZCardSlide/Classes/SwipeCardStack/CardStackAnimator.swift:251-254 | The override when set; otherwise half the card's total reset duration. |
| StackAnimator.SwipeDelay | WZCardSlide/Classes/SwipeCardStack/CardStackAnimator.swift:260-265 | No delay unless forced; a forced swipe waits for the overlay fade. |
| StackAnimator.SwipeDuration | WZCardSlide/Classes/SwipeCardStack/CardStackAnimator.swift:267-288 | A configured swipe duration wins. |
| StackAnimator.UndoDuration | WZCardSlide/Classes/SwipeCardStack/CardStackAnimator.swift:290-293 | The override when set; otherwise half the card's reverse-swipe duration. |
| StackAnimator.AnimateShift | WZCardSlide/Classes/SwipeCardStack/CardStackAnimator.swift:102-126 | The cards end at positions 0.. . An animated shift starts them `distance` positions further and completes after the shift duration; a non-animated one completes at once with finished. |
| StackAnimator.AnimateUndo | WZCardSlide/Classes/SwipeCardStack/CardStackAnimator.swift:179-203 | The background cards end at positions 1.. . Animated, they start one position higher; non-animated, the undo completes at once. |
| StackAnimator.AnimateSwipe | WZCardSlide/Classes/SwipeCardStack/CardStackAnimator.swift:136-171 | The cards end laid out at 0.. . Non-animated completes at once; with no card left the completion waits delay plus duration. |
| StackAnimator.AnimateReset | WZCardSlide/Classes/SwipeCardStack/CardStackAnimator.swift:85-94 | The background cards return to positions 1.., with no completion. |
| StackAnimator.SwipeDurationIsHalfTheCards | WZCardSlide/Classes/SwipeCardStack/CardStackAnimator.swift:267-288 | Without an override, the stack's swipe takes half as long as the card's. |
| StackAnimator.ConfiguredSwipeDurationWins | WZCardSlide/Classes/SwipeCardStack/CardStackAnimator.swift:267-288 | With an override, the duration depends on neither the drag nor forcing. |
| StackAnimator.DurationsNonNegative | WZCardSlide/Classes/SwipeCardStack/CardStackAnimator.swift:251-293 | With corrected options every duration and delay is non-negative. |
| StackAnimator.ForcedDelayMatchesOverlayFade | WZCardSlide/Classes/SwipeCardStack/CardStackAnimator.swift:260-265 | A forced swipe's delay is the card's overlay fade time. |
| CardLayout.ContentFrame | WZCardSlide/Classes/SwipeCard/CardLayoutProvider.swift:38-47 | An opaque footer puts the content above it; otherwise the content fills the card. |
| CardLayout.FooterFrame | WZCardSlide/Classes/SwipeCard/CardLayoutProvider.swift:53-58 | The footer spans the card's width and sits at its bottom with its own height. |
| CardLayout.OverlayContainerFrame | WZCardSlide/Classes/SwipeCard/CardLayoutProvider.swift:64-72 | Any footer keeps the overlays above it; with none they fill the card. |
| CardLayout.OpaqueFooterTiles | WZCardSlide/Classes/SwipeCard/CardLayoutProvider.swift:38-58 | With an opaque footer, content and footer tile the card exactly. |
| CardLayout.OverlaysAvoidEveryFooter | WZCardSlide/Classes/SwipeCard/CardLayoutProvider.swift:38-72 | The overlays sit just above any footer; a transparent footer lets the content fill the card. |
| StackLayout.CardContainerFrame | WZCardSlide/Classes/SwipeCardStack/CardStackLayoutProvider.swift:33-37 | The container is the stack's bounds inset on all four sides. |
| StackLayout.CardFrame | WZCardSlide/Classes/SwipeCardStack/CardStackLayoutProvider.swift:43-46 | The card fills the container, at its origin. |
| StackLayout.InsetsMoveOneEdge | WZCardSlide/Classes/SwipeCardStack/CardStackLayoutProvider.swift:33-37 | Growing one inset moves exactly that edge of the container. |
| ViewTree.SetUserInteraction | WZCardSlide/Classes/Internal/UIView+Extensions.swift:15-20 | Every view in the tree gets the flag; the tree's shape and attributes are kept. |
| ViewTree.SetEach | WZCardSlide/Classes/Internal/UIView+Extensions.swift:17-19 | Each subview is updated recursively, in order. |
| ViewTree.SetOnUniformTree | WZCardSlide/Classes/Internal/UIView+Extensions.swift:15-20 | A tree already uniformly set is unchanged. |
| ViewTree.SetUserInteractionIdempotent | WZCardSlide/Classes/Internal/UIView+Extensions.swift:15-20 | Setting the same flag twice is setting it once. |
| ViewTree.LastSetWins | WZCardSlide/Classes/Internal/UIView+Extensions.swift:15-20 | Of two settings only the last one counts. |
| SwipeCard.SetOverlay | WZCardSlide/Classes/SwipeCard/SwipeCard.swift:183-192 | Setting an overlay installs it hidden for its direction, and removing one (nil) drops it. Other directions are untouched. |
| SwipeCard.OverlayFor | WZCardSlide/Classes/SwipeCard/SwipeCard.swift:200-202 | There is an overlay exactly when one is set for the direction, and it is the one set. |
| SwipeCard.SetOverlays | WZCardSlide/Classes/SwipeCard/SwipeCard.swift:194-198 | Only the overlays change. |
| SwipeCard.Tap | WZCardSlide/Classes/SwipeCard/SwipeCard.swift:129-133 | A tap records the touch and calls `card(didTap:)`; what the touch is for is in `SwipeCard.TouchFeedsTilt`. |
| SwipeCard.BeginSwiping | WZCardSlide/Classes/SwipeCard/SwipeCard.swift:135-141 | The start of a drag records the touch, calls `card(didBeginSwipe:)` and stops running animations; `SwipeCard.TouchFeedsTilt` shows the drag's tilt reads that touch. |
| SwipeCard.TouchFeedsTilt | WZCardSlide/Classes/SwipeCard/SwipeCard.swift:129-149 | The touch a tap or a drag start records is the one the drag's tilt reads: a rightward drag held in the upper half tilts positively, and a card with no recorded touch does not tilt. |
| SwipeCard.ContinueSwiping | WZCardSlide/Classes/SwipeCard/SwipeCard.swift:143-154 | A delegate veto changes nothing. Otherwise the delegate hears of the move, the card follows the translation, and each overlay keeps its view and takes its overlay percentage as alpha, which lies in [0,1]. Nothing else about the card changes. |
| SwipeCard.SwipeAction | WZCardSlide/Classes/SwipeCard/SwipeCard.swift:211-220 | A swipe stops the card accepting touches and starts one swipe animation; `SwipeCard.SwipeThenComplete` gives its completion. |
| SwipeCard.SwipeThenComplete | WZCardSlide/Classes/SwipeCard/SwipeCard.swift:211-220 | After a swipe the card refuses touches; once the animation finishes the card is removed, and an unfinished animation leaves it in place. |
| SwipeCard.Swipe | WZCardSlide/Classes/SwipeCard/SwipeCard.swift:207-209 | The programmatic swipe is forced: the card becomes non-interactive and a forced swipe animates. |
| SwipeCard.DidSwipeRoute | WZCardSlide/Classes/SwipeCard/SwipeCard.swift:163-171 | A veto does nothing. Otherwise the delegate hears of the swipe first, then an unforced swipe animates. |
| SwipeCard.DidCancelRoute | WZCardSlide/Classes/SwipeCard/SwipeCard.swift:173-179 | The card always animates back, and it notifies the delegate first only when asked to. |
| SwipeCard.DecideEnd | WZCardSlide/Classes/SwipeCard/SwipeView.swift:123-132 | The swipe-or-cancel decision at the end of a drag is the swipe route for the chosen direction or the cancel route, and never reports the end of the drag. |
| SwipeCard.EndSwiping | WZCardSlide/Classes/SwipeCard/SwipeCard.swift:156-161 | The end of the drag is reported last, unless the delegate vetoes when asked the second time. |
| SwipeCard.OnPan | WZCardSlide/Classes/SwipeCard/SwipeView.swift:148-159 | A failed gesture does nothing. Began or possible begin a drag, changed continues it (or is vetoed), and ended or cancelled end it, reporting the end last unless vetoed. |
| SwipeCard.ReverseSwipe | WZCardSlide/Classes/SwipeCard/SwipeCard.swift:224-231 | A reverse swipe stops the card accepting touches and starts one reverse animation; `SwipeCard.SwipeReverseRoundTrip` shows it undoes a swipe. |
| SwipeCard.SwipeReverseRoundTrip | WZCardSlide/Classes/SwipeCard/SwipeCard.swift:211-231 | A swipe followed by a reverse swipe, both finished, gives back the card as it was, accepting touches. |
| SwipeCard.CompleteSwipe | WZCardSlide/Classes/SwipeCard/SwipeCard.swift:56-60 | The swipe completion removes the card when finished, and changes nothing else. |
| SwipeCard.CompleteReverseSwipe | WZCardSlide/Classes/SwipeCard/SwipeCard.swift:63-67 | The reverse completion re-enables the card when finished, and changes nothing else. |
| SwipeCard.SetOverlaysSetsEach | WZCardSlide/Classes/SwipeCard/SwipeCard.swift:194-198 | With distinct directions each entry ends up installed and hidden, and directions not listed are left alone. |
| SwipeCard.OverlayForReturnsLastSet | WZCardSlide/Classes/SwipeCard/SwipeCard.swift:183-202 | Reading an overlay returns the last one set for that direction. |
| SwipeCard.ReverseSwipeInteraction | WZCardSlide/Classes/SwipeCard/SwipeCard.swift:224-231 | After a reverse swipe, the card accepts touches again exactly when the completion finished. |
| SwipeCard.EndSwipingStartsOneAnimation | WZCardSlide/Classes/SwipeCard/SwipeCard.swift:156-179 | Ending a drag starts one animation, a swipe or a reset, unless the swipe is vetoed. The delegate hears of a swipe only together with its animation. |
| SlideConfig.Default | WZCardSlide/Classes/WZSlideCardConfig.swift:37-100 | Defaults: 3 visible cards, spacing 10, minimum scale 0.8, pile, horizontal removal, distances of a quarter of the screen, velocities 1000 and 500, angles 10 and 5. |
| SlideConfig.CorrectScale | WZCardSlide/Classes/WZSlideCardConfig.swift:107-112 | The minimum scale is clamped into [0.1, 1]. |
| SlideConfig.CorrectRemoveMaxAngle | WZCardSlide/Classes/WZSlideCardConfig.swift:115-127 | The result is always -pi/18, whatever the setting. |
| SlideConfig.CorrectHorizontalRemoveDistance | WZCardSlide/Classes/WZSlideCardConfig.swift:130-132 | The distance is floored at 10. |
| SlideConfig.CorrectHorizontalRemoveVelocity | WZCardSlide/Classes/WZSlideCardConfig.swift:135-137 | The velocity is floored at 100. |
| SlideConfig.CorrectVerticalRemoveDistance | WZCardSlide/Classes/WZSlideCardConfig.swift:140-142 | The distance is floored at 50. |
| SlideConfig.CorrectVerticalRemoveVelocity | WZCardSlide/Classes/WZSlideCardConfig.swift:145-147 | The velocity is floored at 100. |
| SlideConfig.DemarcationDegrees | WZCardSlide/Classes/WZSlideCardConfig.swift:150-158 | The angle is clamped into [5, 85] degrees. |
| SlideConfig.CorrectDemarcationAngle | WZCardSlide/Classes/WZSlideCardConfig.swift:150-158 | In radians, between 5 and 85 degrees, and equal to the setting when that is in range. |
| SlideConfig.CorrectScaleIdempotent | WZCardSlide/Classes/WZSlideCardConfig.swift:107-112 | Correcting a corrected scale changes nothing. |
| SlideConfig.RemoveMaxAngleIgnored | WZCardSlide/Classes/WZSlideCardConfig.swift:115-127 | Two configurations give the same angle: the setting is never read. |
| SlideConfig.CorrectionsAreFloors | WZCardSlide/Classes/WZSlideCardConfig.swift:130-147 | Each distance and velocity correction is the maximum of its floor and the setting. |
| SlideView.CorrectCardSpacing | WZCardSlide/Classes/WZSlideCardView.swift:219-227 | The spacing is clamped into [0, height/2]. |
| SlideView.ShowCount | WZCardSlide/Classes/WZSlideCardView.swift:69-72 | The number of cards shown is the smaller of the count and the visible count. |
| SlideView.ScaleStep | WZCardSlide/Classes/WZSlideCardView.swift:74-77 | The scale step is never negative. |
| SlideView.LaidOut | WZCardSlide/Classes/WZSlideCardView.swift:79-89 | A laid-out card holds its index and spans the view's width from x = 0. |
| SlideView.Reload | WZCardSlide/Classes/WZSlideCardView.swift:59-125 | Reload starts at index 0 with the shown cards 0.., stores them as the stable layout, and gives the top card scale 1. |
| SlideView.Ratio | WZCardSlide/Classes/WZSlideCardView.swift:158-174 | The ratio lies in [-1,1], saturates beyond the removal distance, is the distance over the removal distance in between, and is positive exactly for positive distances. |
| SlideView.HorizontalRatio | WZCardSlide/Classes/WZSlideCardView.swift:166-174 | The horizontal ratio is the x distance over the corrected horizontal removal distance, clamped to [-1,1]. |
| SlideView.VerticalRatio | WZCardSlide/Classes/WZSlideCardView.swift:157-164 | The vertical ratio is the y distance over the corrected vertical removal distance, clamped to [-1,1]. |
| SlideView.DragRotation | WZCardSlide/Classes/WZSlideCardView.swift:177 | The rotation is the horizontal ratio times -pi/18: at most pi/18 either way, and negative for a rightward drag. |
| SlideView.MoveRatio | WZCardSlide/Classes/WZSlideCardView.swift:178-183 | The ratio that drives the other cards is the absolute ratio along the removal axis, in [0,1]. |
| SlideView.Moving | WZCardSlide/Classes/WZSlideCardView.swift:230-261 | Exactly the pinned cards are untouched while dragging. |
| SlideView.BeganPan | WZCardSlide/Classes/WZSlideCardView.swift:146-150 | The began phase reports the top card's index, then installs the next card; on a full window the window is kept (`SlideView.InstallThenRestore` undoes it). |
| SlideView.ChangedPan | WZCardSlide/Classes/WZSlideCardView.swift:151-184 | A changed phase tilts the top card by the horizontal ratio times -pi/18, moves the other cards by the ratio along the removal axis, and reports the top card's index. |
| SlideView.DismissAsWritten | WZCardSlide/Classes/WZSlideCardView.swift:186-206 | As written, a dismissal needs a vertical move above 0.1. |
| SlideView.Dismiss | WZCardSlide/Classes/WZSlideCardView.swift:186-206 | Corrected: a dismissal happens iff the drag is far or fast enough on the removal axis, moves vertically by more than 0.1, and lies on that axis's side of the demarcation angle. |
| SlideView.EndPanAsWritten | WZCardSlide/Classes/WZSlideCardView.swift:186-208 | As written: the card disappears exactly when the pan ended (not cancelled or failed) and the written test passes. |
| SlideView.EndPan | WZCardSlide/Classes/WZSlideCardView.swift:186-208 | Corrected: the card disappears exactly when the pan ended and the corrected test passes. |
| SlideView.CancelledPanRestores | WZCardSlide/Classes/WZSlideCardView.swift:207-208 | A cancelled or failed pan restores the card, in both versions. |
| SlideView.NextCardIndex | WZCardSlide/Classes/WZSlideCardView.swift:292-312 | A card is fetched only when one is shown and cards remain below the window. |
| SlideView.InstallNextCard | WZCardSlide/Classes/WZSlideCardView.swift:292-335 | With a card to fetch, it goes below the bottom card with the bottom card's scale and frame; otherwise nothing changes. |
| SlideView.RestoreComplete | WZCardSlide/Classes/WZSlideCardView.swift:264-289 | A finished restore reports a non-moving end, and drops an extra bottom card only. |
| SlideView.MoveUp | WZCardSlide/Classes/WZSlideCardView.swift:406-419 | Each unpinned card takes the stored layout of the card above it; the cards keep their identities. |
| SlideView.DisappearComplete | WZCardSlide/Classes/WZSlideCardView.swift:402-432 | The top card goes. Each unpinned card takes the layout stored for the card above it, a pinned extra bottom card keeps its own, and the index advances unless it was the last card. The end is reported as moved. |
| SlideView.Restack | WZCardSlide/Classes/WZSlideCardView.swift:478-485 | Cards with a stable slot take its layout; the others are kept. |
| SlideView.Revoke | WZCardSlide/Classes/WZSlideCardView.swift:436-485 | Unless blocked, the previous card goes on top and the others follow. Cards with a slot in the last reload's layout take its scale and frame, the rest keep theirs, and a revoke is running. |
| SlideView.RevokeComplete | WZCardSlide/Classes/WZSlideCardView.swift:487-498 | The index steps back, revoking ends, and an extra bottom card is dropped. |
| SlideView.Tap | WZCardSlide/Classes/WZSlideCardView.swift:133-136 | A tap selects the current index when a card is shown, and does nothing otherwise. |
| SlideView.TapSelectsTopCard | WZCardSlide/Classes/WZSlideCardView.swift:133-136 | Over a window the selected index is the top card's data index; right after a reload it is 0. |
| SlideView.ReloadMakesWindow | WZCardSlide/Classes/WZSlideCardView.swift:59-125 | After a reload the laid-out cards are the consecutive indices from 0, within the count. |
| SlideView.LadderNonIncreasing | WZCardSlide/Classes/WZSlideCardView.swift:74-91 | Scales never grow going down the ladder. |
| SlideView.LadderBottom | WZCardSlide/Classes/WZSlideCardView.swift:74-91 | With two or more cards the bottom card has the corrected minimum scale. |
| SlideView.LadderFrames | WZCardSlide/Classes/WZSlideCardView.swift:79-89 | Full cards fill the height; piled cards are spaced by the corrected spacing with equal heights, and the bottom card reaches the bottom. |
| SlideView.FullDragReachesNextRung | WZCardSlide/Classes/WZSlideCardView.swift:151-184 | A horizontal drag over the full removal distance tilts by pi/18 and brings each unpinned card to the layout above it; an unmoved drag leaves every card in place. |
| SlideView.MovingInterpolates | WZCardSlide/Classes/WZSlideCardView.swift:230-261 | A moving card is between its own layout and the one above, reaching each at ratio 0 and 1. |
| SlideView.LerpBetween | WZCardSlide/Classes/WZSlideCardView.swift:230-261 | Interpolation stays between its ends and hits them at 0 and 1. |
| SlideView.FlatDragIsRestored | WZCardSlide/Classes/WZSlideCardView.swift:186-206 | A drag with vertical move at most 0.1 is restored, as written and corrected. |
| SlideView.DismissAgreesHorizontally | WZCardSlide/Classes/WZSlideCardView.swift:186-206 | For horizontal removal, or equal distances, the two tests agree. |
| SlideView.VerticalDismissReadsHorizontalDistance | WZCardSlide/Classes/WZSlideCardView.swift:199 | Default config on 400x800, vertical removal, dy 150: as written dismissed, corrected not. |
| SlideView.NextCardIsBelowWindow | WZCardSlide/Classes/WZSlideCardView.swift:292-312 | The fetched index is always just below the window; the wrap-around branches never run. |
| SlideView.InstallKeepsWindow | WZCardSlide/Classes/WZSlideCardView.swift:292-335 | Installing onto a full window keeps the window. |
| SlideView.InstallThenRestore | WZCardSlide/Classes/WZSlideCardView.swift:264-335 | Installing then a finished restore leaves a full stack as it was. |
| SlideView.DisappearKeepsWindow | WZCardSlide/Classes/WZSlideCardView.swift:402-432 | Throwing away the top card keeps the window. |
| SlideView.RevokeKeepsWindow | WZCardSlide/Classes/WZSlideCardView.swift:436-498 | A completed revoke keeps the window. |
| SlideView.DisappearThenRevoke | WZCardSlide/Classes/WZSlideCardView.swift:402-498 | Bringing back the thrown card restores the index and the same cards in the same order. That is every card when the window held no extra bottom card, and every card but that one otherwise. |

## Left out

- Affine transforms are not modelled. A card's pose is its translation and rotation. The
  stack's background transform is reduced to its scale. The hard-coded keyframe in
  `addSwipeAnimationKeyFrames` for forced left/right swipes (rotation 0.1 rad, translation of a
  third of the screen) is left out.
- CardAnimator.SwipeTransform: the normalised drag translation is an input (`dragUnit`),
  because normalising uses `hypot`. Forced left and right swipes use the fixed poses of
  CardAnimator.swift:239-246; `SwipeTranslation` and `SwipeRotationAngle` apply to drags and
  forced up or down swipes only.
- Trigonometry, `hypot` and vector length/normalisation are left out. `tan` and π are inputs.
  Floating point is modelled as exact reals.
- The animation runtime (`Animator`), `UIView` rendering, `layoutSubviews`, anchor points and
  the card centres in `WZSlideCardView`'s disappear/revoke animations are left out. Only the
  resulting indices, scales and frames are kept. The frames in `SlideView.Info` are the frames
  the code assigns, not UIKit's `frame` read back from a scaled (and, while dragged, rotated)
  view. The source builds its infos and copies the bottom card's frame from such views, so its
  stored y values differ from the model's by h·(1 − s) for a card of height h at scale s. The card views and
  centre coordinates passed to the slide view's delegate are left out; its calls keep the index.
- `NotificationCenter` (the swipe-finished notification) and `DispatchQueue.main.asyncAfter`
  are left out. The latter is an `After(seconds)` completion in `StackAnimator`.
- `TapGestureRecognizer` and the UIKit gesture plumbing are left out. The recognizer's state,
  translation, velocity and touch location are inputs.
- `CGPoint+Extensions` is folded into `Vectors`. `CGVector(size)` is used only for the card's
  diagonal in `swipeTranslation`, through `length`; the model takes that diagonal as the
  `cardDiagonal` parameter.
- The delegate and data-source protocol files (`SwipeCardDelegate`, `SwipeCardStackDelegate`,
  `SwipeCardStackDataSource`, `WZSlideCardDelegate`) are not modelled as code. The model keeps
  their events as datatypes and their answers as inputs. The data source always returns a card.
- The example app is left out.
- Swift runtime traps are preconditions, not modelled error paths:
  - an out-of-range `insert(_:at:)` in `StateManager.Insert` and `CardStack.InsertCard`;
  - an out-of-range `remove(at:)` in `StateManager.DeleteAtPosition`,
    `StateManager.DeleteEachAtPosition`, `StateManager.DeleteAtPositions` and the two
    `CardStack.DeleteCardsAtPositions` variants;
  - the range `0..<n` with `n < 0` in `StateManager.Reset`, and the top-up range in
    `CardStack.AppendCards` when the window holds more cards than remain;
  - the force unwrap `infos.first!` in `SlideView.RestoreComplete`.
- Division by zero is not modelled:
  - `Vectors.Div` and `Vectors.DivInt` require a non-zero divisor. Swift would give infinite
    or NaN components.
  - `SwipeView.DragPercentage` and `CardTransform.RotationAngle` require a positive minimum
    distance and a positive screen width.
  - `StackTransform.BackgroundPercentage` requires a stack of positive size.
  - The swipe durations require a positive minimum speed. Swift would compute infinity or NaN
    in these cases.
- `CGRect` standardisation of negative sizes is not modelled.
- StackAnimator.SwipeDuration: only the override case is stated in its own contract. The
  remaining cases are in `SwipeDurationIsHalfTheCards`.
- SwipeCard.SetOverlays: its own contract says only that nothing but the overlays changes. What
  it installs is stated by `SwipeCard.SetOverlaysSetsEach`, for distinct directions, which is
  what a Swift dictionary argument guarantees.
- EndPan: decides with the corrected test `Dismiss`, not with line 199 as written.
  `SlideView.EndPanAsWritten` is the pan handler as written; the two differ only for vertical
  removal (`DismissAgreesHorizontally`, `VerticalDismissReadsHorizontalDistance`).
- SwipeCard.Tap and SwipeCard.BeginSwiping: their own contracts only list what they record and
  call. What the recorded touch is for is stated by `SwipeCard.TouchFeedsTilt`.
- SlideView.DismissAsWritten: its own contract states only the 0.1 guard. How it differs from
  the corrected test is stated by `DismissAgreesHorizontally` and
  `VerticalDismissReadsHorizontalDistance`.

## Findings

| source | as written | input that shows it | evidently intended | confidence | as-written member | corrected member |
|---|---|---|---|---|---|---|
| WZCardSlide/Classes/WZSlideCardView.swift:199 | With vertical removal, the drag distance `abs(verticalMoveDistance)` is compared with `config.horizontalRemoveDistance`. | The default configuration on a 400 x 800 screen, switched to vertical removal (horizontal distance 100, vertical 200). The drag has dy = 150, dx = 0, no velocity, and tan of the demarcation angle is 0.0875. The card is thrown away although it moved less than the vertical distance. | Compare with `config.verticalRemoveDistance`, as the velocity test on the same line uses `verticalRemoveVelocity`. | high; not executed | SlideView.DismissAsWritten, SlideView.EndPanAsWritten, SlideView.VerticalDismissReadsHorizontalDistance | SlideView.Dismiss, SlideView.EndPan |
| WZCardSlide/Classes/SwipeCardStack/SwipeCardStack.swift:468 | `deleteCards(atIndices:)` checks the new count against `oldNumberOfCards - indices.count`. The state manager then deletes the de-duplicated indices. | Three cards; indices [1, 1]; the data source reports 1. The check passes and two cards remain. A data source that correctly reports 2 is refused with a fatal error. | Subtract the number of distinct indices, which is what the state manager removes. | medium; not executed | CardStack.DeleteCardsAsWritten, CardStack.DeleteCardsAsWrittenMiscounts | CardStack.DeleteCards |
| WZCardSlide/Classes/SwipeCardStack/SwipeCardStack.swift:488 | `deleteCards(atPositions:)` checks against `oldNumberOfCards - positions.count`. The state manager then deletes the de-duplicated positions. | Three cards; positions [1, 1]; the data source reports 1. The check passes and two cards remain. | Subtract the number of distinct positions. | medium; not executed | CardStack.DeleteCardsAtPositionsAsWritten, CardStack.DeleteCardsAtPositionsAsWrittenMiscounts | CardStack.DeleteCardsAtPositions |
| WZCardSlide/Classes/SwipeCard/CardAnimator.swift:125 | The reverse-swipe loop over `card.swipeDirections` sets `card.overlay(forDirection: direction)` instead of the loop variable's overlay. Only the swiped direction's overlay is written, once per listed direction, so the last iteration decides it. | Any card with a left overlay and the default directions [left, up, right, down]. On undoing a left swipe, the replayed swipe (lines 75-80) first hides the other overlays and raises left to 1. Then the loop's last iteration (down) sets left to 0, so its fade-out jumps from 1 to 0 and never shows. | Write `card.overlay(forDirection: swipeDirection)`: show the swiped direction's overlay and hide the others, as `addSwipeAnimationKeyFrames` does for a swipe. | high; not executed | CardAnimator.ReverseSwipeOverlaysAsWritten, CardAnimator.ReverseSwipeOverlaysAsWrittenHidesOverlay | CardAnimator.ReverseSwipeOverlays |

=== FILE: array_ext.dfy ===
/**
 * The two `Array` extensions the state manager relies on (Array+Extensions.swift):
 * a bounded rotation `shift(withDistance:)` and keep-first de-duplication.
 */
module ArrayExt {
  import opened Wrappers

  /** No element occurs twice. */
  predicate Distinct<T(==)>(s: seq<T>) {
    forall i, j :: 0 <= i < j < |s| ==> s[i] != s[j]
  }

  /**
   * The split point `shift` computes: `index(startIndex, offsetBy: d, limitedBy: endIndex)`
   * for `d >= 0`, `index(endIndex, offsetBy: d, limitedBy: startIndex)` otherwise; either is
   * `nil` when the offset leaves the array, and then the array is left alone (no wrap-around).
   */
  function ShiftOffset(n: nat, d: int): (r: Option<nat>)
    ensures r.Some? <==> -(n as int) <= d <= n
    ensures r.Some? ==> r.value <= n && (r.value == d || r.value == n + d)
  {
    if d >= 0 then (if d <= n then Some(d) else None)
    else (if n + d >= 0 then Some(n + d) else None)
  }

  /** `shift(withDistance:)`: rotate left by the offset, or leave unchanged when out of range. */
  function Shift<T>(a: seq<T>, d: int): (r: seq<T>)
    ensures |r| == |a|
    ensures multiset(r) == multiset(a)
    ensures ShiftOffset(|a|, d).None? ==> r == a
    ensures ShiftOffset(|a|, d).Some? ==>
      forall i :: 0 <= i < |a| ==> r[i] == a[(i + ShiftOffset(|a|, d).value) % |a|]
  {
    match ShiftOffset(|a|, d)
    case None => a
    case Some(k) =>
      var r := a[k..] + a[..k];
      assert a == a[..k] + a[k..];
      RotationIndex(a, k);
      r
  }

  lemma RotationIndex<T>(a: seq<T>, k: nat)
    requires k <= |a|
    ensures forall i :: 0 <= i < |a| ==> (a[k..] + a[..k])[i] == a[(i + k) % |a|]
  {
    var n := |a|;
    forall i | 0 <= i < n
      ensures (a[k..] + a[..k])[i] == a[(i + k) % n]
    {
      if i < n - k {
        assert 0 <= i + k < n;
        ModSmall(i + k, n);
        assert (a[k..] + a[..k])[i] == a[k..][i];
      } else {
        ModSubtract(i + k, n);
        assert (a[k..] + a[..k])[i] == a[..k][i - (n - k)];
      }
    }
  }

  lemma ModSmall(x: int, n: int)
    requires 0 <= x < n
    ensures x % n == x
  {
  }

  lemma ModSubtract(x: int, n: int)
    requires 0 < n <= x < 2 * n
    ensures x % n == x - n
  {
  }

  /** With `0 <= d <= n` the result is the two slices swapped. */
  lemma ShiftNonNegative<T>(a: seq<T>, d: int)
    requires 0 <= d <= |a|
    ensures Shift(a, d) == a[d..] + a[..d]
  {
  }

  /** With `-n <= d < 0` the split point is counted from the end. */
  lemma ShiftNegative<T>(a: seq<T>, d: int)
    requires -|a| <= d < 0
    ensures Shift(a, d) == a[|a| + d..] + a[..|a| + d]
  {
  }

  /** Worked example: `[0,1,2,3,4]` shifted by 2 is `[2,3,4,0,1]`. */
  lemma ShiftExample()
    ensures Shift([0, 1, 2, 3, 4], 2) == [2, 3, 4, 0, 1]
    ensures Shift([0, 1, 2, 3, 4], -2) == [3, 4, 0, 1, 2]
    ensures Shift([0, 1, 2, 3, 4], 7) == [0, 1, 2, 3, 4]
  {
    var a := [0, 1, 2, 3, 4];
    assert a[2..] + a[..2] == [2, 3, 4, 0, 1];
    assert a[3..] + a[..3] == [3, 4, 0, 1, 2];
  }

  /** Shifting by zero or by the full length changes nothing. */
  lemma ShiftIdentities<T>(a: seq<T>)
    ensures Shift(a, 0) == a
    ensures Shift(a, |a|) == a
    ensures Shift(a, -|a|) == a
  {
    assert a[0..] + a[..0] == a;
    assert a[|a|..] + a[..|a|] == a;
  }

  /** `shift(d)` followed by `shift(-d)` restores the array, for `0 <= d <= n`. */
  lemma ShiftRoundTrip<T>(a: seq<T>, d: int)
    requires 0 <= d <= |a|
    ensures Shift(Shift(a, d), -d) == a
  {
    var n := |a|;
    var b := Shift(a, d);
    var c := Shift(b, -d);
    if d == 0 {
      ShiftIdentities(a);
    } else {
      assert ShiftOffset(n, -d) == Some(n - d);
      forall i | 0 <= i < n
        ensures c[i] == a[i]
      {
        var j := (i + (n - d)) % n;
        assert c[i] == b[j];
        assert b[j] == a[(j + d) % n];
        RotateBack(i, d, n);
      }
    }
  }

  lemma RotateBack(i: int, d: int, n: int)
    requires 0 <= i < n && 0 < d <= n
    ensures ((i + (n - d)) % n + d) % n == i
  {
    if i + (n - d) < n {
      assert (i + (n - d)) % n == i + n - d;
      ModSubtract(i + n, n);
    } else {
      ModSubtract(i + (n - d), n);
      assert (i + (n - d)) % n == i - d;
    }
  }

  /**
   * Reference definition of `removingDuplicates`: the elements of `a` that do not occur
   * earlier in `a`, in their original order.
   */
  function KeepFirst<T(==)>(a: seq<T>): seq<T> {
    if |a| == 0 then []
    else
      var p := a[..|a| - 1];
      KeepFirst(p) + (if a[|a| - 1] in p then [] else [a[|a| - 1]])
  }

  /** The position of the first occurrence of `x` in `a`. */
  function FirstIndex<T(==)>(a: seq<T>, x: T): (k: nat)
    requires x in a
    ensures k < |a| && a[k] == x && x !in a[..k]
  {
    if a[0] == x then 0 else 1 + FirstIndex(a[1..], x)
  }

  /**
   * `removingDuplicates()`: `filter` that keeps an element exactly when inserting it into
   * the dictionary of seen elements finds no earlier entry.
   */
  method RemovingDuplicates<T(==)>(a: seq<T>) returns (r: seq<T>)
    ensures r == KeepFirst(a)
    ensures Distinct(r)
    ensures forall x :: x in r <==> x in a
  {
    var seen: set<T> := {};
    r := [];
    for i := 0 to |a|
      invariant r == KeepFirst(a[..i])
      invariant forall x :: x in seen <==> x in a[..i]
    {
      assert a[..i + 1][..i] == a[..i];
      if a[i] !in seen {
        r := r + [a[i]];
        seen := seen + {a[i]};
      }
    }
    assert a[..|a|] == a;
    KeepFirstProperties(a);
  }

  lemma {:induction false} KeepFirstProperties<T>(a: seq<T>)
    ensures Distinct(KeepFirst(a))
    ensures forall x :: x in KeepFirst(a) <==> x in a
    ensures |KeepFirst(a)| <= |a|
  {
    if |a| > 0 {
      var p := a[..|a| - 1];
      KeepFirstProperties(p);
      assert a == p + [a[|a| - 1]];
    }
  }

  /** The kept elements appear in the order of their first occurrence in `a`. */
  lemma {:induction false} KeepFirstKeepsOrder<T>(a: seq<T>)
    ensures forall x :: x in KeepFirst(a) ==> x in a
    ensures forall i, j :: 0 <= i < j < |KeepFirst(a)| ==>
      FirstIndex(a, KeepFirst(a)[i]) < FirstIndex(a, KeepFirst(a)[j])
  {
    KeepFirstProperties(a);
    if |a| > 0 {
      var p := a[..|a| - 1];
      var last := a[|a| - 1];
      KeepFirstKeepsOrder(p);
      KeepFirstProperties(p);
      var r := KeepFirst(a);
      var q := KeepFirst(p);
      forall x | x in p
        ensures FirstIndex(a, x) == FirstIndex(p, x)
      {
        FirstIndexOfPrefix(a, x);
      }
      forall i, j | 0 <= i < j < |r|
        ensures FirstIndex(a, r[i]) < FirstIndex(a, r[j])
      {
        assert r[i] == q[i] && r[i] in p;
        if j < |q| {
          assert r[j] == q[j] && r[j] in p;
        } else {
          assert r[j] == last && last !in p;
          assert FirstIndex(a, last) == |a| - 1;
        }
      }
    }
  }

  lemma {:induction false} FirstIndexOfPrefix<T>(a: seq<T>, x: T)
    requires |a| > 0 && x in a[..|a| - 1]
    ensures FirstIndex(a, x) == FirstIndex(a[..|a| - 1], x)
  {
    if a[0] != x {
      assert a[1..][..|a[1..]| - 1] == a[..|a| - 1][1..];
      FirstIndexOfPrefix(a[1..], x);
    }
  }

  /** A sequence without duplicates is left unchanged. */
  lemma {:induction false} KeepFirstOfDistinct<T>(a: seq<T>)
    requires Distinct(a)
    ensures KeepFirst(a) == a
  {
    if |a| > 0 {
      var p := a[..|a| - 1];
      assert Distinct(p);
      KeepFirstOfDistinct(p);
      assert a == p + [a[|a| - 1]];
    }
  }

  /** `removeDuplicates()` is idempotent: a second application changes nothing. */
  lemma RemoveDuplicatesIdempotent<T>(a: seq<T>)
    ensures KeepFirst(KeepFirst(a)) == KeepFirst(a)
  {
    KeepFirstProperties(a);
    KeepFirstOfDistinct(KeepFirst(a));
  }
}

=== FILE: card_animator.dfy ===
/**
 * `CardAnimator` (CardAnimator.swift): the timing and geometry of a card's swipe and reverse
 * swipe. Keyframes are (relative start, relative duration) pairs; overlays are the alpha of
 * each direction that has one.
 */
module CardAnimator {
  import opened Wrappers
  import opened Vectors
  import opened Direction
  import opened RealArith
  import opened CardOptions
  import opened SwipeView

  /** A keyframe's slot within its animation, both as fractions of the whole. */
  datatype Keyframe = Keyframe(start: real, duration: real)

  /** The alpha of each overlay the card has, by direction. */
  type Overlays = map<SwipeDirection, real>

  /** `relativeSwipeOverlayFadeDuration`: the option value for a forced swipe with an overlay, else 0. */
  function RelativeSwipeOverlayFadeDuration(o: Options, hasOverlay: bool, forced: bool): (r: real)
    ensures forced && hasOverlay ==> r == o.relativeSwipeOverlayFadeDuration
    ensures !(forced && hasOverlay) ==> r == 0.0
  {
    if forced && hasOverlay then o.relativeSwipeOverlayFadeDuration else 0.0
  }

  /** `relativeReverseSwipeOverlayFadeDuration`: the option value whenever an overlay exists. */
  function RelativeReverseSwipeOverlayFadeDuration(o: Options, hasOverlay: bool): (r: real)
    ensures hasOverlay ==> r == o.relativeReverseSwipeOverlayFadeDuration
    ensures !hasOverlay ==> r == 0.0
  {
    if hasOverlay then o.relativeReverseSwipeOverlayFadeDuration else 0.0
  }

  /** `addSwipeAnimationKeyFrames`: fade the overlay in first, then move the card. */
  function SwipeKeyframes(rel: real): (r: (Keyframe, Keyframe))
    ensures r.0.start == 0.0 && r.0.duration == rel
    ensures r.1.start == r.0.start + r.0.duration
    ensures r.1.start + r.1.duration == 1.0
  {
    (Keyframe(0.0, rel), Keyframe(rel, 1.0 - rel))
  }

  /** `addReverseSwipeAnimationKeyFrames`: move the card back first, then fade the overlay out. */
  function ReverseSwipeKeyframes(rel: real): (r: (Keyframe, Keyframe))
    ensures r.0.start == 0.0 && r.0.duration == 1.0 - rel
    ensures r.1.start == r.0.start + r.0.duration
    ensures r.1.start + r.1.duration == 1.0 && r.1.duration == rel
  {
    (Keyframe(0.0, 1.0 - rel), Keyframe(1.0 - rel, rel))
  }

  /**
   * `swipeDuration(_:direction:forced:)`: the full duration for a forced or slow swipe, and
   * the reciprocal of the speed in units of the minimum speed for a fast one.
   */
  function SwipeDuration(o: Options, p: Policy, pan: Pan, d: SwipeDirection, forced: bool): (r: real)
    requires p.minSpeed > 0.0
    ensures forced || DragSpeed(pan, d) < p.minSpeed ==> r == o.totalSwipeDuration
    ensures !forced && DragSpeed(pan, d) >= p.minSpeed ==> 0.0 < r <= 1.0
    ensures !forced && DragSpeed(pan, d) >= p.minSpeed ==> r * DragSpeed(pan, d) == p.minSpeed
  {
    if forced then o.totalSwipeDuration
    else
      var velocityFactor := DragSpeed(pan, d) / p.minSpeed;
      DivSign(DragSpeed(pan, d), p.minSpeed);
      if velocityFactor < 1.0 then o.totalSwipeDuration
      else
        ReciprocalBounds(velocityFactor);
        ReciprocalOfQuotient(DragSpeed(pan, d), p.minSpeed);
        1.0 / velocityFactor
  }

  /**
   * `swipeRotationAngle(_:direction:forced:)`: no tilt vertically; for a forced swipe or no
   * touch, twice the maximum angle signed by direction; otherwise the sign depends on whether
   * the touch is on the side the card rotates away from.
   */
  function SwipeRotationAngle(maxAngle: real, d: SwipeDirection, forced: bool, touch: Option<Point>, height: real): (r: real)
    ensures d == Up || d == Down ==> r == 0.0
    ensures (d == Left || d == Right) ==> r == 2.0 * maxAngle || r == -2.0 * maxAngle
  {
    if d == Up || d == Down then 0.0
    else
      var rotationDirectionY := if d == Left then -1.0 else 1.0;
      if forced then 2.0 * rotationDirectionY * maxAngle
      else match touch
        case None => 2.0 * rotationDirectionY * maxAngle
        case Some(t) =>
          if (d == Left && t.y < height / 2.0) || (d == Right && t.y >= height / 2.0) then -2.0 * maxAngle
          else 2.0 * maxAngle
  }

  /**
   * `swipeTranslation(_:direction:directionVector:)`: each component of the direction vector
   * times the larger screen side plus the card's diagonal.
   */
  function SwipeTranslation(v: Vec, screenWidth: real, screenHeight: real, cardDiagonal: real): (r: Vec)
    ensures r == Scale(v, Max(screenWidth, screenHeight) + cardDiagonal)
  {
    var offscreen := Max(screenWidth, screenHeight) + cardDiagonal;
    Vec(v.dx * offscreen, v.dy * offscreen)
  }

  /** Where a swipe animation sends the card: its final translation and rotation. */
  datatype SwipePose = SwipePose(translation: Vec, rotation: real)

  /** The fixed pose `swipeTransform` uses for a forced swipe to the right; the left one mirrors it. */
  const ForcedRightPose := SwipePose(Vec(1566.6753059285948, 894.1695417396584), 0.6283185307179586)

  /**
   * `swipeTransform(_:direction:forced:)`: a forced swipe to the left or right ends in a fixed
   * pose; every other swipe is translated by `swipeTranslation` of a unit vector, the
   * direction's own for a forced swipe and the normalised drag (`dragUnit`) otherwise, and
   * rotated by `swipeRotationAngle`.
   */
  function SwipeTransform(maxAngle: real, d: SwipeDirection, forced: bool, touch: Option<Point>, height: real,
                          dragUnit: Vec, screenWidth: real, screenHeight: real, cardDiagonal: real): (r: SwipePose)
    ensures forced && d == Right ==> r == ForcedRightPose
    ensures forced && d == Left ==>
      r.translation == Vec(-ForcedRightPose.translation.dx, ForcedRightPose.translation.dy)
      && r.rotation == -ForcedRightPose.rotation
    ensures forced && (d == Up || d == Down) ==>
      r.rotation == 0.0 && r.translation.dx == 0.0
      && Along(r.translation, d) == Max(screenWidth, screenHeight) + cardDiagonal
    ensures !forced ==> r.translation == Scale(dragUnit, Max(screenWidth, screenHeight) + cardDiagonal)
    ensures !forced ==> r.rotation == SwipeRotationAngle(maxAngle, d, forced, touch, height)
  {
    if forced && (d == Left || d == Right) then
      if d == Left then SwipePose(Vec(-1566.6753059285948, 894.1695417396584), -0.6283185307179586)
      else ForcedRightPose
    else
      var unit := if forced then Vector(d) else dragUnit;
      SwipePose(SwipeTranslation(unit, screenWidth, screenHeight, cardDiagonal),
                SwipeRotationAngle(maxAngle, d, forced, touch, height))
  }

  /**
   * The overlay loop of `addReverseSwipeAnimationKeyFrames` as written: every iteration
   * assigns to the overlay of the swiped direction, so only the last iteration counts.
   */
  function ReverseSwipeOverlaysAsWritten(overlays: Overlays, dirs: seq<SwipeDirection>, d: SwipeDirection): (r: Overlays)
    ensures r.Keys == overlays.Keys
    ensures forall e :: e in overlays && e != d ==> r[e] == overlays[e]
    ensures d in overlays && |dirs| > 0 ==> r[d] == (if dirs[|dirs| - 1] == d then 1.0 else 0.0)
  {
    if |dirs| == 0 then overlays
    else
      var prior := ReverseSwipeOverlaysAsWritten(overlays, dirs[..|dirs| - 1], d);
      if d in prior then prior[d := if dirs[|dirs| - 1] == d then 1.0 else 0.0] else prior
  }

  /** The loop as evidently intended: show the swiped direction's overlay, hide the others. */
  function ReverseSwipeOverlays(overlays: Overlays, dirs: seq<SwipeDirection>, d: SwipeDirection): (r: Overlays)
    ensures r.Keys == overlays.Keys
    ensures forall e :: e in overlays && e in dirs ==> r[e] == (if e == d then 1.0 else 0.0)
    ensures forall e :: e in overlays && e !in dirs ==> r[e] == overlays[e]
  {
    if |dirs| == 0 then overlays
    else
      var prior := ReverseSwipeOverlays(overlays, dirs[..|dirs| - 1], d);
      var e := dirs[|dirs| - 1];
      assert forall x :: x in dirs <==> x in dirs[..|dirs| - 1] || x == e;
      if e in prior then prior[e := if e == d then 1.0 else 0.0] else prior
  }

  /** The overlay loop of `addSwipeAnimationKeyFrames`: hide every other overlay. */
  function SwipeOverlays(overlays: Overlays, dirs: seq<SwipeDirection>, d: SwipeDirection): (r: Overlays)
    ensures r.Keys == overlays.Keys
    ensures forall e :: e in overlays && e in dirs && e != d ==> r[e] == 0.0
    ensures forall e :: e in overlays && (e !in dirs || e == d) ==> r[e] == overlays[e]
  {
    if |dirs| == 0 then overlays
    else
      var prior := SwipeOverlays(overlays, dirs[..|dirs| - 1], d);
      var e := dirs[|dirs| - 1];
      assert forall x :: x in dirs <==> x in dirs[..|dirs| - 1] || x == e;
      if e != d && e in prior then prior[e := 0.0] else prior
  }

  /**
   * The overlays `animateReverseSwipe` starts its reverse keyframes from: it first replays the
   * swipe's keyframes, forced and with no duration, which hides every other listed overlay and
   * fades the swiped direction's overlay to 1 at once.
   */
  function ReplayedSwipeOverlays(overlays: Overlays, dirs: seq<SwipeDirection>, d: SwipeDirection): (r: Overlays)
    ensures r.Keys == overlays.Keys
    ensures d in overlays ==> r[d] == 1.0
    ensures forall e :: e in overlays && e in dirs && e != d ==> r[e] == 0.0
    ensures forall e :: e in overlays && e !in dirs && e != d ==> r[e] == overlays[e]
  {
    var hidden := SwipeOverlays(overlays, dirs, d);
    if d in hidden then hidden[d := 1.0] else hidden
  }

  // ---------------------------------------------------------------------------
  // Properties

  /** With fractions in [0, 1] every keyframe lies inside its animation. */
  lemma KeyframesFitInside(o: Options, pi: real, hasOverlay: bool, forced: bool)
    requires InRange(o, pi)
    ensures var rel := RelativeSwipeOverlayFadeDuration(o, hasOverlay, forced);
      var k := SwipeKeyframes(rel);
      0.0 <= k.0.duration && 0.0 <= k.1.duration && 0.0 <= k.1.start <= 1.0
    ensures var rel := RelativeReverseSwipeOverlayFadeDuration(o, hasOverlay);
      var k := ReverseSwipeKeyframes(rel);
      0.0 <= k.0.duration && 0.0 <= k.1.duration && 0.0 <= k.1.start <= 1.0
  {
  }

  /** Among fast non-forced swipes, a faster drag never lengthens the animation. */
  lemma {:induction false} FasterIsShorter(o: Options, p: Policy, a: Pan, b: Pan, d: SwipeDirection)
    requires p.minSpeed > 0.0
    requires p.minSpeed <= DragSpeed(a, d) <= DragSpeed(b, d)
    ensures SwipeDuration(o, p, b, d, false) <= SwipeDuration(o, p, a, d, false)
  {
    var va := DragSpeed(a, d) / p.minSpeed;
    var vb := DragSpeed(b, d) / p.minSpeed;
    DivSign(DragSpeed(a, d), p.minSpeed);
    DivSign(DragSpeed(b, d), p.minSpeed);
    DivMonotone(DragSpeed(a, d), DragSpeed(b, d), p.minSpeed);
    ReciprocalAntitone(va, vb);
  }

  /** The signed tilt for a free swipe, case by case. */
  lemma SwipeRotationCases(maxAngle: real, d: SwipeDirection, forced: bool, touch: Option<Point>, height: real)
    ensures (d == Left || d == Right) && (forced || touch.None?) ==>
      SwipeRotationAngle(maxAngle, d, forced, touch, height) == (if d == Left then -2.0 else 2.0) * maxAngle
    ensures (d == Left || d == Right) && !forced && touch.Some? ==>
      (SwipeRotationAngle(maxAngle, d, forced, touch, height) == -2.0 * maxAngle
         || SwipeRotationAngle(maxAngle, d, forced, touch, height) == 2.0 * maxAngle)
    ensures (d == Left || d == Right) && !forced && touch.Some? && maxAngle != 0.0 ==>
      ((SwipeRotationAngle(maxAngle, d, forced, touch, height) == -2.0 * maxAngle) <==>
        ((d == Left && touch.value.y < height / 2.0) || (d == Right && touch.value.y >= height / 2.0)))
  {
  }

  /**
   * `swipeTranslation` of a direction's unit vector, as a forced up or down swipe uses it:
   * the card moves along that axis only, by the longer screen side plus its diagonal.
   */
  lemma AxisTranslationLeavesScreen(d: SwipeDirection, screenWidth: real, screenHeight: real, cardDiagonal: real)
    requires cardDiagonal >= 0.0
    ensures var t := SwipeTranslation(Vector(d), screenWidth, screenHeight, cardDiagonal);
      && Along(t, d) == Max(screenWidth, screenHeight) + cardDiagonal
      && Along(t, Opposite(d)) == -(Max(screenWidth, screenHeight) + cardDiagonal)
      && (d == Left || d == Right ==> t.dy == 0.0)
      && (d == Up || d == Down ==> t.dx == 0.0)
  {
    var m := Max(screenWidth, screenHeight) + cardDiagonal;
    var t := SwipeTranslation(Vector(d), screenWidth, screenHeight, cardDiagonal);
    assert t == Vec(Vector(d).dx * m, Vector(d).dy * m);
    match d
    case Left => assert Vector(d) == Vec(-1.0, 0.0); assert t == Vec(-m, 0.0);
    case Right => assert Vector(d) == Vec(1.0, 0.0); assert t == Vec(m, 0.0);
    case Up => assert Vector(d) == Vec(0.0, -1.0); assert t == Vec(0.0, -m);
    case Down => assert Vector(d) == Vec(0.0, 1.0); assert t == Vec(0.0, m);
  }

  /**
   * As written, undoing a left swipe with the default directions `[left, up, right, down]`
   * drops the left overlay from the 1 the replayed swipe left it at to 0 before its fade-out
   * starts, so the fade-out never shows; the corrected loop keeps it at 1. Either way every other
   * overlay is hidden, because the replay has already hidden it.
   */
  lemma ReverseSwipeOverlaysAsWrittenHidesOverlay(overlays: Overlays)
    requires Left in overlays
    ensures var replayed := ReplayedSwipeOverlays(overlays, AllDirections, Left);
      var r := ReverseSwipeOverlaysAsWritten(replayed, AllDirections, Left);
      && replayed[Left] == 1.0 && r[Left] == 0.0
      && forall e :: e in overlays ==> r[e] == 0.0
    ensures var replayed := ReplayedSwipeOverlays(overlays, AllDirections, Left);
      var r := ReverseSwipeOverlays(replayed, AllDirections, Left);
      && r[Left] == 1.0
      && forall e :: e in overlays && e != Left ==> r[e] == 0.0
  {
    forall e | e in overlays
      ensures e in AllDirections
    {
      AllDirectionsListsEachOnce(e);
    }
  }

  /**
   * A forced swipe to the side ignores `swipeTranslation` and `swipeRotationAngle`: the two
   * fixed poses mirror each other, send the card down and outward, and do not depend on the
   * screen, the card or the touch, whereas a forced vertical swipe does not rotate at all.
   */
  lemma ForcedSidewaysPoseIsFixed(maxAngle: real, touch: Option<Point>, height: real, dragUnit: Vec,
                                  screenWidth: real, screenHeight: real, cardDiagonal: real)
    ensures var l := SwipeTransform(maxAngle, Left, true, touch, height, dragUnit, screenWidth, screenHeight, cardDiagonal);
      var r := SwipeTransform(maxAngle, Right, true, touch, height, dragUnit, screenWidth, screenHeight, cardDiagonal);
      && l.translation == Neg(r.translation).(dy := r.translation.dy)
      && l.rotation == -r.rotation
      && Along(l.translation, Left) > 0.0 && Along(r.translation, Right) > 0.0
      && l.translation.dy > 0.0 && l.rotation < 0.0 < r.rotation
      && r == ForcedRightPose
    ensures SwipeTransform(maxAngle, Up, true, touch, height, dragUnit, screenWidth, screenHeight, cardDiagonal).rotation == 0.0
  {
    assert Vector(Left) == Vec(-1.0, 0.0) && Vector(Right) == Vec(1.0, 0.0);
  }

  /** The intended loop and the swipe loop agree on every other overlay: both hide it. */
  lemma ReverseAndSwipeHideTheOthers(overlays: Overlays, dirs: seq<SwipeDirection>, d: SwipeDirection, e: SwipeDirection)
    requires e in overlays && e in dirs && e != d
    ensures ReverseSwipeOverlays(overlays, dirs, d)[e] == SwipeOverlays(overlays, dirs, d)[e] == 0.0
  {
  }
}

=== FILE: card_layout.dfy ===
/**
 * `CardLayoutProvider` (CardLayoutProvider.swift): the frames of a card's content, footer and
 * overlay container, from the card's bounds and footer height.
 */
module CardLayout {
  import opened Rects

  /** The card's footer: none, or a view that is or is not opaque. */
  datatype Footer = NoFooter | Footer(isOpaque: bool)

  /** The full width of the bounds, from the top down to the footer. */
  function AboveFooter(bounds: Rect, footerHeight: real): (r: Rect)
    ensures r.x == 0.0 && r.y == 0.0 && r.width == bounds.width
    ensures r.height + footerHeight == bounds.height
  {
    Rect(0.0, 0.0, bounds.width, bounds.height - footerHeight)
  }

  /** `createContentFrame(for:)`: only an opaque footer takes space from the content. */
  function ContentFrame(bounds: Rect, footer: Footer, footerHeight: real): (r: Rect)
    ensures footer == Footer(true) ==> r == AboveFooter(bounds, footerHeight)
    ensures footer != Footer(true) ==> r == bounds
  {
    if footer.Footer? && footer.isOpaque then AboveFooter(bounds, footerHeight) else bounds
  }

  /** `createFooterFrame(for:)`: the full width, `footerHeight` tall, along the bottom edge. */
  function FooterFrame(bounds: Rect, footerHeight: real): (r: Rect)
    ensures r.x == 0.0 && r.width == bounds.width && r.height == footerHeight
    ensures MaxY(r) == bounds.height
  {
    Rect(0.0, bounds.height - footerHeight, bounds.width, footerHeight)
  }

  /** `createOverlayContainerFrame(for:)`: any footer, opaque or not, is kept clear of overlays. */
  function OverlayContainerFrame(bounds: Rect, footer: Footer, footerHeight: real): (r: Rect)
    ensures footer.Footer? ==> r == AboveFooter(bounds, footerHeight)
    ensures footer.NoFooter? ==> r == bounds
  {
    if footer.Footer? then AboveFooter(bounds, footerHeight) else bounds
  }

  /**
   * With an opaque footer the content sits directly above it: the two heights add up to the
   * card's, they share the width, and they do not overlap.
   */
  lemma OpaqueFooterTiles(bounds: Rect, footerHeight: real)
    ensures var content := ContentFrame(bounds, Footer(true), footerHeight);
      var foot := FooterFrame(bounds, footerHeight);
      && content.height + foot.height == bounds.height
      && content.width == foot.width == bounds.width
      && StackedVertically(content, foot)
      && MaxY(content) == foot.y
  {
  }

  /** Overlays never reach into a footer; content does only when the footer is see-through. */
  lemma OverlaysAvoidEveryFooter(bounds: Rect, isOpaque: bool, footerHeight: real)
    ensures StackedVertically(OverlayContainerFrame(bounds, Footer(isOpaque), footerHeight), FooterFrame(bounds, footerHeight))
    ensures !isOpaque ==> ContentFrame(bounds, Footer(isOpaque), footerHeight) == bounds
  {
  }
}

=== FILE: card_options.dfy ===
/**
 * `CardAnimationOptions` (CardAnimationOptions.swift): the card animator's settings, each
 * clamped into its legal range by the initializer. π is a parameter.
 */
module CardOptions {
  import opened RealArith

  datatype Options = Options(
    maximumRotationAngle: real,
    relativeReverseSwipeOverlayFadeDuration: real,
    relativeSwipeOverlayFadeDuration: real,
    resetSpringDamping: real,
    totalResetDuration: real,
    totalReverseSwipeDuration: real,
    totalSwipeDuration: real)

  /** `max(lo, min(x, hi))` */
  function Clamp(x: real, lo: real, hi: real): (r: real)
    requires lo <= hi
    ensures lo <= r <= hi
    ensures lo <= x <= hi ==> r == x
    ensures x <= lo ==> r == lo
    ensures x >= hi ==> r == hi
  {
    Max(lo, Min(x, hi))
  }

  /** The ranges the initializer guarantees. */
  predicate InRange(o: Options, pi: real) {
    && -pi / 2.0 <= o.maximumRotationAngle <= pi / 2.0
    && 0.0 <= o.relativeReverseSwipeOverlayFadeDuration <= 1.0
    && 0.0 <= o.relativeSwipeOverlayFadeDuration <= 1.0
    && 0.0 <= o.resetSpringDamping <= 1.0
    && o.totalResetDuration >= 0.0
    && o.totalReverseSwipeDuration >= 0.0
    && o.totalSwipeDuration >= 0.0
  }

  /** `init(...)`: clamp the angle to [-π/2, π/2], the fractions to [0, 1], the durations to >= 0. */
  function Make(pi: real, raw: Options): (r: Options)
    requires pi > 0.0
    ensures InRange(r, pi)
    ensures InRange(raw, pi) ==> r == raw
  {
    Options(
      Clamp(raw.maximumRotationAngle, -pi / 2.0, pi / 2.0),
      Clamp(raw.relativeReverseSwipeOverlayFadeDuration, 0.0, 1.0),
      Clamp(raw.relativeSwipeOverlayFadeDuration, 0.0, 1.0),
      Clamp(raw.resetSpringDamping, 0.0, 1.0),
      Max(0.0, raw.totalResetDuration),
      Max(0.0, raw.totalReverseSwipeDuration),
      Max(0.0, raw.totalSwipeDuration))
  }

  /** `CardAnimationOptions.default`: π/10, 0.15, 0.15, 0.5, 0.6, 0.25, 0.7. */
  function Default(pi: real): (r: Options)
    requires pi > 0.0
    ensures InRange(r, pi)
    ensures r.maximumRotationAngle * 10.0 == pi
    ensures r.relativeReverseSwipeOverlayFadeDuration == r.relativeSwipeOverlayFadeDuration == 0.15
    ensures r.resetSpringDamping == 0.5 && r.totalResetDuration == 0.6
    ensures r.totalReverseSwipeDuration == 0.25 && r.totalSwipeDuration == 0.7
  {
    Make(pi, Options(pi / 10.0, 0.15, 0.15, 0.5, 0.6, 0.25, 0.7))
  }

  /** Building options from the fields of built options changes nothing. */
  lemma MakeIdempotent(pi: real, raw: Options)
    requires pi > 0.0
    ensures Make(pi, Make(pi, raw)) == Make(pi, raw)
  {
  }

  /** Out-of-range inputs land on the nearest bound. */
  lemma MakeSaturates(pi: real, raw: Options)
    requires pi > 0.0
    ensures raw.maximumRotationAngle >= pi / 2.0 ==> Make(pi, raw).maximumRotationAngle == pi / 2.0
    ensures raw.maximumRotationAngle <= -pi / 2.0 ==> Make(pi, raw).maximumRotationAngle == -pi / 2.0
    ensures raw.totalSwipeDuration <= 0.0 ==> Make(pi, raw).totalSwipeDuration == 0.0
    ensures raw.resetSpringDamping >= 1.0 ==> Make(pi, raw).resetSpringDamping == 1.0
  {
  }
}

=== FILE: card_stack.dfy ===
/**
 * `SwipeCardStack` (SwipeCardStack.swift): the controller that keeps a window of card views
 * over `CardStackStateManager`'s remaining indices, gates the public operations on
 * `isEnabled`, and reports to its delegate.
 *
 * Views are not modelled: a visible card is the data-source index it was loaded for, and the
 * only view state kept is the top card's `isUserInteractionEnabled`. Animations complete through
 * explicit `CompleteAnimation` / `CompleteReverseSwipe` events; a non-animated call completes
 * synchronously with `finished == true`, as the animators do.
 */
module CardStack {
  import opened Wrappers
  import opened Direction
  import opened ArrayExt
  import opened StateManager
  import StringUtils
  import RealArith
  import Vectors
  import SwipeView
  import SwipeCard

  /** The data source: none (`nil`), or one reporting `numberOfCards(in:)`; it always returns a card. */
  datatype DataSource = NoSource | Source(count: nat)

  datatype Stack = Stack(
    manager: Manager,
    /** `visibleCards`, top first: the index each card was loaded for. */
    visible: seq<int>,
    /** `isUserInteractionEnabled` of the top card; meaningless when no card is visible. */
    topInteractive: bool,
    isAnimating: bool,
    /** `numberOfVisibleCards` (a negative value would make `0..<n` trap). */
    visibleCount: nat,
    isScale: bool,
    shouldRecognizeHorizontalDrag: bool,
    shouldRecognizeVerticalDrag: bool)

  /** What the stack tells its delegate. */
  datatype Event =
    | DidSelect(index: int)
    | DidBeginAnimating(index: int)
    | DidEndAnimating
    | DidSwipe(index: int, direction: SwipeDirection)
    | DidSwipeAll
    | DidUndo(index: int, direction: SwipeDirection)

  datatype Step = Step(stack: Stack, events: seq<Event>)

  /** The result of an update checked against the data source: `fatalError` is `Fatal`. */
  datatype Outcome = Ok(stack: Stack) | Fatal(message: string)

  datatype Animation = SwipeAnimation | UndoAnimation | ShiftAnimation

  /** A freshly initialised stack: `numberOfVisibleCards == 2`, `isScale`, both drag axes on. */
  const Initial: Stack := Stack(Manager([], []), [], true, false, 2, true, true, true)

  function Min(a: int, b: int): int {
    if a <= b then a else b
  }

  /** `topCardIndex` */
  function TopCardIndex(s: Stack): (r: Option<int>)
    ensures r.None? <==> |s.visible| == 0
    ensures r.Some? ==> r.value == s.visible[0]
  {
    if |s.visible| == 0 then None else Some(s.visible[0])
  }

  /** `isEnabled`: not animating, and the top card (if any) accepts touches. */
  predicate IsEnabled(s: Stack)
    ensures IsEnabled(s) ==> !s.isAnimating
    ensures |s.visible| == 0 ==> (IsEnabled(s) <==> !s.isAnimating)
  {
    !s.isAnimating && (|s.visible| == 0 || s.topInteractive)
  }

  /** The visible cards are the first `min(remaining, numberOfVisibleCards)` remaining indices. */
  ghost predicate Window(s: Stack) {
    s.visible == s.manager.remaining[..Min(|s.manager.remaining|, s.visibleCount)]
  }

  /** `layoutCard(_:at:)` leaves exactly the card at position 0 interactive. */
  function InteractiveAt(position: int): (r: bool)
    ensures r <==> position == 0
  {
    position == 0
  }

  /** `scaleFactor(forCardAtPosition:)`: both axes scale alike. */
  function ScaleFactor(isScale: bool, position: int): (r: real)
    ensures r == 1.0 || r == 0.95
    ensures r == 1.0 <==> !isScale || position == 0
  {
    if isScale then (if position == 0 then 1.0 else 0.95) else 1.0
  }

  /**
   * `gestureRecognizerShouldBegin(_:)` for the top card's pan recognizer: a mostly horizontal
   * drag asks `shouldRecognizeHorizontalDrag`, a mostly vertical one the vertical flag, and a
   * diagonal one defers to the card. Any other recognizer, or no top card, gets `superDefault`.
   */
  function GestureShouldBegin(s: Stack, isTopCardPan: bool, vx: real, vy: real, cardDefault: bool, superDefault: bool): (r: bool)
    ensures (|s.visible| == 0 || !isTopCardPan) ==> r == superDefault
    ensures |s.visible| > 0 && isTopCardPan ==>
      && (RealArith.Abs(vx) > RealArith.Abs(vy) ==> r == s.shouldRecognizeHorizontalDrag)
      && (RealArith.Abs(vx) < RealArith.Abs(vy) ==> r == s.shouldRecognizeVerticalDrag)
      && (RealArith.Abs(vx) == RealArith.Abs(vy) ==> r == cardDefault)
  {
    if |s.visible| == 0 || !isTopCardPan then superDefault
    else
      var ax := if vx < 0.0 then -vx else vx;
      var ay := if vy < 0.0 then -vy else vy;
      if ax > ay then s.shouldRecognizeHorizontalDrag
      else if ax < ay then s.shouldRecognizeVerticalDrag
      else cardDefault
  }

  /** `reloadVisibleCards()`: reload the window from the remaining indices and lay it out. */
  function ReloadVisibleCards(s: Stack, src: DataSource): (r: Stack)
    ensures r.manager == s.manager && r.isAnimating == s.isAnimating && r.visibleCount == s.visibleCount
    ensures src.Source? ==> Window(r)
    ensures src.NoSource? ==> r.visible == []
    ensures r.topInteractive
  {
    var k := if src.Source? then Min(|s.manager.remaining|, s.visibleCount) else 0;
    s.(visible := s.manager.remaining[..k], topInteractive := true)
  }

  /** `reloadData()`: reset to the data source's count, reload, stop animating. */
  function ReloadData(s: Stack, src: DataSource): (r: Stack)
    ensures src.NoSource? ==> r == s
    ensures src.Source? ==>
      && Valid(r.manager, src.count) && r.manager.swipes == []
      && Window(r) && IsEnabled(r)
  {
    match src
    case NoSource => s
    case Source(n) => ReloadVisibleCards(s.(manager := Reset(n), isAnimating := false), src)
  }

  /**
   * `swipeAction(topCard:direction:forced:animated:)`: record the swipe, drop the top card,
   * load the next card into the window, report, and start the background animation unless
   * the last card went. `forced` only changes the animation's timing.
   */
  function SwipeAction(s: Stack, d: SwipeDirection, animated: bool, src: DataSource): (r: Step)
    ensures |s.visible| == 0 ==> r == Step(s, [])
    ensures |s.visible| > 0 ==>
      && r.stack.manager == SwipeTop(s.manager, d)
      && |r.events| > 0 && r.events[0] == DidSwipe(s.visible[0], d)
      && (r.events == [DidSwipe(s.visible[0], d), DidSwipeAll] <==> |r.stack.manager.remaining| == 0)
      && (|r.stack.manager.remaining| > 0 ==> r.stack.isAnimating == animated)
      && (|r.stack.manager.remaining| == 0 ==> r.stack.isAnimating == s.isAnimating)
    ensures forall e :: e in r.events ==> e.DidSwipe? || e == DidSwipeAll
  {
    if |s.visible| == 0 then Step(s, [])
    else
      var swiped := s.visible[0];
      var m := SwipeTop(s.manager, d);
      var rest := s.visible[1..];
      var vis := if |m.remaining| - |rest| > 0 && src.Source? then rest + [m.remaining[|rest|]] else rest;
      if |m.remaining| == 0 then
        Step(s.(manager := m, visible := vis), [DidSwipe(swiped, d), DidSwipeAll])
      else
        Step(s.(manager := m, visible := vis, topInteractive := true, isAnimating := animated), [DidSwipe(swiped, d)])
  }

  /** `swipe(_:animated:)`: the public, forced swipe; nothing while disabled. */
  function SwipeTopCard(s: Stack, d: SwipeDirection, animated: bool, src: DataSource): (r: Step)
    ensures !IsEnabled(s) ==> r == Step(s, [])
    ensures IsEnabled(s) ==> r == SwipeAction(s, d, animated, src)
  {
    if !IsEnabled(s) then Step(s, []) else SwipeAction(s, d, animated, src)
  }

  /** `card(didSwipe:with:)`: a finished drag swipes, animated, without consulting `isEnabled`. */
  function CardDidSwipe(s: Stack, d: SwipeDirection, src: DataSource): (r: Step)
    ensures |s.visible| == 0 ==> r == Step(s, [])
    ensures |s.visible| > 0 ==>
      && r.stack.manager == SwipeTop(s.manager, d)
      && |r.events| > 0 && r.events[0] == DidSwipe(s.visible[0], d)
      && (|r.stack.manager.remaining| > 0 ==> r.stack.isAnimating && r.stack.topInteractive)
    ensures forall e :: e in r.events ==> e.DidSwipe? || e == DidSwipeAll
  {
    SwipeAction(s, d, true, src)
  }

  /**
   * `undoLastSwipe(animated:)`: pop the last swipe, reload, report, and animate. The stack is
   * marked animating before it checks for a top card, and only the undo animation clears it.
   */
  function UndoLastSwipe(s: Stack, animated: bool, src: DataSource): (r: Step)
    ensures !IsEnabled(s) || |s.manager.swipes| == 0 ==> r == Step(s, [])
    ensures IsEnabled(s) && |s.manager.swipes| > 0 ==>
      var last := s.manager.swipes[|s.manager.swipes| - 1];
      && r.events == [DidUndo(last.index, last.direction)]
      && r.stack.manager == UndoSwipe(s.manager).1
      && r.stack.isAnimating == (animated || |r.stack.visible| == 0)
      && (src.Source? ==> Window(r.stack))
      && (src.Source? && s.visibleCount > 0 ==> |r.stack.visible| > 0 && r.stack.visible[0] == last.index)
  {
    if !IsEnabled(s) then Step(s, [])
    else
      match UndoSwipe(s.manager)
      case (None, _) => Step(s, [])
      case (Some(prev), m) =>
        var reloaded := ReloadVisibleCards(s.(manager := m), src);
        var hasTop := |reloaded.visible| > 0;
        var r := reloaded.(
          topInteractive := if animated && hasTop then false else reloaded.topInteractive,
          isAnimating := !(hasTop && !animated));
        Step(r, [DidUndo(prev.index, prev.direction)])
  }

  /** `shift(withDistance:animated:)`: nothing while disabled, for distance 0, or with one card showing. */
  function Shift(s: Stack, distance: int, animated: bool, src: DataSource): (r: Stack)
    ensures !IsEnabled(s) || distance == 0 || |s.visible| <= 1 ==> r == s
    ensures IsEnabled(s) && distance != 0 && |s.visible| > 1 ==>
      && r.manager == StateManager.Shift(s.manager, distance)
      && r.isAnimating == animated
      && (src.Source? ==> Window(r))
  {
    if !IsEnabled(s) || distance == 0 || |s.visible| <= 1 then s
    else ReloadVisibleCards(s.(manager := StateManager.Shift(s.manager, distance)), src).(isAnimating := animated)
  }

  /**
   * A pending completion block runs. The swipe animation clears `isAnimating` whether or not
   * it finished; undo and shift clear it only when finished.
   */
  function CompleteAnimation(s: Stack, kind: Animation, finished: bool): (r: Stack)
    ensures r == s.(isAnimating := r.isAnimating)
    ensures !r.isAnimating <==> (kind == SwipeAnimation || finished || !s.isAnimating)
  {
    match kind
    case SwipeAnimation => s.(isAnimating := false)
    case _ => if finished then s.(isAnimating := false) else s
  }

  /** The top card's `reverseSwipe` completion: touches come back only when it finished. */
  function CompleteReverseSwipe(s: Stack, finished: bool): (r: Stack)
    ensures r == s.(topInteractive := r.topInteractive)
    ensures r.topInteractive <==> (finished || s.topInteractive)
  {
    if finished then s.(topInteractive := true) else s
  }

  // ---------------------------------------------------------------------------
  // Queries

  /** `positionforCard(at:)`: where an index waits among the remaining cards. */
  function PositionForCard(s: Stack, index: int): (r: Option<nat>)
    ensures r.None? <==> index !in s.manager.remaining
    ensures r.Some? ==> r.value < |s.manager.remaining| && s.manager.remaining[r.value] == index
  {
    FirstPosition(s.manager.remaining, index)
  }

  /** `card(forIndexAt:)`: the position of the first visible card loaded for `index`. */
  function CardForIndex(s: Stack, index: int): (r: Option<nat>)
    ensures r.None? <==> index !in s.visible
    ensures r.Some? ==> r.value < |s.visible| && s.visible[r.value] == index
  {
    FirstPosition(s.visible, index)
  }

  /** `numberOfRemainingCards()` */
  function NumberOfRemainingCards(s: Stack): (r: nat)
    ensures r == |s.manager.remaining|
  {
    |s.manager.remaining|
  }

  /** `swipedCards()`: swiped indices in swipe order. */
  function SwipedCards(s: Stack): (r: seq<int>)
    ensures |r| == |s.manager.swipes|
    ensures forall k :: 0 <= k < |r| ==> r[k] == s.manager.swipes[k].index
  {
    Indices(s.manager.swipes)
  }

  // ---------------------------------------------------------------------------
  // Card delegate routes

  /** `card(didTap:)`: report the top index, if any. */
  function CardDidTap(s: Stack): (r: seq<Event>)
    ensures |s.visible| == 0 <==> r == []
    ensures |s.visible| > 0 ==> r == [DidSelect(s.visible[0])]
  {
    if |s.visible| == 0 then [] else [DidSelect(s.visible[0])]
  }

  /** `card(didBeginSwipe:)` and `card(didContinueSwipe:)`: report the top index, 0 when none. */
  function CardDidMove(s: Stack): (r: seq<Event>)
    ensures |r| == 1 && r[0].DidBeginAnimating?
    ensures TopCardIndex(s).Some? ==> r[0].index == TopCardIndex(s).value
    ensures TopCardIndex(s).None? ==> r[0].index == 0
  {
    [DidBeginAnimating(if |s.visible| == 0 then 0 else s.visible[0])]
  }

  /** `card(endSwiping:)` */
  function CardEndSwiping(s: Stack): (r: seq<Event>)
    ensures r == [DidEndAnimating]
  {
    [DidEndAnimating]
  }

  /** `card(isCanMove:)`: no top card vetoes; otherwise the delegate decides, allowing when absent. */
  function CardIsCanMove(s: Stack, delegateAnswer: Option<bool>): (r: bool)
    ensures |s.visible| == 0 ==> !r
    ensures |s.visible| > 0 ==> (r <==> delegateAnswer != Some(false))
  {
    if |s.visible| == 0 then false else delegateAnswer.GetOr(true)
  }

  /**
   * The stack as one card call's delegate (SwipeCardStack.swift:508-544): taps, drags and the
   * end of a drag become the events above, a swipe goes through `card(didSwipe:with:)`, and a
   * cancel and the animator requests reach no delegate.
   */
  function DeliverOne(s: Stack, call: SwipeCard.Call, src: DataSource): (r: Step)
    ensures multiset(r.events)[DidEndAnimating] == (if call == SwipeCard.EndSwipingCall then 1 else 0)
    ensures call == SwipeCard.EndSwipingCall ==> r.events == [DidEndAnimating]
    ensures call == SwipeCard.DidBeginSwipe || call == SwipeCard.DidContinueSwipe ==>
      r == Step(s, [DidBeginAnimating(if |s.visible| == 0 then 0 else s.visible[0])])
    ensures !call.DidSwipe? ==> r.stack == s
    ensures call.DidSwipe? ==> r == CardDidSwipe(s, call.direction, src)
  {
    match call
    case DidTap => Step(s, CardDidTap(s))
    case DidBeginSwipe => Step(s, CardDidMove(s))
    case DidContinueSwipe => Step(s, CardDidMove(s))
    case EndSwipingCall => Step(s, CardEndSwiping(s))
    case DidSwipe(d) =>
      var r := CardDidSwipe(s, d, src);
      assert DidEndAnimating !in r.events;
      r
    case _ => Step(s, [])
  }

  /** A card's calls delivered to the stack in order, each to the stack the previous one left. */
  function Deliver(s: Stack, calls: seq<SwipeCard.Call>, src: DataSource): (r: Step)
    ensures multiset(r.events)[DidEndAnimating] == multiset(calls)[SwipeCard.EndSwipingCall]
    ensures |calls| > 0 && calls[|calls| - 1] == SwipeCard.EndSwipingCall ==>
      |r.events| > 0 && r.events[|r.events| - 1] == DidEndAnimating
    ensures (forall k :: 0 <= k < |calls| ==> !calls[k].DidSwipe?) ==> r.stack == s
    decreases |calls|
  {
    if |calls| == 0 then Step(s, [])
    else
      var tail := calls[1..];
      var head := DeliverOne(s, calls[0], src);
      var rest := Deliver(head.stack, tail, src);
      SplitHead(calls);
      assert multiset(head.events + rest.events) == multiset(head.events) + multiset(rest.events);
      Step(rest.stack, head.events + rest.events)
  }

  /** A non-empty call list is its first call followed by the rest. */
  lemma SplitHead(calls: seq<SwipeCard.Call>)
    requires |calls| > 0
    ensures multiset(calls) == multiset([calls[0]]) + multiset(calls[1..])
    ensures |calls| > 1 ==> calls[|calls| - 1] == calls[1..][|calls[1..]| - 1]
    ensures (forall k :: 0 <= k < |calls| ==> !calls[k].DidSwipe?) ==>
      !calls[0].DidSwipe? && forall k :: 0 <= k < |calls[1..]| ==> !calls[1..][k].DidSwipe?
  {
    assert calls == [calls[0]] + calls[1..];
  }

  /** Delivering two call lists one after the other is delivering their concatenation. */
  lemma {:induction false} DeliverConcat(s: Stack, a: seq<SwipeCard.Call>, b: seq<SwipeCard.Call>, src: DataSource)
    ensures var first := Deliver(s, a, src);
      var second := Deliver(first.stack, b, src);
      Deliver(s, a + b, src) == Step(second.stack, first.events + second.events)
    decreases |a|
  {
    if |a| > 0 {
      var head := DeliverOne(s, a[0], src);
      var x := Deliver(head.stack, a[1..], src);
      var y := Deliver(x.stack, b, src);
      DeliverConcat(head.stack, a[1..], b, src);
      ConcatSplits(a, b);
      DeliverUnfold(s, a + b, src);
      DeliverUnfold(s, a, src);
      ConcatAssociates(head.events, x.events, y.events);
    } else {
      assert a + b == b;
    }
  }

  lemma ConcatSplits<T>(a: seq<T>, b: seq<T>)
    requires |a| > 0
    ensures (a + b)[0] == a[0] && (a + b)[1..] == a[1..] + b
  {
  }

  lemma ConcatAssociates<T>(a: seq<T>, b: seq<T>, c: seq<T>)
    ensures a + (b + c) == (a + b) + c
  {
  }

  /** Delivering a non-empty call list delivers its first call, then the rest to the new stack. */
  lemma DeliverUnfold(s: Stack, calls: seq<SwipeCard.Call>, src: DataSource)
    requires |calls| > 0
    ensures var head := DeliverOne(s, calls[0], src);
      var rest := Deliver(head.stack, calls[1..], src);
      Deliver(s, calls, src) == Step(rest.stack, head.events + rest.events)
  {
  }

  /**
   * `endSwiping(_:)` on the top card as the stack hears it. The card's decision reaches the stack
   * first, so a swipe has already removed the top card when the card asks `card(isCanMove:)` a
   * second time, and the stack answers about its new top card. `firstAnswer` and `secondAnswer`
   * are the stack delegate's `cardStackIsCanMove` answers to the two questions (`None` without
   * a delegate).
   */
  function DragEnd(s: Stack, c: SwipeCard.Card, env: SwipeCard.Env, pan: SwipeView.Pan, dirs: seq<SwipeDirection>,
                   firstAnswer: Option<bool>, secondAnswer: Option<bool>, src: DataSource): (r: Step)
    requires SwipeCard.ValidEnv(env)
    ensures var heard := Deliver(s, SwipeCard.DecideEnd(c, env, pan, dirs, Some(CardIsCanMove(s, firstAnswer))).1, src);
      && r.stack == heard.stack
      && r.events == heard.events + (if CardIsCanMove(heard.stack, secondAnswer) then [DidEndAnimating] else [])
      && multiset(r.events)[DidEndAnimating] == (if CardIsCanMove(heard.stack, secondAnswer) then 1 else 0)
  {
    var first := Some(CardIsCanMove(s, firstAnswer));
    var decided := SwipeCard.DecideEnd(c, env, pan, dirs, first);
    var heard := Deliver(s, decided.1, src);
    var second := Some(CardIsCanMove(heard.stack, secondAnswer));
    var reported := if CardIsCanMove(heard.stack, secondAnswer) then [SwipeCard.EndSwipingCall] else [];
    var calls := SwipeCard.EndSwiping(c, env, pan, dirs, first, second).1;
    SwipeCard.EndSwipingDecidesThenReports(c, env, pan, dirs, first, second);
    DeliverConcat(s, decided.1, reported, src);
    ReportDelivery(heard.stack, reported, src);
    assert multiset(decided.1)[SwipeCard.EndSwipingCall] == 0;
    EventsCount(heard.events, if reported == [] then [] else [DidEndAnimating]);
    Deliver(s, calls, src)
  }

  /** The end-of-drag report, or its absence, reaches the delegate as one end event, or none. */
  lemma ReportDelivery(s: Stack, reported: seq<SwipeCard.Call>, src: DataSource)
    requires reported == [] || reported == [SwipeCard.EndSwipingCall]
    ensures Deliver(s, reported, src) == Step(s, if reported == [] then [] else [DidEndAnimating])
  {
    if reported != [] {
      DeliverUnfold(s, reported, src);
      assert reported[1..] == [];
    }
  }

  lemma EventsCount(a: seq<Event>, b: seq<Event>)
    ensures multiset(a + b)[DidEndAnimating] == multiset(a)[DidEndAnimating] + multiset(b)[DidEndAnimating]
  {
    assert multiset(a + b) == multiset(a) + multiset(b);
  }

  // ---------------------------------------------------------------------------
  // Updates checked against the data source

  /**
   * `insertCard(atIndex:position:)`: insert first, then die unless the data source grew by
   * exactly one; otherwise reload. A position past the end traps in `insert(_:at:)`.
   */
  function InsertCard(s: Stack, src: DataSource, index: int, position: nat): (r: Outcome)
    requires position <= |s.manager.remaining|
    ensures src.NoSource? ==> r == Ok(s)
    ensures src.Source? ==>
      (r.Fatal? <==> src.count != TotalIndexCount(s.manager) + 1)
    ensures r.Fatal? ==>
      r.message == StringUtils.InvalidUpdateMessage(src.count, TotalIndexCount(s.manager), 1, 0)
    ensures src.Source? && r.Ok? ==>
      r.stack.manager == Insert(s.manager, index, position) && Window(r.stack)
  {
    match src
    case NoSource => Ok(s)
    case Source(n) =>
      var before := TotalIndexCount(s.manager);
      var m := Insert(s.manager, index, position);
      if n != before + 1 then Fatal(StringUtils.InvalidUpdateMessage(n, before, 1, 0))
      else Ok(ReloadVisibleCards(s.(manager := m), src))
  }

  /** The `for index in indices` loop of `appendCards`: each goes in after the current last. */
  function AppendAll(m: Manager, indices: seq<int>): (r: Manager)
    ensures |r.remaining| == |m.remaining| + |indices| && |r.swipes| == |m.swipes|
    ensures |indices| > 0 ==> r.remaining[|r.remaining| - 1] == indices[|indices| - 1]
    ensures forall k :: 0 <= k < |m.swipes| ==>
      r.swipes[k].direction == m.swipes[k].direction && r.swipes[k].index >= m.swipes[k].index
    decreases |indices|
  {
    if |indices| == 0 then m else AppendAll(Insert(m, indices[0], |m.remaining|), indices[1..])
  }

  /**
   * The tail of `appendCards`: adopt the grown manager and, when the window is short of
   * `numberOfVisibleCards`, load the cards from `visible.count` up to the window's end.
   */
  function TopUp(s: Stack, m: Manager): (r: Stack)
    requires |s.visible| <= |m.remaining|
    ensures r.manager == m && s.visible <= r.visible
    ensures |s.visible| >= s.visibleCount ==> r.visible == s.visible
    ensures |s.visible| < s.visibleCount ==> |r.visible| == Min(|m.remaining|, s.visibleCount)
  {
    if |s.visible| < s.visibleCount then
      var begin := |s.visible|;
      var k := Min(|m.remaining|, s.visibleCount);
      var vis := s.visible + m.remaining[begin..k];
      s.(manager := m, visible := vis, topInteractive := if begin == 0 then true else s.topInteractive)
    else s.(manager := m)
  }

  /**
   * `appendCards(atIndices:)`: insert each index at the end, die unless the data source grew
   * by the number of indices, then top up a window that is short of `numberOfVisibleCards`.
   * The top-up range `visible.count..<min(remaining, numberOfVisibleCards)` traps if the window
   * holds more cards than remain.
   */
  function AppendCards(s: Stack, src: DataSource, indices: seq<int>): (r: Outcome)
    requires |s.visible| <= |s.manager.remaining|
    ensures src.NoSource? ==> r == Ok(s)
    ensures src.Source? ==>
      (r.Fatal? <==> src.count != TotalIndexCount(s.manager) + |indices|)
    ensures r.Fatal? ==>
      r.message == StringUtils.InvalidUpdateMessage(src.count, TotalIndexCount(s.manager), |indices|, 0)
    ensures r.Ok? && src.Source? ==> r.stack == TopUp(s, AppendAll(s.manager, indices))
  {
    match src
    case NoSource => Ok(s)
    case Source(n) =>
      var before := TotalIndexCount(s.manager);
      var m := AppendAll(s.manager, indices);
      if n != before + |indices| then Fatal(StringUtils.InvalidUpdateMessage(n, before, |indices|, 0))
      else Ok(TopUp(s, m))
  }

  /**
   * `deleteCards(atIndices:)` as written: die unless the data source shrank by
   * `indices.count` (duplicates included), then delete the de-duplicated indices and reload.
   */
  function DeleteCardsAsWritten(s: Stack, src: DataSource, indices: seq<int>): (r: Outcome)
    ensures src.NoSource? ==> r == Ok(s)
    ensures src.Source? ==> (r.Fatal? <==> src.count != TotalIndexCount(s.manager) - |indices|)
    ensures r.Fatal? ==>
      r.message == StringUtils.InvalidUpdateMessage(src.count, TotalIndexCount(s.manager), 0, |indices|)
    ensures src.Source? && r.Ok? ==> r.stack.manager == DeleteMany(s.manager, indices) && Window(r.stack)
  {
    match src
    case NoSource => Ok(s)
    case Source(n) =>
      var before := TotalIndexCount(s.manager);
      if n != before - |indices| then Fatal(StringUtils.InvalidUpdateMessage(n, before, 0, |indices|))
      else Ok(ReloadVisibleCards(s.(manager := DeleteMany(s.manager, indices)), src))
  }

  /**
   * `deleteCards(atIndices:)` with the count check made against the indices actually deleted,
   * the de-duplicated ones.
   */
  function DeleteCards(s: Stack, src: DataSource, indices: seq<int>): (r: Outcome)
    ensures src.NoSource? ==> r == Ok(s)
    ensures src.Source? ==> (r.Fatal? <==> src.count != TotalIndexCount(s.manager) - |KeepFirst(indices)|)
    ensures r.Fatal? ==>
      r.message == StringUtils.InvalidUpdateMessage(src.count, TotalIndexCount(s.manager), 0, |KeepFirst(indices)|)
    ensures src.Source? && r.Ok? ==> r.stack.manager == DeleteMany(s.manager, indices) && Window(r.stack)
  {
    match src
    case NoSource => Ok(s)
    case Source(n) =>
      var before := TotalIndexCount(s.manager);
      var deleted := |KeepFirst(indices)|;
      if n != before - deleted then Fatal(StringUtils.InvalidUpdateMessage(n, before, 0, deleted))
      else Ok(ReloadVisibleCards(s.(manager := DeleteMany(s.manager, indices)), src))
  }

  /** Whether the count check of a position delete passes, so that `remove(at:)` runs. */
  predicate PositionCheckPasses(s: Stack, src: DataSource, deleted: int) {
    src.Source? && src.count == TotalIndexCount(s.manager) - deleted
  }

  /**
   * `deleteCards(atPositions:)` as written: the count check uses `positions.count`. Once it
   * passes, an out-of-range position traps in `remove(at:)`.
   */
  function DeleteCardsAtPositionsAsWritten(s: Stack, src: DataSource, positions: seq<int>): (r: Outcome)
    requires PositionCheckPasses(s, src, |positions|) ==>
      forall q :: q in positions ==> 0 <= q < |s.manager.remaining|
    ensures src.NoSource? ==> r == Ok(s)
    ensures src.Source? ==> (r.Fatal? <==> !PositionCheckPasses(s, src, |positions|))
    ensures r.Fatal? ==>
      r.message == StringUtils.InvalidUpdateMessage(src.count, TotalIndexCount(s.manager), 0, |positions|)
    ensures src.Source? && r.Ok? ==> r.stack.manager == DeleteAtPositions(s.manager, positions) && Window(r.stack)
  {
    match src
    case NoSource => Ok(s)
    case Source(n) =>
      var before := TotalIndexCount(s.manager);
      if n != before - |positions| then Fatal(StringUtils.InvalidUpdateMessage(n, before, 0, |positions|))
      else Ok(ReloadVisibleCards(s.(manager := DeleteAtPositions(s.manager, positions)), src))
  }

  /** `deleteCards(atPositions:)` with the count check made against the de-duplicated positions. */
  function DeleteCardsAtPositions(s: Stack, src: DataSource, positions: seq<int>): (r: Outcome)
    requires PositionCheckPasses(s, src, |KeepFirst(positions)|) ==>
      forall q :: q in positions ==> 0 <= q < |s.manager.remaining|
    ensures src.NoSource? ==> r == Ok(s)
    ensures src.Source? ==> (r.Fatal? <==> !PositionCheckPasses(s, src, |KeepFirst(positions)|))
    ensures r.Fatal? ==>
      r.message == StringUtils.InvalidUpdateMessage(src.count, TotalIndexCount(s.manager), 0, |KeepFirst(positions)|)
    ensures src.Source? && r.Ok? ==> r.stack.manager == DeleteAtPositions(s.manager, positions) && Window(r.stack)
  {
    match src
    case NoSource => Ok(s)
    case Source(n) =>
      var before := TotalIndexCount(s.manager);
      var deleted := |KeepFirst(positions)|;
      if n != before - deleted then Fatal(StringUtils.InvalidUpdateMessage(n, before, 0, deleted))
      else Ok(ReloadVisibleCards(s.(manager := DeleteAtPositions(s.manager, positions)), src))
  }

  // ---------------------------------------------------------------------------
  // Properties

  /**
   * After `reloadVisibleCards` over a consistent manager the stack is enabled exactly when it
   * is not animating, and the card marked interactive by `layoutCard` is the top card alone.
   */
  lemma {:induction false} LayoutEnablesTop(s: Stack, n: int, src: DataSource)
    requires Valid(s.manager, n)
    ensures var r := ReloadVisibleCards(s, src);
      && (IsEnabled(r) <==> !r.isAnimating)
      && (|r.visible| > 0 ==> r.topInteractive == InteractiveAt(0))
      && forall p :: 0 <= p < |r.visible| ==> (InteractiveAt(p) <==> r.visible[p] == r.visible[0])
  {
    var r := ReloadVisibleCards(s, src);
    ValidRemainingDistinct(s.manager, n);
    forall p | 0 <= p < |r.visible|
      ensures InteractiveAt(p) <==> r.visible[p] == r.visible[0]
    {
      assert r.visible[p] == s.manager.remaining[p] && r.visible[0] == s.manager.remaining[0];
    }
  }

  /**
   * Over a window, `numberOfRemainingCards()` sizes it: the stack shows the smaller of that
   * count and `numberOfVisibleCards`, and each swipe lowers the count by one.
   */
  lemma RemainingCountSizesWindow(s: Stack, d: SwipeDirection, animated: bool, src: DataSource)
    requires Window(s)
    ensures |s.visible| == Min(NumberOfRemainingCards(s), s.visibleCount)
    ensures |s.visible| > 0 ==>
      NumberOfRemainingCards(SwipeAction(s, d, animated, src).stack) == NumberOfRemainingCards(s) - 1
  {
  }

  /**
   * A drag on the top card as the stack's delegate hears it: the began phase reports the top
   * index (0 without one) as beginning to animate and changes nothing; the ended phase, whether
   * the card is swiped or sent back, reports the end of the animation exactly once and last,
   * unless the delegate vetoes the move when the card asks it a second time.
   */
  lemma DragBracketsEvents(s: Stack, c: SwipeCard.Card, location: Vectors.Point, env: SwipeCard.Env,
                           pan: SwipeView.Pan, dirs: seq<SwipeDirection>,
                           first: Option<bool>, second: Option<bool>, src: DataSource)
    requires SwipeCard.ValidEnv(env)
    ensures var began := Deliver(s, SwipeCard.OnPan(c, SwipeView.Began, location, env, pan, dirs, first, second).1, src);
      began == Step(s, [DidBeginAnimating(if |s.visible| == 0 then 0 else s.visible[0])])
    ensures var ended := Deliver(s, SwipeCard.OnPan(c, SwipeView.Ended, location, env, pan, dirs, first, second).1, src);
      && multiset(ended.events)[DidEndAnimating] == (if SwipeCard.Vetoed(second) then 0 else 1)
      && (!SwipeCard.Vetoed(second) ==> ended.events[|ended.events| - 1] == DidEndAnimating)
  {
    BeganDragDelivery(s, c, location, env, pan, dirs, first, second, src);
    EndedDragDelivery(s, c, location, env, pan, dirs, first, second, src);
  }

  lemma BeganDragDelivery(s: Stack, c: SwipeCard.Card, location: Vectors.Point, env: SwipeCard.Env,
                          pan: SwipeView.Pan, dirs: seq<SwipeDirection>,
                          first: Option<bool>, second: Option<bool>, src: DataSource)
    requires SwipeCard.ValidEnv(env)
    ensures Deliver(s, SwipeCard.OnPan(c, SwipeView.Began, location, env, pan, dirs, first, second).1, src)
         == Step(s, [DidBeginAnimating(if |s.visible| == 0 then 0 else s.visible[0])])
  {
    var began := SwipeCard.OnPan(c, SwipeView.Began, location, env, pan, dirs, first, second).1;
    assert began == [SwipeCard.DidBeginSwipe, SwipeCard.RemoveAllAnimations];
    BeginDelivery(s, src);
  }

  lemma EndedDragDelivery(s: Stack, c: SwipeCard.Card, location: Vectors.Point, env: SwipeCard.Env,
                          pan: SwipeView.Pan, dirs: seq<SwipeDirection>,
                          first: Option<bool>, second: Option<bool>, src: DataSource)
    requires SwipeCard.ValidEnv(env)
    ensures var ended := Deliver(s, SwipeCard.OnPan(c, SwipeView.Ended, location, env, pan, dirs, first, second).1, src);
      && multiset(ended.events)[DidEndAnimating] == (if SwipeCard.Vetoed(second) then 0 else 1)
      && (!SwipeCard.Vetoed(second) ==> ended.events[|ended.events| - 1] == DidEndAnimating)
  {
    var ended := SwipeCard.OnPan(c, SwipeView.Ended, location, env, pan, dirs, first, second).1;
    EndDelivery(s, ended, src, SwipeCard.Vetoed(second));
  }

  /**
   * Swiping the last card away by a drag never reports the end of the animation: once the swipe
   * has reached the stack there is no top card, so the stack answers the card's second
   * `card(isCanMove:)` with `false`. The delegate hears the swipe and that every card is gone.
   */
  lemma SwipingLastCardEndsSilently(s: Stack, c: SwipeCard.Card, env: SwipeCard.Env, pan: SwipeView.Pan,
                                    dirs: seq<SwipeDirection>, d: SwipeDirection,
                                    firstAnswer: Option<bool>, secondAnswer: Option<bool>, src: DataSource)
    requires SwipeCard.ValidEnv(env)
    requires Window(s) && s.visibleCount > 0 && |s.manager.remaining| == 1
    requires SwipeView.EndSwiping(env.policy, pan, dirs) == SwipeView.DidSwipe(d)
    requires firstAnswer != Some(false)
    ensures var r := DragEnd(s, c, env, pan, dirs, firstAnswer, secondAnswer, src);
      && DidEndAnimating !in r.events
      && r.events == [DidSwipe(s.visible[0], d), DidSwipeAll]
      && |r.stack.manager.remaining| == 0
  {
    SwipeDelivery(s, d, src);
  }

  /**
   * The second `card(isCanMove:)` of a swiping drag is about the card on top once the swipe has
   * reached the stack: while cards remain, the next remaining index, and the end is reported
   * exactly when the delegate lets that card move.
   */
  lemma SwipeAsksAboutNextCard(s: Stack, c: SwipeCard.Card, env: SwipeCard.Env, pan: SwipeView.Pan,
                               dirs: seq<SwipeDirection>, d: SwipeDirection,
                               firstAnswer: Option<bool>, secondAnswer: Option<bool>, src: DataSource)
    requires SwipeCard.ValidEnv(env)
    requires Window(s) && s.visibleCount > 0 && src.Source? && |s.manager.remaining| > 1
    requires SwipeView.EndSwiping(env.policy, pan, dirs) == SwipeView.DidSwipe(d)
    requires firstAnswer != Some(false)
    ensures var r := DragEnd(s, c, env, pan, dirs, firstAnswer, secondAnswer, src);
      && TopCardIndex(r.stack) == Some(s.manager.remaining[1])
      && r.events == [DidSwipe(s.visible[0], d)] + (if secondAnswer != Some(false) then [DidEndAnimating] else [])
  {
    assert CardIsCanMove(s, firstAnswer);
    var decided := SwipeCard.DecideEnd(c, env, pan, dirs, Some(true));
    assert decided.1 == [SwipeCard.DidSwipe(d), SwipeCard.AnimateSwipe(d, false)];
    SwipeDelivery(s, d, src);
    var swiped := CardDidSwipe(s, d, src);
    SwipeKeepsWindow(s, d, true, src.count);
    assert swiped.stack.manager.remaining == s.manager.remaining[1..];
    assert swiped.stack.visible[0] == s.manager.remaining[1];
    assert swiped.events == [DidSwipe(s.visible[0], d)];
  }

  /**
   * A cancelled drag leaves the stack alone, so its second `card(isCanMove:)` is about the same
   * top card: the end is reported exactly when there is one and the delegate lets it move.
   */
  lemma CancelAsksAboutSameTop(s: Stack, c: SwipeCard.Card, env: SwipeCard.Env, pan: SwipeView.Pan,
                               dirs: seq<SwipeDirection>, firstAnswer: Option<bool>, secondAnswer: Option<bool>, src: DataSource)
    requires SwipeCard.ValidEnv(env)
    requires SwipeView.EndSwiping(env.policy, pan, dirs) == SwipeView.DidCancelSwipe
    ensures var r := DragEnd(s, c, env, pan, dirs, firstAnswer, secondAnswer, src);
      && r.stack == s
      && r.events == (if |s.visible| > 0 && secondAnswer != Some(false) then [DidEndAnimating] else [])
  {
    CancelDelivery(s, c, src);
  }

  /** The calls a drag's unvetoed swipe decision makes reach the stack as `card(didSwipe:with:)`. */
  lemma SwipeDelivery(s: Stack, d: SwipeDirection, src: DataSource)
    ensures Deliver(s, [SwipeCard.DidSwipe(d), SwipeCard.AnimateSwipe(d, false)], src) == CardDidSwipe(s, d, src)
  {
    var calls := [SwipeCard.DidSwipe(d), SwipeCard.AnimateSwipe(d, false)];
    var swiped := CardDidSwipe(s, d, src);
    assert calls[1..] == [SwipeCard.AnimateSwipe(d, false)] && calls[1..][1..] == [];
    assert Deliver(swiped.stack, calls[1..], src) == Step(swiped.stack, []);
  }

  /** The calls of a cancelled drag leave the stack and report nothing. */
  lemma CancelDelivery(s: Stack, c: SwipeCard.Card, src: DataSource)
    ensures Deliver(s, SwipeCard.DidCancelRoute(c).1, src) == Step(s, [])
  {
    var reset := [SwipeCard.AnimateReset];
    QuietDelivery(s, reset, src);
    if c.notifyCancel {
      var calls := [SwipeCard.DidCancelSwipe, SwipeCard.AnimateReset];
      assert DeliverOne(s, calls[0], src) == Step(s, []);
      DeliverUnfold(s, calls, src);
      assert calls[1..] == reset;
    }
  }

  /** An animator request alone reaches no delegate and leaves the stack alone. */
  lemma QuietDelivery(s: Stack, calls: seq<SwipeCard.Call>, src: DataSource)
    requires calls == [SwipeCard.AnimateReset]
    ensures Deliver(s, calls, src) == Step(s, [])
  {
    assert DeliverOne(s, calls[0], src) == Step(s, []);
    DeliverUnfold(s, calls, src);
    assert calls[1..] == [];
  }

  /** Calls that end a drag once, or not at all, reach the delegate as one final end event, or none. */
  lemma EndDelivery(s: Stack, calls: seq<SwipeCard.Call>, src: DataSource, vetoed: bool)
    requires multiset(calls)[SwipeCard.EndSwipingCall] == (if vetoed then 0 else 1)
    requires !vetoed ==> |calls| > 0 && calls[|calls| - 1] == SwipeCard.EndSwipingCall
    ensures var e := Deliver(s, calls, src).events;
      && multiset(e)[DidEndAnimating] == (if vetoed then 0 else 1)
      && (!vetoed ==> |e| > 0 && e[|e| - 1] == DidEndAnimating)
  {
  }

  /** The calls a drag's began phase makes reach the delegate as one begin event. */
  lemma BeginDelivery(s: Stack, src: DataSource)
    ensures Deliver(s, [SwipeCard.DidBeginSwipe, SwipeCard.RemoveAllAnimations], src)
         == Step(s, [DidBeginAnimating(if |s.visible| == 0 then 0 else s.visible[0])])
  {
    var calls := [SwipeCard.DidBeginSwipe, SwipeCard.RemoveAllAnimations];
    assert calls[1..] == [SwipeCard.RemoveAllAnimations];
    assert calls[1..][1..] == [];
  }

  /**
   * On an enabled stack showing its window of more than one card, a non-animated shift by `d`
   * followed by one by `-d` restores the stack exactly.
   */
  lemma StackShiftRoundTrip(s: Stack, d: int, n: nat)
    requires Window(s) && IsEnabled(s) && |s.visible| > 1
    requires 0 < d <= |s.manager.remaining|
    ensures Shift(Shift(s, d, false, Source(n)), -d, false, Source(n)) == s
  {
    var t := Shift(s, d, false, Source(n));
    ArrayExt.ShiftRoundTrip(s.manager.remaining, d);
    assert |t.visible| == |s.visible|;
    assert IsEnabled(t);
  }

  /** A swipe keeps the window over the remaining indices. */
  lemma SwipeKeepsWindow(s: Stack, d: SwipeDirection, animated: bool, n: nat)
    requires Window(s)
    ensures Window(SwipeAction(s, d, animated, Source(n)).stack)
  {
    if |s.visible| > 0 {
      var rem := s.manager.remaining;
      var k := Min(|rem|, s.visibleCount);
      var r := SwipeAction(s, d, animated, Source(n)).stack;
      assert r.manager.remaining == rem[1..];
      if k < |rem| {
        assert r.visible == rem[1..k] + [rem[k]];
        assert r.visible == rem[1..][..k];
      } else {
        assert r.visible == rem[1..];
      }
    }
  }

  /** A swipe keeps the manager consistent with the data source. */
  lemma SwipeKeepsValid(s: Stack, d: SwipeDirection, animated: bool, src: DataSource, n: int)
    requires Valid(s.manager, n)
    ensures Valid(SwipeAction(s, d, animated, src).stack.manager, n)
  {
    SwipePreservesValid(s.manager, n, d);
  }

  /**
   * On an enabled stack showing its window, a non-animated swipe followed by a non-animated
   * undo restores the stack exactly, and the undo reports the swiped card and direction.
   */
  lemma StackSwipeUndoRoundTrip(s: Stack, d: SwipeDirection, n: nat)
    requires Window(s) && IsEnabled(s) && |s.visible| > 0
    ensures UndoLastSwipe(SwipeAction(s, d, false, Source(n)).stack, false, Source(n))
      == Step(s, [DidUndo(s.visible[0], d)])
  {
    var swiped := SwipeAction(s, d, false, Source(n)).stack;
    SwipeUndoRoundTrip(s.manager, d);
    assert IsEnabled(swiped);
    assert UndoSwipe(swiped.manager) == (Some(Swipe(s.visible[0], d)), s.manager);
  }

  /**
   * An undo while no card can be shown (no data source, or `numberOfVisibleCards == 0`) pops
   * the history but leaves the stack animating: every gated operation is then a no-op until
   * `reloadData`.
   */
  lemma UndoWithoutVisibleCardStaysAnimating(s: Stack, animated: bool, src: DataSource, d: SwipeDirection, distance: int)
    requires IsEnabled(s) && |s.manager.swipes| > 0
    requires src.NoSource? || s.visibleCount == 0
    ensures var r := UndoLastSwipe(s, animated, src).stack;
      && r.manager == UndoSwipe(s.manager).1
      && r.isAnimating && !IsEnabled(r)
      && SwipeTopCard(r, d, animated, src) == Step(r, [])
      && UndoLastSwipe(r, animated, src) == Step(r, [])
      && Shift(r, distance, animated, src) == r
  {
  }

  /** After `reloadData` the stack is enabled and an undo has nothing to pop. */
  lemma ReloadDataClearsHistory(s: Stack, n: nat, animated: bool)
    ensures UndoLastSwipe(ReloadData(s, Source(n)), animated, Source(n)) == Step(ReloadData(s, Source(n)), [])
  {
  }

  /** A successful single insert leaves the manager consistent with the grown data source. */
  lemma {:induction false} InsertCardKeepsValid(s: Stack, n: int, count: nat, index: int, position: nat)
    requires Valid(s.manager, n) && 0 <= index <= n && position <= |s.manager.remaining|
    requires InsertCard(s, Source(count), index, position).Ok?
    ensures count == n + 1
    ensures Valid(InsertCard(s, Source(count), index, position).stack.manager, count)
  {
    InsertPreservesValid(s.manager, n, index, position);
  }

  /** Appended indices that lie above every stored index need no renumbering. */
  ghost predicate Fresh(m: Manager, indices: seq<int>) {
    && (forall k :: 0 <= k < |indices| - 1 ==> indices[k] < indices[k + 1])
    && (|indices| > 0 ==> forall x :: x in AllIndices(m) ==> x < indices[0])
  }

  lemma {:induction false} MapUpAbove(xs: seq<int>, index: int)
    requires forall x :: x in xs ==> x < index
    ensures MapUp(xs, index) == xs
  {
    if |xs| > 0 {
      assert xs[0] in xs;
      assert forall x :: x in xs[1..] ==> x in xs;
      MapUpAbove(xs[1..], index);
    }
  }

  lemma {:induction false} MapUpSwipesAbove(ss: seq<Swipe>, index: int)
    requires forall x :: x in Indices(ss) ==> x < index
    ensures MapUpSwipes(ss, index) == ss
  {
    forall k | 0 <= k < |ss|
      ensures MapUpSwipes(ss, index)[k] == ss[k]
    {
      assert Indices(ss)[k] in Indices(ss);
    }
  }

  /** Inserting an index above every stored one at the end renumbers nothing. */
  lemma InsertAboveAtEnd(m: Manager, i: int)
    requires forall x :: x in AllIndices(m) ==> x < i
    ensures Insert(m, i, |m.remaining|) == Manager(m.remaining + [i], m.swipes)
  {
    assert forall x :: x in m.remaining ==> x in AllIndices(m);
    assert forall x :: x in Indices(m.swipes) ==> x in AllIndices(m);
    MapUpAbove(m.remaining, i);
    MapUpSwipesAbove(m.swipes, i);
    assert InsertAt(m.remaining, |m.remaining|, i) == m.remaining + [i];
  }

  /** Appending fresh indices places them after the remaining ones and renumbers nothing. */
  lemma {:induction false} AppendAllFresh(m: Manager, indices: seq<int>)
    requires Fresh(m, indices)
    ensures AppendAll(m, indices) == Manager(m.remaining + indices, m.swipes)
    decreases |indices|
  {
    if |indices| > 0 {
      var i := indices[0];
      InsertAboveAtEnd(m, i);
      var m1 := Manager(m.remaining + [i], m.swipes);
      assert AppendAll(m, indices) == AppendAll(m1, indices[1..]);
      FreshAfterFirst(m, indices);
      AppendAllFresh(m1, indices[1..]);
      assert m.remaining + [i] + indices[1..] == m.remaining + indices;
    }
  }

  /** Once the first fresh index is appended, the rest are fresh for the grown manager. */
  lemma FreshAfterFirst(m: Manager, indices: seq<int>)
    requires Fresh(m, indices) && |indices| > 0
    ensures Fresh(Manager(m.remaining + [indices[0]], m.swipes), indices[1..])
  {
    var m1 := Manager(m.remaining + [indices[0]], m.swipes);
    assert forall x :: x in AllIndices(m1) ==> x in AllIndices(m) || x == indices[0];
    assert |indices| > 1 ==> indices[0] < indices[1];
  }

  /** The indices `n, n+1, ..., n+k-1`, which `appendCards` receives after `k` items were appended. */
  function NextIndices(n: int, k: nat): (r: seq<int>)
    ensures |r| == k
    ensures forall i :: 0 <= i < k ==> r[i] == n + i
  {
    seq(k, i => n + i)
  }

  lemma {:induction false} NextIndicesCount(n: int, k: nat)
    ensures forall x :: multiset(NextIndices(n, k))[x] == (if n <= x < n + k then 1 else 0)
  {
    if k > 0 {
      NextIndicesCount(n, k - 1);
      assert NextIndices(n, k) == NextIndices(n, k - 1) + [n + k - 1];
    }
  }

  /** Appending the next `k` indices to a manager consistent with `n` items makes it consistent with `n + k`. */
  lemma {:induction false} AppendNextKeepsValid(m: Manager, n: nat, k: nat)
    requires Valid(m, n)
    ensures AppendAll(m, NextIndices(n, k)) == Manager(m.remaining + NextIndices(n, k), m.swipes)
    ensures Valid(AppendAll(m, NextIndices(n, k)), n + k)
  {
    var ind := NextIndices(n, k);
    PermutationFacts(AllIndices(m), n);
    assert Fresh(m, ind);
    AppendAllFresh(m, ind);
    var all := AllIndices(Manager(m.remaining + ind, m.swipes));
    assert multiset(all) == multiset(AllIndices(m)) + multiset(ind) by {
      assert all == m.remaining + ind + Indices(m.swipes);
    }
    NextIndicesCount(n, k);
  }

  /** Topping up after appending behind the remaining indices keeps the window. */
  lemma TopUpKeepsWindow(s: Stack, extra: seq<int>, swipes: seq<Swipe>)
    requires Window(s)
    ensures Window(TopUp(s, Manager(s.manager.remaining + extra, swipes)))
  {
    var rem := s.manager.remaining + extra;
    var r := TopUp(s, Manager(rem, swipes));
    var k := Min(|rem|, s.visibleCount);
    if |s.visible| < s.visibleCount {
      assert s.visible == s.manager.remaining == rem[..|s.visible|];
      PrefixSplits(rem, |s.visible|, k);
    } else {
      PrefixOfAppend(s.manager.remaining, extra, k);
    }
  }

  lemma PrefixSplits<T>(a: seq<T>, i: nat, k: nat)
    requires i <= k <= |a|
    ensures a[..k] == a[..i] + a[i..k]
  {
  }

  lemma PrefixOfAppend<T>(a: seq<T>, extra: seq<T>, k: nat)
    requires k <= |a|
    ensures (a + extra)[..k] == a[..k]
  {
  }

  /**
   * Appending `n, ..., n+k-1` to a stack consistent with `n` items keeps it consistent with the
   * data source, keeps the window, and leaves the history alone.
   */
  lemma AppendCardsKeepsValid(s: Stack, n: nat, k: nat, count: nat)
    requires Valid(s.manager, n) && Window(s)
    requires AppendCards(s, Source(count), NextIndices(n, k)).Ok?
    ensures count == n + k
    ensures var r := AppendCards(s, Source(count), NextIndices(n, k)).stack;
      && r.manager == Manager(s.manager.remaining + NextIndices(n, k), s.manager.swipes)
      && Valid(r.manager, count)
      && Window(r)
  {
    AppendNextKeepsValid(s.manager, n, k);
    TopUpKeepsWindow(s, NextIndices(n, k), s.manager.swipes);
  }

  /** A consistent manager stores one index per data-source item. */
  lemma ValidCount(m: Manager, n: int)
    requires Valid(m, n)
    ensures TotalIndexCount(m) == n
  {
  }

  /**
   * With the count check made against the de-duplicated indices, a successful delete leaves the
   * manager storing exactly one index per item the data source now reports.
   */
  lemma DeleteCardsKeepsValid(s: Stack, n: int, count: nat, indices: seq<int>)
    requires Valid(s.manager, n) && forall i :: i in indices ==> 0 <= i < n
    requires DeleteCards(s, Source(count), indices).Ok?
    ensures Valid(DeleteCards(s, Source(count), indices).stack.manager, count)
    ensures TotalIndexCount(DeleteCards(s, Source(count), indices).stack.manager) == count
  {
    ValidCount(s.manager, n);
    DeleteManyPreservesValid(s.manager, n, indices);
  }

  /** The deleted indices, positions read off before any removal, are the de-duplicated ones. */
  lemma PositionsToIndices(m: Manager, n: int, positions: seq<int>)
    requires Valid(m, n) && forall q :: q in positions ==> 0 <= q < |m.remaining|
    ensures PositionsOk(KeepFirst(positions), |m.remaining|)
    ensures var ind := At(m.remaining, KeepFirst(positions));
      && |KeepFirst(ind)| == |KeepFirst(positions)|
      && forall i :: i in ind ==> 0 <= i < n
  {
    DeleteAtPositionsIsDeleteMany(m, n, positions);
    var ps := KeepFirst(positions);
    var ind := At(m.remaining, ps);
    ValidRemainingDistinct(m, n);
    AtDistinct(m.remaining, ps);
    KeepFirstOfDistinct(ind);
    forall i | i in ind
      ensures 0 <= i < n
    {
      var k :| 0 <= k < |ind| && ind[k] == i;
      ValidHoldsRemaining(m, n, ps[k]);
    }
  }

  /** The same for `deleteCards(atPositions:)`, with the corrected count check. */
  lemma DeleteCardsAtPositionsKeepsValid(s: Stack, n: int, count: nat, positions: seq<int>)
    requires Valid(s.manager, n) && forall q :: q in positions ==> 0 <= q < |s.manager.remaining|
    requires DeleteCardsAtPositions(s, Source(count), positions).Ok?
    ensures Valid(DeleteCardsAtPositions(s, Source(count), positions).stack.manager, count)
  {
    ValidCount(s.manager, n);
    PositionsToIndices(s.manager, n, positions);
    DeleteAtPositionsIsDeleteMany(s.manager, n, positions);
    DeleteManyPreservesValid(s.manager, n, At(s.manager.remaining, KeepFirst(positions)));
  }

  /** Without repeated indices the written count check and the corrected one agree. */
  lemma DeleteCardsAgreeWithoutDuplicates(s: Stack, src: DataSource, indices: seq<int>)
    requires Distinct(indices)
    ensures DeleteCardsAsWritten(s, src, indices) == DeleteCards(s, src, indices)
  {
    KeepFirstOfDistinct(indices);
  }

  /** A three-card stack, freshly loaded. */
  function ThreeCards(): (r: Stack)
    ensures r.manager == Manager([0, 1, 2], [])
  {
    var r := ReloadData(Initial, Source(3));
    assert r.manager.remaining == [0, 1, 2];
    r
  }

  lemma KeepFirstOneOne()
    ensures KeepFirst([1, 1]) == [1]
  {
    assert [1, 1][..1] == [1];
    assert KeepFirst([1]) == [1] by {
      assert [1][..0] == [];
    }
  }

  /**
   * The written count check counts repeated indices: deleting `[1, 1]` from three cards is
   * accepted when the data source reports one card, although the manager then stores two, and
   * rejected when it correctly reports two.
   */
  lemma DeleteCardsAsWrittenMiscounts()
    ensures DeleteCardsAsWritten(ThreeCards(), Source(1), [1, 1]).Ok?
    ensures TotalIndexCount(DeleteCardsAsWritten(ThreeCards(), Source(1), [1, 1]).stack.manager) == 2
    ensures DeleteCardsAsWritten(ThreeCards(), Source(2), [1, 1]).Fatal?
    ensures DeleteCards(ThreeCards(), Source(2), [1, 1]).Ok?
    ensures DeleteCards(ThreeCards(), Source(1), [1, 1]).Fatal?
  {
    KeepFirstOneOne();
    var m := ThreeCards().manager;
    assert Valid(m, 3) by {
      assert m == Reset(3).(remaining := m.remaining);
      assert Reset(3).remaining == [0, 1, 2];
    }
    DeleteManyPreservesValid(m, 3, [1, 1]);
  }

  /** The same miscount through `deleteCards(atPositions:)` with positions `[1, 1]`. */
  lemma DeleteCardsAtPositionsAsWrittenMiscounts()
    ensures DeleteCardsAtPositionsAsWritten(ThreeCards(), Source(1), [1, 1]).Ok?
    ensures TotalIndexCount(DeleteCardsAtPositionsAsWritten(ThreeCards(), Source(1), [1, 1]).stack.manager) == 2
    ensures DeleteCardsAtPositions(ThreeCards(), Source(1), [1, 1]).Fatal?
  {
    KeepFirstOneOne();
  }
}

=== FILE: card_transform.dfy ===
/**
 * `CardTransformProvider` (CardTransformProvider.swift): how far each overlay shows during a
 * drag, and which way and how much the card tilts. The affine composition is not modelled.
 */
module CardTransform {
  import opened Wrappers
  import opened Vectors
  import opened Direction
  import opened RealArith
  import opened ArrayExt
  import opened SwipeView

  /** The `reduce(0) { $0 + $1 }` over the percentages, left to right. */
  function Sum(xs: seq<real>): (r: real)
    ensures (forall k :: 0 <= k < |xs| ==> xs[k] >= 0.0) ==> r >= 0.0
  {
    if |xs| == 0 then 0.0 else Sum(xs[..|xs| - 1]) + xs[|xs| - 1]
  }

  /**
   * `overlayPercentage(for:direction:)`: zero except for the active direction, whose overlay
   * shows by how much its percentage exceeds all the others together, clamped to [0, 1].
   */
  function OverlayPercentage(p: Policy, pan: Pan, dirs: seq<SwipeDirection>, d: SwipeDirection): (r: real)
    requires ValidPolicy(p)
    ensures 0.0 <= r <= 1.0
    ensures ActiveDirection(p, pan, dirs) != Some(d) ==> r == 0.0
  {
    if ActiveDirection(p, pan, dirs) != Some(d) then 0.0
    else
      var total := Sum(Percentages(p, pan, dirs));
      var actual := 2.0 * DragPercentage(p, pan, d) - total;
      Max(0.0, Min(actual, 1.0))
  }

  /** `rotationDirectionY(for:)`: +1 for a touch in the upper half, -1 in the lower, 0 without a touch. */
  function RotationDirectionY(touch: Option<Point>, height: real): (r: real)
    ensures touch.None? ==> r == 0.0
    ensures touch.Some? ==> (r == 1.0 <==> touch.value.y < height / 2.0)
    ensures touch.Some? ==> (r == -1.0 <==> touch.value.y >= height / 2.0)
  {
    match touch
    case Some(t) => if t.y < height / 2.0 then 1.0 else -1.0
    case None => 0.0
  }

  /**
   * `rotationAngle(for:)`: the horizontal translation as a fraction of the screen width, capped
   * at 1, signed by the touch half and scaled by the magnitude of the maximum angle.
   */
  function RotationAngle(translationX: real, screenWidth: real, touch: Option<Point>, height: real, maximumRotationAngle: real): (r: real)
    requires screenWidth > 0.0
    ensures touch.None? ==> r == 0.0
    ensures 0.0 <= translationX ==> Abs(r) <= Abs(maximumRotationAngle)
    ensures translationX >= screenWidth && touch.Some? ==> Abs(r) == Abs(maximumRotationAngle)
  {
    var strength := Min(translationX / screenWidth, 1.0);
    var dirY := RotationDirectionY(touch, height);
    var magnitude := Abs(maximumRotationAngle);
    DivSign(translationX, screenWidth);
    TiltBounds(dirY, strength, magnitude);
    dirY * strength * magnitude
  }

  /** A sign times a fraction in [0, 1] times a magnitude stays within the magnitude. */
  lemma TiltBounds(dirY: real, strength: real, magnitude: real)
    ensures (dirY == 0.0 || dirY == 1.0 || dirY == -1.0) && 0.0 <= strength <= 1.0 && magnitude >= 0.0 ==>
      Abs(dirY * strength * magnitude) <= magnitude
    ensures (dirY == 1.0 || dirY == -1.0) && strength == 1.0 && magnitude >= 0.0 ==>
      Abs(dirY * strength * magnitude) == magnitude
  {
    if 0.0 <= strength <= 1.0 && magnitude >= 0.0 {
      MulMonotone(magnitude, strength, 1.0);
      MulMonotone(magnitude, 0.0, strength);
      assert 0.0 <= strength * magnitude <= magnitude;
      assert dirY * strength * magnitude == dirY * (strength * magnitude);
    }
  }

  // ---------------------------------------------------------------------------
  // Properties

  /** A sum whose terms are zero except at `k` is the term at `k`. */
  lemma {:induction false} SumOfOneTerm(xs: seq<real>, k: nat)
    requires k < |xs| && forall j :: 0 <= j < |xs| && j != k ==> xs[j] == 0.0
    ensures Sum(xs) == xs[k]
  {
    var n := |xs| - 1;
    if k < n {
      SumOfOneTerm(xs[..n], k);
    } else {
      SumOfZeros(xs[..n]);
    }
  }

  lemma {:induction false} SumOfZeros(xs: seq<real>)
    requires forall j :: 0 <= j < |xs| ==> xs[j] == 0.0
    ensures Sum(xs) == 0.0
  {
    if |xs| > 0 {
      SumOfZeros(xs[..|xs| - 1]);
    }
  }

  /**
   * When only `d` among distinct allowed directions has a positive percentage (a drag along one
   * axis), its overlay shows its percentage capped at 1, and every other overlay is hidden.
   */
  lemma {:induction false} SingleAxisOverlay(p: Policy, pan: Pan, dirs: seq<SwipeDirection>, d: SwipeDirection, e: SwipeDirection)
    requires ValidPolicy(p) && Distinct(dirs) && d in dirs
    requires forall k :: 0 <= k < |dirs| && dirs[k] != d ==> DragPercentage(p, pan, dirs[k]) == 0.0
    ensures OverlayPercentage(p, pan, dirs, d) == Min(DragPercentage(p, pan, d), 1.0)
    ensures e != d ==> OverlayPercentage(p, pan, dirs, e) == 0.0
  {
    var k :| 0 <= k < |dirs| && dirs[k] == d;
    var pcts := Percentages(p, pan, dirs);
    SumOfOneTerm(pcts, k);
    ActiveDirectionIsFirstMaximum(p, pan, dirs);
    var r := ActiveDirection(p, pan, dirs);
    if DragPercentage(p, pan, d) > 0.0 {
      assert r.Some?;
      assert r.value == d;
    } else {
      assert forall j :: 0 <= j < |dirs| ==> DragPercentage(p, pan, dirs[j]) == 0.0;
      assert r.None?;
    }
  }

  /** The percentages of the directions in `dirs` other than `d`, added up like `Sum`. */
  function OthersSum(p: Policy, pan: Pan, dirs: seq<SwipeDirection>, d: SwipeDirection): (r: real)
    requires ValidPolicy(p)
    ensures r >= 0.0
    decreases |dirs|
  {
    if |dirs| == 0 then 0.0
    else
      var last := dirs[|dirs| - 1];
      OthersSum(p, pan, dirs[..|dirs| - 1], d) + (if last == d then 0.0 else DragPercentage(p, pan, last))
  }

  /** Over distinct directions, the total splits into `d`'s own percentage and the others'. */
  lemma {:induction false} SumSplits(p: Policy, pan: Pan, dirs: seq<SwipeDirection>, d: SwipeDirection)
    requires ValidPolicy(p) && Distinct(dirs)
    ensures Sum(Percentages(p, pan, dirs)) ==
      OthersSum(p, pan, dirs, d) + (if d in dirs then DragPercentage(p, pan, d) else 0.0)
    decreases |dirs|
  {
    if |dirs| > 0 {
      var n := |dirs| - 1;
      var front := dirs[..n];
      assert Percentages(p, pan, dirs)[..n] == Percentages(p, pan, front);
      assert Distinct(front);
      SumSplits(p, pan, front, d);
      if dirs[n] == d {
        assert d !in front;
      } else {
        assert d in dirs <==> d in front by {
          assert dirs == front + [dirs[n]];
        }
      }
    }
  }

  /** Another direction's percentage is part of the others' total. */
  lemma {:induction false} OthersSumCovers(p: Policy, pan: Pan, dirs: seq<SwipeDirection>, d: SwipeDirection, e: SwipeDirection)
    requires ValidPolicy(p) && e in dirs && e != d
    ensures OthersSum(p, pan, dirs, d) >= DragPercentage(p, pan, e)
    decreases |dirs|
  {
    var n := |dirs| - 1;
    var front := dirs[..n];
    if dirs[n] != e {
      assert dirs == front + [dirs[n]];
      OthersSumCovers(p, pan, front, d, e);
    }
  }

  /**
   * The active direction's overlay over distinct directions: its percentage less all the
   * others together, clamped to [0, 1]; `2·p(d) − Σp` is that difference.
   */
  lemma ActiveOverlayValue(p: Policy, pan: Pan, dirs: seq<SwipeDirection>, d: SwipeDirection)
    requires ValidPolicy(p) && Distinct(dirs) && ActiveDirection(p, pan, dirs) == Some(d)
    ensures OverlayPercentage(p, pan, dirs, d) ==
      Max(0.0, Min(DragPercentage(p, pan, d) - OthersSum(p, pan, dirs, d), 1.0))
  {
    SumSplits(p, pan, dirs, d);
  }

  /**
   * An overlay stays hidden while another allowed direction has at least its percentage: in
   * particular, a drag along a diagonal between two allowed directions shows neither overlay.
   */
  lemma RivalHidesOverlay(p: Policy, pan: Pan, dirs: seq<SwipeDirection>, d: SwipeDirection, e: SwipeDirection)
    requires ValidPolicy(p) && Distinct(dirs) && e in dirs && e != d
    requires DragPercentage(p, pan, e) >= DragPercentage(p, pan, d)
    ensures OverlayPercentage(p, pan, dirs, d) == 0.0
  {
    if ActiveDirection(p, pan, dirs) == Some(d) {
      ActiveOverlayValue(p, pan, dirs, d);
      OthersSumCovers(p, pan, dirs, d, e);
    }
  }

  /** A drag up and to the right at 45 degrees, all four directions allowed: no overlay shows. */
  lemma DiagonalShowsNoOverlay(p: Policy, s: real, velocity: Vec, d: SwipeDirection)
    requires ValidPolicy(p) && s > 0.0
    ensures OverlayPercentage(p, Pan(Vec(s, -s), velocity), AllDirections, d) == 0.0
  {
    var pan := Pan(Vec(s, -s), velocity);
    assert Distinct(AllDirections);
    assert Right in AllDirections && Up in AllDirections;
    assert DragPercentage(p, pan, Right) == DragPercentage(p, pan, Up);
    if d == Right {
      RivalHidesOverlay(p, pan, AllDirections, Right, Up);
    } else if d == Up {
      RivalHidesOverlay(p, pan, AllDirections, Up, Right);
    } else {
      assert Along(pan.translation, d) < 0.0;
      RivalHidesOverlay(p, pan, AllDirections, d, Up);
    }
  }

  /** The tilt sign depends only on which half of the card the touch is in. */
  lemma RotationFollowsTouchHalf(translationX: real, screenWidth: real, y: real, x1: real, x2: real, height: real, maxAngle: real)
    requires screenWidth > 0.0
    ensures RotationAngle(translationX, screenWidth, Some(Point(x1, y)), height, maxAngle)
         == RotationAngle(translationX, screenWidth, Some(Point(x2, y)), height, maxAngle)
    ensures 0.0 < translationX && maxAngle != 0.0 ==>
      (RotationAngle(translationX, screenWidth, Some(Point(x1, y)), height, maxAngle) > 0.0 <==> y < height / 2.0)
  {
    var strength := Min(translationX / screenWidth, 1.0);
    var magnitude := Abs(maxAngle);
    if 0.0 < translationX && maxAngle != 0.0 {
      DivSign(translationX, screenWidth);
      TiltSign(RotationDirectionY(Some(Point(x1, y)), height), strength, magnitude);
    }
  }

  /** A unit sign times two positive factors keeps the sign. */
  lemma TiltSign(dirY: real, strength: real, magnitude: real)
    requires dirY == 1.0 || dirY == -1.0
    requires strength > 0.0 && magnitude > 0.0
    ensures dirY * strength * magnitude > 0.0 <==> dirY == 1.0
  {
    var product := strength * magnitude;
    assert product > 0.0;
    assert dirY * strength * magnitude == dirY * product;
  }
}

=== FILE: direction.dfy ===
/** The four compass directions a card can be swiped in (SwipeDirection.swift). */
module Direction {
  import opened Wrappers
  import opened Vectors

  /** Declared in the order left, right, up, down; the raw values follow that order. */
  datatype SwipeDirection = Left | Right | Up | Down

  /** The `Int` raw value of the enum case. */
  function RawValue(d: SwipeDirection): (r: int)
    ensures 0 <= r < 4
    ensures FromRawValue(r) == Some(d)
  {
    match d
    case Left => 0
    case Right => 1
    case Up => 2
    case Down => 3
  }

  /** `SwipeDirection(rawValue:)`: the failable initializer. */
  function FromRawValue(raw: int): (r: Option<SwipeDirection>)
    ensures r.Some? <==> 0 <= raw < 4
  {
    if raw == 0 then Some(Left)
    else if raw == 1 then Some(Right)
    else if raw == 2 then Some(Up)
    else if raw == 3 then Some(Down)
    else None
  }

  /** `allDirections`: note the order differs from the declaration order. */
  const AllDirections: seq<SwipeDirection> := [Left, Up, Right, Down]

  /** The unit vector of a direction; screen y grows downwards, so `Up` is (0, -1). */
  function Vector(d: SwipeDirection): (v: Vec)
    ensures v.dx == 0.0 || v.dy == 0.0
    ensures (d == Left || d == Right) <==> v.dy == 0.0
  {
    match d
    case Left => Vec(-1.0, 0.0)
    case Right => Vec(1.0, 0.0)
    case Up => Vec(0.0, -1.0)
    case Down => Vec(0.0, 1.0)
  }

  /** The direction pointing the other way. */
  function Opposite(d: SwipeDirection): (r: SwipeDirection)
    ensures r != d
  {
    match d
    case Left => Right
    case Right => Left
    case Up => Down
    case Down => Up
  }

  /** `description` */
  function Description(d: SwipeDirection): (s: string)
    ensures |s| >= 2
  {
    match d
    case Left => "left"
    case Right => "right"
    case Up => "up"
    case Down => "down"
  }

  lemma AllDirectionsListsEachOnce(d: SwipeDirection)
    ensures d in AllDirections
    ensures forall i, j :: 0 <= i < j < |AllDirections| ==> AllDirections[i] != AllDirections[j]
    ensures |AllDirections| == 4
  {
  }

  /** Each vector is an axis-aligned unit vector, with the expected signs. */
  lemma VectorsAreUnitAxes()
    ensures Vector(Left) == Vec(-1.0, 0.0) && Vector(Right) == Vec(1.0, 0.0)
    ensures Vector(Up) == Vec(0.0, -1.0) && Vector(Down) == Vec(0.0, 1.0)
  {
  }

  /** Opposite directions have negated vectors. */
  lemma OppositeVectorsNegate(d: SwipeDirection)
    ensures Opposite(Opposite(d)) == d
    ensures Vector(Opposite(d)) == Neg(Vector(d))
  {
  }

  /** Two direction vectors are equal, opposite or orthogonal. */
  lemma {:induction false} DirectionDotTable(d: SwipeDirection, e: SwipeDirection)
    ensures Dot(Vector(d), Vector(e)) == (if d == e then 1.0 else if e == Opposite(d) then -1.0 else 0.0)
  {
    match d {
      case Left => match e { case Left => case Right => case Up => case Down => }
      case Right => match e { case Left => case Right => case Up => case Down => }
      case Up => match e { case Left => case Right => case Up => case Down => }
      case Down => match e { case Left => case Right => case Up => case Down => }
    }
  }

  /** Distinct directions have distinct descriptions. */
  lemma DescriptionInjective(d: SwipeDirection, e: SwipeDirection)
    ensures Description(d) == Description(e) <==> d == e
  {
    if d != e {
      assert Description(d)[0] != Description(e)[0] || |Description(d)| != |Description(e)|;
    }
  }

  /** The four descriptions are the lower-case case names. */
  lemma DescriptionLiterals()
    ensures Description(Left) == "left" && Description(Right) == "right"
    ensures Description(Up) == "up" && Description(Down) == "down"
  {
  }

  /** The raw values follow declaration order, which is not the `allDirections` order. */
  lemma RawValuesFollowDeclarationOrder()
    ensures RawValue(Left) == 0 && RawValue(Right) == 1 && RawValue(Up) == 2 && RawValue(Down) == 3
    ensures RawValue(AllDirections[1]) != 1
  {
  }
}

=== FILE: real_arith.dfy ===
/** Small facts of ordered-field arithmetic that the geometry proofs lean on. */
module RealArith {

  function Max(a: real, b: real): (r: real)
    ensures r >= a && r >= b && (r == a || r == b)
  {
    if a >= b then a else b
  }

  function Min(a: real, b: real): (r: real)
    ensures r <= a && r <= b && (r == a || r == b)
  {
    if a <= b then a else b
  }

  function Abs(a: real): (r: real)
    ensures r >= 0.0 && (r == a || r == -a)
  {
    if a < 0.0 then -a else a
  }

  /** Multiplying by the reciprocal is dividing. */
  lemma Reciprocal(m: real, x: real)
    requires m != 0.0
    ensures (1.0 / m) * x == x / m
  {
  }

  lemma MulMonotone(c: real, a: real, b: real)
    requires c >= 0.0 && a <= b
    ensures c * a <= c * b
  {
  }

  lemma DivSign(x: real, m: real)
    requires m > 0.0
    ensures x > 0.0 <==> x / m > 0.0
    ensures x / m >= 1.0 <==> x >= m
    ensures x / m <= 1.0 <==> x <= m
  {
  }

  lemma DivMonotone(a: real, b: real, m: real)
    requires m > 0.0 && a <= b
    ensures a / m <= b / m
  {
  }

  /** One over `s / m`, times `s`, is `m`. */
  lemma ReciprocalOfQuotient(s: real, m: real)
    requires s > 0.0 && m > 0.0
    ensures (1.0 / (s / m)) * s == m
  {
    var q := s / m;
    assert q * m == s;
    assert q > 0.0;
    assert (1.0 / q) * s == (1.0 / q) * (q * m);
  }

  lemma ReciprocalBounds(a: real)
    requires a >= 1.0
    ensures 0.0 < 1.0 / a <= 1.0
  {
  }

  /** Taking reciprocals reverses the order of numbers at least 1. */
  lemma ReciprocalAntitone(a: real, b: real)
    requires 1.0 <= a <= b
    ensures 1.0 / b <= 1.0 / a
  {
    var x := 1.0 / a;
    var y := 1.0 / b;
    assert x * a == 1.0;
    assert y * b == 1.0;
    assert y * a <= y * b;
    assert y * a <= x * a;
  }

  lemma HalfReciprocal(a: real)
    requires a > 0.0
    ensures 1.0 / (2.0 * a) == (1.0 / a) / 2.0
  {
  }

  /** A fraction `t` of `c` lies between 0 and `c`. */
  lemma ScaledBetween(c: real, t: real)
    requires 0.0 <= t <= 1.0
    ensures Min(0.0, c) <= c * t <= Max(0.0, c)
  {
    if c >= 0.0 {
      MulMonotone(c, 0.0, t);
      MulMonotone(c, t, 1.0);
    } else {
      MulMonotone(t, c, 0.0);
      MulMonotone(1.0 - t, c, 0.0);
      assert (1.0 - t) * c == c - t * c;
    }
  }

  /** Dividing by `k` and multiplying back by `k` gives the number back. */
  lemma DivTimes(x: real, k: real)
    requires k != 0.0
    ensures x / k * k == x
  {
  }

  /** Multiplying by a non-zero number and dividing by it again gives back the number. */
  lemma TimesDiv(x: real, k: real)
    requires k != 0.0
    ensures x * k / k == x
  {
  }
}

=== FILE: rects.dfy ===
/** `CGRect` as origin and size, without the standardisation of negative sizes. */
module Rects {

  datatype Rect = Rect(x: real, y: real, width: real, height: real)

  function MaxX(r: Rect): real {
    r.x + r.width
  }

  function MaxY(r: Rect): real {
    r.y + r.height
  }

  /** The two rectangles share no interior point vertically: one ends where or before the other starts. */
  predicate StackedVertically(top: Rect, bottom: Rect) {
    MaxY(top) <= bottom.y
  }
}

=== FILE: slide_config.dfy ===
/**
 * `WZSlideCardConfig` (WZSlideCardConfig.swift): the settings of the older slide-card container
 * and the `correct*` functions that pull each setting into its legal range. Screen sizes and π
 * are parameters.
 */
module SlideConfig {
  import opened RealArith

  /** `WZSlideCardRemoveDirection`: the axis along which a card is thrown away. */
  datatype RemoveDirection = Horizontal | Vertical

  /** `WZSlideCardShowType`: stacked cards or full-size cards. */
  datatype ShowType = Pile | Full

  datatype Config = Config(
    showType: ShowType,
    visibleCount: int,
    cardSpacing: real,
    minScale: real,
    removeDirection: RemoveDirection,
    horizontalRemoveDistance: real,
    horizontalRemoveVelocity: real,
    verticalRemoveDistance: real,
    verticalRemoveVelocity: real,
    /** Degrees; read by nothing (see `CorrectRemoveMaxAngle`). */
    removeMaxAngle: real,
    /** Degrees between the drag and the vertical axis. */
    demarcationAngle: real,
    infiniteLoop: bool)

  /** The property initializers; the remove distances are a quarter of the screen's sides. */
  function Default(screenWidth: real, screenHeight: real): (c: Config)
    ensures c.visibleCount == 3 && c.cardSpacing == 10.0 && c.minScale == 0.8
    ensures c.showType == Pile && c.removeDirection == Horizontal && !c.infiniteLoop
    ensures 4.0 * c.horizontalRemoveDistance == screenWidth && 4.0 * c.verticalRemoveDistance == screenHeight
    ensures c.horizontalRemoveVelocity == 1000.0 && c.verticalRemoveVelocity == 500.0
    ensures c.removeMaxAngle == 10.0 && c.demarcationAngle == 5.0
  {
    Config(Pile, 3, 10.0, 0.8, Horizontal, screenWidth / 4.0, 1000.0, screenHeight / 4.0, 500.0, 10.0, 5.0, false)
  }

  /** `correctScale()`: the bottom card's scale, pulled into [0.1, 1]. */
  function CorrectScale(c: Config): (r: real)
    ensures 0.1 <= r <= 1.0
    ensures c.minScale <= 0.1 ==> r == 0.1
    ensures c.minScale >= 1.0 ==> r == 1.0
    ensures 0.1 < c.minScale <= 1.0 ==> r == c.minScale
  {
    var capped := if c.minScale > 1.0 then 1.0 else c.minScale;
    if capped <= 0.1 then 0.1 else capped
  }

  /**
   * `correctRemoveMaxAngleAndToRadius()`: the configured angle is commented out and a constant
   * 10 degrees is clamped to [0, 90] instead, then turned into negative radians.
   */
  function CorrectRemoveMaxAngle(c: Config, pi: real): (r: real)
    requires pi > 0.0
    ensures r < 0.0 && 18.0 * r == -pi
  {
    var angle := 10.0;
    var clamped := if angle < 0.0 then 0.0 else if angle > 90.0 then 90.0 else angle;
    clamped / -180.0 * pi
  }

  /** `correctHorizontalRemoveDistance()`: at least 10. */
  function CorrectHorizontalRemoveDistance(c: Config): (r: real)
    ensures r >= 10.0
    ensures c.horizontalRemoveDistance >= 10.0 ==> r == c.horizontalRemoveDistance
    ensures c.horizontalRemoveDistance < 10.0 ==> r == 10.0
  {
    if c.horizontalRemoveDistance < 10.0 then 10.0 else c.horizontalRemoveDistance
  }

  /** `correctHorizontalRemoveVelocity()`: at least 100. */
  function CorrectHorizontalRemoveVelocity(c: Config): (r: real)
    ensures r >= 100.0
    ensures c.horizontalRemoveVelocity >= 100.0 ==> r == c.horizontalRemoveVelocity
    ensures c.horizontalRemoveVelocity < 100.0 ==> r == 100.0
  {
    if c.horizontalRemoveVelocity < 100.0 then 100.0 else c.horizontalRemoveVelocity
  }

  /** `correctVerticalRemoveDistance()`: at least 50. */
  function CorrectVerticalRemoveDistance(c: Config): (r: real)
    ensures r >= 50.0
    ensures c.verticalRemoveDistance >= 50.0 ==> r == c.verticalRemoveDistance
    ensures c.verticalRemoveDistance < 50.0 ==> r == 50.0
  {
    if c.verticalRemoveDistance < 50.0 then 50.0 else c.verticalRemoveDistance
  }

  /** `correctVerticalRemoveVelocity()`: at least 100. */
  function CorrectVerticalRemoveVelocity(c: Config): (r: real)
    ensures r >= 100.0
    ensures c.verticalRemoveVelocity >= 100.0 ==> r == c.verticalRemoveVelocity
    ensures c.verticalRemoveVelocity < 100.0 ==> r == 100.0
  {
    if c.verticalRemoveVelocity < 100.0 then 100.0 else c.verticalRemoveVelocity
  }

  /** The demarcation angle in degrees, clamped to [5, 85]. */
  function DemarcationDegrees(c: Config): (r: real)
    ensures 5.0 <= r <= 85.0
    ensures 5.0 <= c.demarcationAngle <= 85.0 ==> r == c.demarcationAngle
  {
    if c.demarcationAngle < 5.0 then 5.0
    else if c.demarcationAngle > 85.0 then 85.0
    else c.demarcationAngle
  }

  /** `correctDemarcationAngle()`: the clamped degrees in radians, so between 5π/180 and 85π/180. */
  function CorrectDemarcationAngle(c: Config, pi: real): (r: real)
    requires pi > 0.0
    ensures 5.0 * pi <= 180.0 * r <= 85.0 * pi
    ensures 5.0 <= c.demarcationAngle <= 85.0 ==> 180.0 * r == c.demarcationAngle * pi
  {
    var degrees := DemarcationDegrees(c);
    MulMonotone(pi, 5.0, degrees);
    MulMonotone(pi, degrees, 85.0);
    degrees / 180.0 * pi
  }

  /** Only the minimum scale matters to `correctScale`, and re-correcting a corrected scale changes nothing. */
  lemma CorrectScaleIdempotent(c: Config)
    ensures CorrectScale(c.(minScale := CorrectScale(c))) == CorrectScale(c)
  {
  }

  /** The configured maximum angle has no effect on the rotation bound. */
  lemma RemoveMaxAngleIgnored(c: Config, d: Config, pi: real)
    requires pi > 0.0
    ensures CorrectRemoveMaxAngle(c, pi) == CorrectRemoveMaxAngle(d, pi)
  {
  }

  /** Each corrected threshold is the larger of its floor and the configured value. */
  lemma CorrectionsAreFloors(c: Config)
    ensures CorrectHorizontalRemoveDistance(c) == Max(10.0, c.horizontalRemoveDistance)
    ensures CorrectVerticalRemoveDistance(c) == Max(50.0, c.verticalRemoveDistance)
    ensures CorrectHorizontalRemoveVelocity(c) == Max(100.0, c.horizontalRemoveVelocity)
    ensures CorrectVerticalRemoveVelocity(c) == Max(100.0, c.verticalRemoveVelocity)
  {
  }
}

=== FILE: slide_view.dfy ===
/**
 * `WZSlideCardView` (WZSlideCardView.swift): the older slide-card container. Only its
 * arithmetic and index bookkeeping are modelled: the card ladder built on reload, the drag
 * ratios, the interpolation while dragging, the end-of-drag decision, and how `currentIndex`
 * and the list of laid-out cards change when a card is installed, thrown away, restored or
 * brought back. The data source is its card count; `tan` of the demarcation angle is an input.
 */
module SlideView {
  import opened Wrappers
  import opened RealArith
  import opened Rects
  import opened SlideConfig

  /** `WZSlideCardInfo`: a card's data index and the scale and frame stored for it. */
  datatype Info = Info(card: int, scale: real, frame: Rect)

  datatype Slide = Slide(
    config: Config,
    width: real,
    height: real,
    /** `infos`: the laid-out cards, top card first. */
    infos: seq<Info>,
    /** `stableInfos`: the layout as it was after the last reload. */
    stable: seq<Info>,
    currentIndex: int,
    revoking: bool)

  /** Delegate calls. */
  datatype SlideCall =
    | DidSelect(index: int)
    | BeganDrag(index: int)
    | Dragging(index: int)
    | EndDrag(index: int, moved: bool)

  // ---------------------------------------------------------------------------
  // Reload: the card ladder

  /** `correctCardSpacing()`: the spacing, pulled into [0, height/2]. */
  function CorrectCardSpacing(c: Config, height: real): (r: real)
    ensures c.cardSpacing < 0.0 ==> r == 0.0
    ensures 0.0 <= c.cardSpacing <= height / 2.0 ==> r == c.cardSpacing
    ensures c.cardSpacing >= 0.0 && c.cardSpacing > height / 2.0 ==> r == height / 2.0
    ensures height >= 0.0 ==> 0.0 <= r <= height / 2.0
  {
    if c.cardSpacing < 0.0 then 0.0
    else if c.cardSpacing > height / 2.0 then height / 2.0
    else c.cardSpacing
  }

  /** How many cards a reload lays out: `min(count, visibleCount)`, nothing when that is not positive. */
  function ShowCount(count: int, c: Config): (r: int)
    ensures r <= count && r <= c.visibleCount && (r == count || r == c.visibleCount)
  {
    if count <= c.visibleCount then count else c.visibleCount
  }

  /** The scale lost from one card to the next so that the last of `n` reaches `correctScale`. */
  function ScaleStep(c: Config, n: int): (r: real)
    ensures r >= 0.0
  {
    if n > 1 then
      DivMonotone(0.0, 1.0 - CorrectScale(c), (n - 1) as real);
      (1.0 - CorrectScale(c)) / (n - 1) as real
    else 1.0
  }

  /** Card `i` of a reload: scale `1 - step·i`; a pile offsets it by `spacing·i` and shortens all cards. */
  function LaidOut(s: Slide, n: int, i: int): (r: Info)
    ensures r.card == i && r.frame.x == 0.0 && r.frame.width == s.width
  {
    var spacing := CorrectCardSpacing(s.config, s.height);
    var cardHeight := if s.config.showType == Full then s.height else s.height - (n - 1) as real * spacing;
    var row := if s.config.showType == Full then 0 else i;
    Info(i, 1.0 - ScaleStep(s.config, n) * i as real, Rect(0.0, spacing * row as real, s.width, cardHeight))
  }

  /** `reloadData(animation:)`: start over at card 0 with the first `showCount` cards laid out. */
  function Reload(s: Slide, count: int): (r: Slide)
    ensures r.currentIndex == 0 && r.infos == r.stable && r.revoking == s.revoking
    ensures |r.infos| == (if ShowCount(count, s.config) <= 0 then 0 else ShowCount(count, s.config))
    ensures forall i :: 0 <= i < |r.infos| ==> r.infos[i].card == i
    ensures |r.infos| > 0 ==> r.infos[0].scale == 1.0
  {
    var n := ShowCount(count, s.config);
    var laid := if n <= 0 then [] else seq(n, i requires 0 <= i < n => LaidOut(s, n, i));
    s.(infos := laid, stable := laid, currentIndex := 0)
  }

  // ---------------------------------------------------------------------------
  // Dragging

  /** A drag distance over its removal distance, clamped to [-1, 1]. */
  function Ratio(distance: real, removeDistance: real): (r: real)
    requires removeDistance > 0.0
    ensures -1.0 <= r <= 1.0
    ensures distance >= removeDistance ==> r == 1.0
    ensures distance <= -removeDistance ==> r == -1.0
    ensures -removeDistance <= distance <= removeDistance ==> r * removeDistance == distance
    ensures r > 0.0 <==> distance > 0.0
  {
    var q := distance / removeDistance;
    DivSign(distance, removeDistance);
    DivSign(-distance, removeDistance);
    if q < -1.0 then -1.0 else if q > 1.0 then 1.0 else q
  }

  /** The horizontal and vertical ratios of a drag, against the corrected removal distances. */
  function HorizontalRatio(c: Config, dx: real): (r: real)
    ensures -1.0 <= r <= 1.0
    ensures dx >= CorrectHorizontalRemoveDistance(c) ==> r == 1.0
    ensures dx <= -CorrectHorizontalRemoveDistance(c) ==> r == -1.0
    ensures -CorrectHorizontalRemoveDistance(c) <= dx <= CorrectHorizontalRemoveDistance(c) ==>
      r * CorrectHorizontalRemoveDistance(c) == dx
  {
    Ratio(dx, CorrectHorizontalRemoveDistance(c))
  }

  function VerticalRatio(c: Config, dy: real): (r: real)
    ensures -1.0 <= r <= 1.0
    ensures dy >= CorrectVerticalRemoveDistance(c) ==> r == 1.0
    ensures dy <= -CorrectVerticalRemoveDistance(c) ==> r == -1.0
    ensures -CorrectVerticalRemoveDistance(c) <= dy <= CorrectVerticalRemoveDistance(c) ==>
      r * CorrectVerticalRemoveDistance(c) == dy
  {
    Ratio(dy, CorrectVerticalRemoveDistance(c))
  }

  /** The dragged card's rotation: the horizontal ratio times the fixed negative maximum angle. */
  function DragRotation(c: Config, dx: real, pi: real): (r: real)
    requires pi > 0.0
    ensures -pi <= 18.0 * r <= pi
    ensures dx > 0.0 ==> r < 0.0
    ensures 18.0 * r == -(pi * HorizontalRatio(c, dx))
  {
    var ratio := HorizontalRatio(c, dx);
    var maxAngle := CorrectRemoveMaxAngle(c, pi);
    TurnWithinMax(ratio, maxAngle, pi);
    ratio * maxAngle
  }

  /** A ratio in [-1, 1] times an angle of -pi/18 stays within pi/18 and flips the ratio's sign. */
  lemma TurnWithinMax(ratio: real, maxAngle: real, pi: real)
    requires -1.0 <= ratio <= 1.0 && pi > 0.0 && maxAngle < 0.0 && 18.0 * maxAngle == -pi
    ensures -pi <= 18.0 * (ratio * maxAngle) <= pi
    ensures 18.0 * (ratio * maxAngle) == -(pi * ratio)
    ensures ratio > 0.0 ==> ratio * maxAngle < 0.0
  {
    var turn := ratio * maxAngle;
    var scaled := pi * ratio;
    assert 18.0 * turn == -scaled;
    UnitTimes(pi, ratio);
    assert -pi <= 18.0 * turn <= pi;
    if ratio > 0.0 {
      assert scaled > 0.0;
      assert turn < 0.0;
    }
  }

  lemma UnitTimes(x: real, ratio: real)
    requires -1.0 <= ratio <= 1.0 && x > 0.0
    ensures -x <= x * ratio <= x
  {
    MulMonotone(x, ratio, 1.0);
    MulMonotone(x, -1.0, ratio);
  }

  /** The ratio handed to `moving(ratio:)`: the size of the ratio along the removal axis. */
  function MoveRatio(c: Config, dx: real, dy: real): (r: real)
    ensures 0.0 <= r <= 1.0
    ensures c.removeDirection == Horizontal ==> r == Abs(HorizontalRatio(c, dx))
    ensures c.removeDirection == Vertical ==> r == Abs(VerticalRatio(c, dy))
  {
    if c.removeDirection == Horizontal then Abs(HorizontalRatio(c, dx)) else Abs(VerticalRatio(c, dy))
  }

  /** `a - (a - b)·t`: from `a` at t = 0 to `b` at t = 1. */
  function Lerp(a: real, b: real, t: real): real {
    a - (a - b) * t
  }

  /** What `moving(ratio:)` shows for one card: left alone, or a scale and a y. */
  datatype Display = Untouched | Shown(scale: real, y: real)

  /** Whether `moving` and `disappear` leave card `i` alone: the top card, and an extra bottom card. */
  predicate Pinned(infos: seq<Info>, visibleCount: int, i: int) {
    i == 0 || (|infos| > visibleCount && i == |infos| - 1)
  }

  /**
   * `moving(ratio:)`: the ratio is clamped to [0, 1] and every card below the top (except an
   * extra bottom card) moves that far towards the scale and y stored for the card above it.
   */
  function Moving(infos: seq<Info>, visibleCount: int, ratio: real): (r: seq<Display>)
    ensures |r| == |infos|
    ensures forall i :: 0 <= i < |r| ==> (r[i].Untouched? <==> Pinned(infos, visibleCount, i))
  {
    var t := if ratio < 0.0 then 0.0 else if ratio > 1.0 then 1.0 else ratio;
    seq(|infos|, i requires 0 <= i < |infos| =>
      if Pinned(infos, visibleCount, i) then Untouched
      else Shown(Lerp(infos[i].scale, infos[i - 1].scale, t), Lerp(infos[i].frame.y, infos[i - 1].frame.y, t)))
  }

  /**
   * The `.began` phase of the pan handler: report the top card's index to the delegate, then
   * put the next card under the pile.
   */
  function BeganPan(s: Slide, count: int): (r: (Slide, seq<SlideCall>))
    ensures r.1 == [BeganDrag(s.currentIndex)]
    ensures r.0 == InstallNextCard(s, count)
    ensures Window(s, count) && |s.infos| == ShowCount(count, s.config) ==> Window(r.0, count)
  {
    var installed := InstallNextCard(s, count);
    if Window(s, count) && |s.infos| == ShowCount(count, s.config) then
      InstallKeepsWindow(s, count);
      (installed, [BeganDrag(s.currentIndex)])
    else (installed, [BeganDrag(s.currentIndex)])
  }

  /** What one `.changed` step draws: the dragged card's tilt and every card's display. */
  datatype DragFrame = DragFrame(rotation: real, displays: seq<Display>)

  /**
   * The `.changed` phase of the pan handler, for the top card moved by (`dx`, `dy`) from where
   * it started: tilt it by the horizontal ratio, move the other cards by the ratio along the
   * removal axis, and report the top card's index to the delegate.
   */
  function ChangedPan(s: Slide, dx: real, dy: real, pi: real): (r: (DragFrame, seq<SlideCall>))
    requires pi > 0.0
    ensures r.1 == [Dragging(s.currentIndex)]
    ensures r.0.rotation == DragRotation(s.config, dx, pi)
    ensures r.0.displays == Moving(s.infos, s.config.visibleCount, MoveRatio(s.config, dx, dy))
  {
    (DragFrame(DragRotation(s.config, dx, pi), Moving(s.infos, s.config.visibleCount, MoveRatio(s.config, dx, dy))),
     [Dragging(s.currentIndex)])
  }

  // ---------------------------------------------------------------------------
  // End of a drag

  /**
   * The end-of-drag test as the source writes it: in the vertical branch the distance is
   * compared with `horizontalRemoveDistance`.
   */
  function DismissAsWritten(c: Config, dx: real, dy: real, vx: real, vy: real, tanAngle: real): (r: bool)
    ensures r ==> Abs(dy) > 0.1
  {
    if c.removeDirection == Horizontal then
      (Abs(dx) > c.horizontalRemoveDistance || Abs(vx) > c.horizontalRemoveVelocity)
      && Abs(dy) > 0.1 && Abs(dx) / Abs(dy) >= tanAngle
    else
      (Abs(dy) > c.horizontalRemoveDistance || Abs(vy) > c.verticalRemoveVelocity)
      && Abs(dy) > 0.1 && Abs(dx) / Abs(dy) <= tanAngle
  }

  /**
   * The end-of-drag test with the vertical branch reading `verticalRemoveDistance`: a card is
   * thrown away when it went far or fast enough along the removal axis, moved vertically by more
   * than 0.1, and its drag lies on the removal axis's side of the demarcation angle.
   */
  function Dismiss(c: Config, dx: real, dy: real, vx: real, vy: real, tanAngle: real): (r: bool)
    ensures c.removeDirection == Horizontal ==>
      (r <==> (Abs(dx) > c.horizontalRemoveDistance || Abs(vx) > c.horizontalRemoveVelocity)
              && Abs(dy) > 0.1 && Abs(dx) >= tanAngle * Abs(dy))
    ensures c.removeDirection == Vertical ==>
      (r <==> (Abs(dy) > c.verticalRemoveDistance || Abs(vy) > c.verticalRemoveVelocity)
              && Abs(dy) > 0.1 && Abs(dx) <= tanAngle * Abs(dy))
  {
    if Abs(dy) > 0.1 then QuotientAgainst(Abs(dx), Abs(dy), tanAngle); DismissTest(c, dx, dy, vx, vy, tanAngle)
    else DismissTest(c, dx, dy, vx, vy, tanAngle)
  }

  /** The body shared by `Dismiss`: the source's test with the vertical distance put right. */
  function DismissTest(c: Config, dx: real, dy: real, vx: real, vy: real, tanAngle: real): bool {
    if c.removeDirection == Horizontal then
      (Abs(dx) > c.horizontalRemoveDistance || Abs(vx) > c.horizontalRemoveVelocity)
      && Abs(dy) > 0.1 && Abs(dx) / Abs(dy) >= tanAngle
    else
      (Abs(dy) > c.verticalRemoveDistance || Abs(vy) > c.verticalRemoveVelocity)
      && Abs(dy) > 0.1 && Abs(dx) / Abs(dy) <= tanAngle
  }

  lemma QuotientAgainst(a: real, b: real, t: real)
    requires b > 0.0
    ensures a / b >= t <==> a >= t * b
    ensures a / b <= t <==> a <= t * b
  {
    var q := a / b;
    DivTimes(a, b);
    TimesDiv(t, b);
    assert q * b == a && t * b / b == t;
    if q >= t {
      MulMonotone(b, t, q);
      assert b * t <= b * q;
    }
    if a >= t * b {
      DivMonotone(t * b, a, b);
    }
    if q <= t {
      MulMonotone(b, q, t);
      assert b * q <= b * t;
    }
    if a <= t * b {
      DivMonotone(a, t * b, b);
    }
  }

  /** What ending a pan does to the stack. */
  datatype PanEnd = Disappear | Restore

  /**
   * The `.ended`, `.cancelled` and `.failed` branches of the pan handler as written: the
   * `.ended` branch decides with the source's test, vertical distance slip included.
   */
  function EndPanAsWritten(c: Config, cancelled: bool, dx: real, dy: real, vx: real, vy: real, tanAngle: real): (r: PanEnd)
    ensures r == Disappear <==> !cancelled && DismissAsWritten(c, dx, dy, vx, vy, tanAngle)
    ensures r == Disappear ==> Abs(dy) > 0.1
  {
    if !cancelled && DismissAsWritten(c, dx, dy, vx, vy, tanAngle) then Disappear else Restore
  }

  /** The same branches deciding with the corrected test `Dismiss`. */
  function EndPan(c: Config, cancelled: bool, dx: real, dy: real, vx: real, vy: real, tanAngle: real): (r: PanEnd)
    ensures r == Disappear <==> !cancelled && Dismiss(c, dx, dy, vx, vy, tanAngle)
  {
    if !cancelled && Dismiss(c, dx, dy, vx, vy, tanAngle) then Disappear else Restore
  }

  // ---------------------------------------------------------------------------
  // Index bookkeeping

  /**
   * The index `installNextCard()` fetches, as written: nothing when no card is shown or the
   * cards are used up, else one of three branches, two of which wrap around to earlier cards.
   */
  function NextCardIndex(currentIndex: int, count: int, c: Config): (r: Option<int>)
    ensures r.Some? ==> ShowCount(count, c) > 0 && currentIndex + ShowCount(count, c) < count
  {
    var show := ShowCount(count, c);
    if show <= 0 then None
    else if currentIndex + show >= count then None
    else if count > show then
      if currentIndex + show >= count then Some(currentIndex + show - count)
      else Some(currentIndex + show)
    else Some(currentIndex)
  }

  /** `installNextCard()`: the fetched card goes below the bottom card with its scale and frame. */
  function InstallNextCard(s: Slide, count: int): (r: Slide)
    ensures NextCardIndex(s.currentIndex, count, s.config).None? || |s.infos| == 0 ==> r == s
    ensures NextCardIndex(s.currentIndex, count, s.config).Some? && |s.infos| > 0 ==>
      var bottom := s.infos[|s.infos| - 1];
      r == s.(infos := s.infos + [Info(NextCardIndex(s.currentIndex, count, s.config).value, bottom.scale, bottom.frame)])
  {
    match NextCardIndex(s.currentIndex, count, s.config)
    case None => s
    case Some(index) =>
      if |s.infos| == 0 then s
      else
        var bottom := s.infos[|s.infos| - 1];
        s.(infos := s.infos + [Info(index, bottom.scale, bottom.frame)])
  }

  /** The restore animation's completion: report the drag's end and drop an extra bottom card. */
  function RestoreComplete(s: Slide, finished: bool): (r: (Slide, seq<SlideCall>))
    requires finished ==> |s.infos| > 0
    ensures !finished ==> r == (s, [])
    ensures finished ==> r.1 == [EndDrag(s.currentIndex, false)]
    ensures r.0 == s.(infos := r.0.infos)
    ensures finished && |s.infos| > s.config.visibleCount ==> r.0.infos == s.infos[..|s.infos| - 1]
    ensures |s.infos| <= s.config.visibleCount ==> r.0.infos == s.infos
  {
    if !finished then (s, [])
    else
      var kept := if |s.infos| > s.config.visibleCount then s.infos[..|s.infos| - 1] else s.infos;
      (s.(infos := kept), [EndDrag(s.currentIndex, false)])
  }

  /** Every card that is not pinned takes the stored scale and frame of the card above it. */
  function MoveUp(infos: seq<Info>, visibleCount: int): (r: seq<Info>)
    ensures |r| == |infos|
    ensures forall i :: 0 <= i < |r| ==> r[i].card == infos[i].card
    ensures forall i :: 0 <= i < |r| && !Pinned(infos, visibleCount, i) ==>
      r[i].scale == infos[i - 1].scale && r[i].frame == infos[i - 1].frame
  {
    seq(|infos|, i requires 0 <= i < |infos| =>
      if Pinned(infos, visibleCount, i) then infos[i]
      else infos[i].(scale := infos[i - 1].scale, frame := infos[i - 1].frame))
  }

  /**
   * The disappear animation's completion: every card below the top (except an extra bottom
   * card) takes the stored scale and frame of the card above it, the top card goes, and
   * `currentIndex` advances unless the card that went was the last one.
   */
  function DisappearComplete(s: Slide, count: int, finished: bool): (r: (Slide, seq<SlideCall>))
    ensures !finished || |s.infos| == 0 ==> r == (s, [])
    ensures finished && |s.infos| > 0 ==>
      && |r.0.infos| == |s.infos| - 1
      && (forall i :: 0 <= i < |r.0.infos| ==> r.0.infos[i].card == s.infos[i + 1].card)
      && (forall i :: 0 <= i < |r.0.infos| && !Pinned(s.infos, s.config.visibleCount, i + 1) ==>
            r.0.infos[i].scale == s.infos[i].scale && r.0.infos[i].frame == s.infos[i].frame)
      && (forall i :: 0 <= i < |r.0.infos| && Pinned(s.infos, s.config.visibleCount, i + 1) ==>
            r.0.infos[i] == s.infos[i + 1])
      && r.0.currentIndex == (if s.currentIndex < count - 1 then s.currentIndex + 1 else s.currentIndex)
      && r.1 == [EndDrag(r.0.currentIndex, true)]
      && r.0 == s.(infos := r.0.infos, currentIndex := r.0.currentIndex)
  {
    if !finished || |s.infos| == 0 then (s, [])
    else
      var moved := MoveUp(s.infos, s.config.visibleCount);
      var index := if s.currentIndex < count - 1 then s.currentIndex + 1 else s.currentIndex;
      (s.(infos := moved[1..], currentIndex := index), [EndDrag(index, true)])
  }

  /** Copy the stored layout of the last reload onto the cards that have a place in it. */
  function Restack(infos: seq<Info>, stable: seq<Info>): (r: seq<Info>)
    ensures |r| == |infos|
    ensures forall i :: 0 <= i < |r| ==> r[i].card == infos[i].card
    ensures forall i :: 0 <= i < |r| && i < |stable| ==> r[i].scale == stable[i].scale && r[i].frame == stable[i].frame
    ensures forall i :: |stable| <= i < |r| ==> r[i] == infos[i]
  {
    seq(|infos|, i requires 0 <= i < |infos| =>
      if i < |stable| then infos[i].(scale := stable[i].scale, frame := stable[i].frame) else infos[i])
  }

  /**
   * `revoke()`: unless a revoke is running, no card was thrown away yet, or nothing is laid out,
   * fetch the card before the top one, put it on top and lay the cards out as after the reload.
   * `scale` and `frame` are what the fetched card's view holds when it is fetched.
   */
  function Revoke(s: Slide, scale: real, frame: Rect): (r: Slide)
    ensures s.revoking || s.currentIndex <= 0 || |s.infos| == 0 ==> r == s
    ensures !(s.revoking || s.currentIndex <= 0 || |s.infos| == 0) ==>
      && r.revoking && r.currentIndex == s.currentIndex
      && |r.infos| == |s.infos| + 1
      && r.infos[0].card == s.currentIndex - 1
      && (forall i :: 0 <= i < |s.infos| ==> r.infos[i + 1].card == s.infos[i].card)
      && (forall i :: 0 <= i < |r.infos| && i < |s.stable| ==>
            r.infos[i].scale == s.stable[i].scale && r.infos[i].frame == s.stable[i].frame)
      && (|s.stable| == 0 ==> r.infos[0] == Info(s.currentIndex - 1, scale, frame))
      && (forall i :: 0 < i < |r.infos| && |s.stable| <= i ==> r.infos[i] == s.infos[i - 1])
      && r == s.(infos := r.infos, revoking := true)
  {
    if s.revoking || s.currentIndex <= 0 || |s.infos| == 0 then s
    else s.(infos := Restack([Info(s.currentIndex - 1, scale, frame)] + s.infos, s.stable), revoking := true)
  }

  /** The revoke animation's completion, finished or not: drop an extra bottom card, step back. */
  function RevokeComplete(s: Slide): (r: Slide)
    ensures r.currentIndex == s.currentIndex - 1 && !r.revoking
    ensures |s.infos| > 0 && |s.infos| > s.config.visibleCount ==> r.infos == s.infos[..|s.infos| - 1]
    ensures |s.infos| <= s.config.visibleCount ==> r.infos == s.infos
    ensures r == s.(infos := r.infos, currentIndex := r.currentIndex, revoking := false)
  {
    var kept := if |s.infos| > 0 && |s.infos| > s.config.visibleCount then s.infos[..|s.infos| - 1] else s.infos;
    s.(infos := kept, currentIndex := s.currentIndex - 1, revoking := false)
  }

  /** A tap reports the top card's index, when there is a top card. */
  function Tap(s: Slide): (r: seq<SlideCall>)
    ensures |s.infos| == 0 <==> r == []
    ensures |s.infos| > 0 ==> r == [DidSelect(s.currentIndex)]
  {
    if |s.infos| == 0 then [] else [DidSelect(s.currentIndex)]
  }

  // ---------------------------------------------------------------------------
  // Properties

  /**
   * The laid-out cards are the consecutive data indices from `currentIndex`, within the count.
   */
  predicate Window(s: Slide, count: int) {
    && 0 <= s.currentIndex
    && s.currentIndex + |s.infos| <= count
    && (forall i :: 0 <= i < |s.infos| ==> s.infos[i].card == s.currentIndex + i)
  }

  /** A reload establishes the window. */
  lemma ReloadMakesWindow(s: Slide, count: int)
    requires count >= 0
    ensures Window(Reload(s, count), count)
  {
  }

  /** The reload ladder: scales never grow from the top card down. */
  lemma {:induction false} LadderNonIncreasing(s: Slide, count: int, i: int, j: int)
    requires 0 <= i <= j < |Reload(s, count).infos|
    ensures Reload(s, count).infos[j].scale <= Reload(s, count).infos[i].scale
  {
    var n := ShowCount(count, s.config);
    var step := ScaleStep(s.config, n);
    assert Reload(s, count).infos[i] == LaidOut(s, n, i);
    assert Reload(s, count).infos[j] == LaidOut(s, n, j);
    StepsGoDown(step, i, j, LaidOut(s, n, i).scale, LaidOut(s, n, j).scale);
  }

  /** One rung of the ladder per step: a lower rung never has a larger scale. */
  lemma StepsGoDown(step: real, i: int, j: int, upper: real, lower: real)
    requires step >= 0.0 && i <= j
    requires upper == 1.0 - step * (i as real) && lower == 1.0 - step * (j as real)
    ensures lower <= upper
  {
    MulMonotone(step, i as real, j as real);
  }

  /** The reload ladder: with more than one card, the bottom one is scaled by `correctScale`. */
  lemma {:induction false} LadderBottom(s: Slide, count: int)
    requires |Reload(s, count).infos| > 1
    ensures var infos := Reload(s, count).infos; infos[|infos| - 1].scale == CorrectScale(s.config)
  {
    var n := ShowCount(count, s.config);
    var infos := Reload(s, count).infos;
    var k := (n - 1) as real;
    assert |infos| == n;
    assert infos[n - 1].scale == 1.0 - ScaleStep(s.config, n) * k;
    DivTimes(1.0 - CorrectScale(s.config), k);
  }

  /**
   * The reload frames: full-screen cards all fill the view; piled cards step down by the
   * spacing and the bottom one ends at the view's bottom edge.
   */
  lemma {:induction false} LadderFrames(s: Slide, count: int, i: int)
    requires 0 <= i < |Reload(s, count).infos|
    ensures var f := Reload(s, count).infos[i].frame;
      s.config.showType == Full ==> f.y == 0.0 && f.height == s.height
    ensures var infos := Reload(s, count).infos;
      s.config.showType == Pile && i + 1 < |infos| ==>
        infos[i + 1].frame.y - infos[i].frame.y == CorrectCardSpacing(s.config, s.height)
        && infos[i + 1].frame.height == infos[i].frame.height
    ensures var infos := Reload(s, count).infos;
      s.config.showType == Pile && i == |infos| - 1 ==> MaxY(infos[i].frame) == s.height
  {
    var n := ShowCount(count, s.config);
    var infos := Reload(s, count).infos;
    assert |infos| == n;
    assert infos[i] == LaidOut(s, n, i);
    if i + 1 < |infos| {
      assert infos[i + 1] == LaidOut(s, n, i + 1);
    }
    if s.config.showType == Pile && i == n - 1 {
      var spacing := CorrectCardSpacing(s.config, s.height);
      assert infos[i].frame.y == spacing * (n - 1) as real;
      assert infos[i].frame.height == s.height - (n - 1) as real * spacing;
    }
  }

  /**
   * A horizontal drag the full removal distance to the right tilts the top card by the
   * maximum angle, -pi/18, and brings every other card not pinned in place to the layout of
   * the card above it; a drag that has not moved leaves every card where it is.
   */
  lemma FullDragReachesNextRung(s: Slide, dx: real, pi: real, i: int)
    requires pi > 0.0 && s.config.removeDirection == Horizontal
    requires 0 <= i < |s.infos| && !Pinned(s.infos, s.config.visibleCount, i)
    ensures dx >= CorrectHorizontalRemoveDistance(s.config) ==>
      var f := ChangedPan(s, dx, 0.0, pi).0;
      18.0 * f.rotation == -pi && f.displays[i] == Shown(s.infos[i - 1].scale, s.infos[i - 1].frame.y)
    ensures ChangedPan(s, 0.0, 0.0, pi).0.displays[i] == Shown(s.infos[i].scale, s.infos[i].frame.y)
  {
    MovingInterpolates(s.infos, s.config.visibleCount, MoveRatio(s.config, dx, 0.0), i);
    MovingInterpolates(s.infos, s.config.visibleCount, MoveRatio(s.config, 0.0, 0.0), i);
  }

  /** `moving` stays between each card's stored place and the place above it, reaching both ends. */
  lemma {:induction false} MovingInterpolates(infos: seq<Info>, visibleCount: int, ratio: real, i: int)
    requires 0 <= i < |infos| && !Pinned(infos, visibleCount, i)
    ensures var d := Moving(infos, visibleCount, ratio)[i];
      && Min(infos[i].scale, infos[i - 1].scale) <= d.scale <= Max(infos[i].scale, infos[i - 1].scale)
      && Min(infos[i].frame.y, infos[i - 1].frame.y) <= d.y <= Max(infos[i].frame.y, infos[i - 1].frame.y)
    ensures ratio <= 0.0 ==> Moving(infos, visibleCount, ratio)[i] == Shown(infos[i].scale, infos[i].frame.y)
    ensures ratio >= 1.0 ==> Moving(infos, visibleCount, ratio)[i] == Shown(infos[i - 1].scale, infos[i - 1].frame.y)
  {
    var t := if ratio < 0.0 then 0.0 else if ratio > 1.0 then 1.0 else ratio;
    LerpBetween(infos[i].scale, infos[i - 1].scale, t);
    LerpBetween(infos[i].frame.y, infos[i - 1].frame.y, t);
  }

  lemma LerpBetween(a: real, b: real, t: real)
    requires 0.0 <= t <= 1.0
    ensures Min(a, b) <= Lerp(a, b, t) <= Max(a, b)
    ensures t == 0.0 ==> Lerp(a, b, t) == a
    ensures t == 1.0 ==> Lerp(a, b, t) == b
  {
    ScaledBetween(a - b, t);
  }

  /** A drag that barely moved vertically is never thrown away, in either version of the test. */
  lemma FlatDragIsRestored(c: Config, dx: real, dy: real, vx: real, vy: real, tanAngle: real)
    requires Abs(dy) <= 0.1
    ensures !Dismiss(c, dx, dy, vx, vy, tanAngle) && !DismissAsWritten(c, dx, dy, vx, vy, tanAngle)
    ensures EndPan(c, false, dx, dy, vx, vy, tanAngle) == Restore
  {
  }

  /** The two versions of the test differ only in the vertical branch. */
  lemma DismissAgreesHorizontally(c: Config, dx: real, dy: real, vx: real, vy: real, tanAngle: real)
    requires c.removeDirection == Horizontal || c.horizontalRemoveDistance == c.verticalRemoveDistance
    ensures DismissAsWritten(c, dx, dy, vx, vy, tanAngle) == Dismiss(c, dx, dy, vx, vy, tanAngle)
    ensures forall cancelled: bool ::
      EndPanAsWritten(c, cancelled, dx, dy, vx, vy, tanAngle) == EndPan(c, cancelled, dx, dy, vx, vy, tanAngle)
  {
  }

  /** A cancelled or failed pan always restores the card, in either version. */
  lemma CancelledPanRestores(c: Config, dx: real, dy: real, vx: real, vy: real, tanAngle: real)
    ensures EndPanAsWritten(c, true, dx, dy, vx, vy, tanAngle) == Restore
    ensures EndPan(c, true, dx, dy, vx, vy, tanAngle) == Restore
  {
  }

  /**
   * With the default thresholds on a 400 by 800 screen and vertical removal, a slow straight
   * 150-point vertical drag is thrown away as written, though it is short of the 200-point
   * vertical distance.
   */
  lemma VerticalDismissReadsHorizontalDistance()
    ensures var c := Default(400.0, 800.0).(removeDirection := Vertical);
      && DismissAsWritten(c, 0.0, 150.0, 0.0, 0.0, 0.0875)
      && !Dismiss(c, 0.0, 150.0, 0.0, 0.0, 0.0875)
      && EndPanAsWritten(c, false, 0.0, 150.0, 0.0, 0.0, 0.0875) == Disappear
      && EndPan(c, false, 0.0, 150.0, 0.0, 0.0, 0.0875) == Restore
  {
    var c := Default(400.0, 800.0).(removeDirection := Vertical);
    assert c.horizontalRemoveDistance == 100.0 && c.verticalRemoveDistance == 200.0;
  }

  /**
   * The index `installNextCard()` fetches is always the one just below the window: the
   * wrap-around branches never run once `currentIndex` is not negative.
   */
  lemma NextCardIsBelowWindow(currentIndex: int, count: int, c: Config)
    requires currentIndex >= 0
    ensures var show := ShowCount(count, c);
      NextCardIndex(currentIndex, count, c) ==
        (if show > 0 && currentIndex + show < count then Some(currentIndex + show) else None)
  {
  }

  /** Over a window, a tap reports the data index of the top card; right after a reload, card 0. */
  lemma TapSelectsTopCard(s: Slide, count: int)
    requires Window(s, count) && |s.infos| > 0
    ensures Tap(s) == [DidSelect(s.infos[0].card)]
    ensures ShowCount(count, s.config) > 0 ==> Tap(Reload(s, count)) == [DidSelect(0)]
  {
    assert s.infos[0].card == s.currentIndex + 0;
  }

  /** Installing the next card onto a full window keeps the window. */
  lemma InstallKeepsWindow(s: Slide, count: int)
    requires Window(s, count) && |s.infos| == ShowCount(count, s.config)
    ensures Window(InstallNextCard(s, count), count)
  {
    NextCardIsBelowWindow(s.currentIndex, count, s.config);
  }

  /** A drag that is restored after the next card was installed leaves a full window as it was. */
  lemma InstallThenRestore(s: Slide, count: int)
    requires |s.infos| == s.config.visibleCount > 0
    ensures RestoreComplete(InstallNextCard(s, count), true).0 == s
  {
    var t := InstallNextCard(s, count);
    if t != s {
      assert t.infos[..|t.infos| - 1] == s.infos;
    }
  }

  /** Throwing the top card away keeps the window. */
  lemma DisappearKeepsWindow(s: Slide, count: int, finished: bool)
    requires Window(s, count)
    ensures Window(DisappearComplete(s, count, finished).0, count)
  {
  }

  /** A completed revoke keeps the window. */
  lemma RevokeKeepsWindow(s: Slide, count: int, scale: real, frame: Rect)
    requires Window(s, count)
    requires !s.revoking && s.currentIndex > 0 && |s.infos| > 0
    ensures Window(RevokeComplete(Revoke(s, scale, frame)), count)
  {
    var r := RevokeComplete(Revoke(s, scale, frame));
    var t := Revoke(s, scale, frame);
    forall i | 0 <= i < |r.infos|
      ensures r.infos[i].card == r.currentIndex + i
    {
      assert r.infos[i] == t.infos[i];
      if i > 0 {
        assert t.infos[i].card == s.infos[i - 1].card;
      }
    }
  }

  /**
   * Bringing back the card just thrown away returns to the same index and the same cards in the
   * same order: all of them when the window held no extra bottom card, otherwise all but that one.
   */
  lemma DisappearThenRevoke(s: Slide, count: int, scale: real, frame: Rect)
    requires Window(s, count) && !s.revoking && |s.infos| >= 2
    ensures var gone := DisappearComplete(s, count, true).0;
      var back := RevokeComplete(Revoke(gone, scale, frame));
      && back.currentIndex == s.currentIndex && back.infos[0].card == s.infos[0].card
      && |back.infos| == (if |s.infos| > s.config.visibleCount then |s.infos| - 1 else |s.infos|)
      && forall i :: 0 <= i < |back.infos| ==> back.infos[i].card == s.infos[i].card
  {
    var gone := DisappearComplete(s, count, true).0;
    assert gone.currentIndex == s.currentIndex + 1;
    var t := Revoke(gone, scale, frame);
    var back := RevokeComplete(t);
    forall i | 0 <= i < |back.infos|
      ensures back.infos[i].card == s.infos[i].card
    {
      assert back.infos[i] == t.infos[i];
      if i > 0 {
        assert t.infos[i].card == gone.infos[i - 1].card == s.infos[i].card;
      }
    }
  }
}

=== FILE: stack_animator.dfy ===
/**
 * `CardStackAnimator` (CardStackAnimator.swift): the background cards' animations after a
 * swipe, an undo, a shift and a cancelled drag. A card's placement is the stack position whose
 * transform it shows; completion is an explicit plan rather than a callback.
 */
module StackAnimator {
  import opened Wrappers
  import opened Direction
  import opened RealArith
  import CardOptions
  import StackOptions
  import opened SwipeView
  import CardAnimator

  /** When the completion block runs, if there is one. */
  datatype Completion =
    | NoCompletion
    /** Synchronously, with `finished`. */
    | Now(finished: bool)
    /** From `DispatchQueue.main.asyncAfter`, with `true`, after `seconds`. */
    | After(seconds: real)
    /** When the keyframe animation ends, with its own `finished` flag. */
    | AtAnimationEnd(duration: real, delay: real)

  /** What an animation does to the cards it moves: where each starts and where it ends. */
  datatype Plan = Plan(start: seq<int>, end: seq<int>, completion: Completion)

  /** `resetDuration(_:topCard:)`: the stack option if set, else half the card's reset duration. */
  function ResetDuration(so: StackOptions.Options, co: CardOptions.Options): (r: real)
    ensures so.resetDuration.Some? ==> r == so.resetDuration.value
    ensures so.resetDuration.None? ==> 2.0 * r == co.totalResetDuration
  {
    so.resetDuration.GetOr(co.totalResetDuration / 2.0)
  }

  /** `shiftDuration(_:)` */
  function ShiftDuration(so: StackOptions.Options): (r: real)
    ensures r == so.shiftDuration
  {
    so.shiftDuration
  }

  /** `swipeDelay(for:forced:)`: a forced swipe waits for the top card's overlay to fade in. */
  function SwipeDelay(co: CardOptions.Options, forced: bool): (r: real)
    ensures !forced ==> r == 0.0
    ensures forced ==> r == co.totalSwipeDuration * co.relativeSwipeOverlayFadeDuration
  {
    var delay := co.totalSwipeDuration * co.relativeSwipeOverlayFadeDuration;
    if forced then delay else 0.0
  }

  /** `swipeDuration(_:topCard:direction:forced:)` */
  function SwipeDuration(so: StackOptions.Options, co: CardOptions.Options, p: Policy, pan: Pan, d: SwipeDirection, forced: bool): (r: real)
    requires p.minSpeed > 0.0
    ensures so.swipeDuration.Some? ==> r == so.swipeDuration.value
  {
    if so.swipeDuration.Some? then so.swipeDuration.value
    else if forced then co.totalSwipeDuration / 2.0
    else
      var velocityFactor := DragSpeed(pan, d) / p.minSpeed;
      if velocityFactor < 1.0 then co.totalSwipeDuration / 2.0
      else 1.0 / (2.0 * velocityFactor)
  }

  /** `undoDuration(_:topCard:)`: the stack option if set, else half the card's reverse-swipe duration. */
  function UndoDuration(so: StackOptions.Options, co: CardOptions.Options): (r: real)
    ensures so.undoDuration.Some? ==> r == so.undoDuration.value
    ensures so.undoDuration.None? ==> 2.0 * r == co.totalReverseSwipeDuration
  {
    so.undoDuration.GetOr(co.totalReverseSwipeDuration / 2.0)
  }

  /** Stack positions `from, from+1, ..., from+count-1`. */
  function Positions(count: nat, from: int): (r: seq<int>)
    ensures |r| == count
    ensures forall k :: 0 <= k < count ==> r[k] == from + k
  {
    seq(count, k => from + k)
  }

  /**
   * `animateShift(_:withDistance:animated:completion:)`: animated, every visible card starts at
   * the transform of `position + distance` and moves to its own position; otherwise it is laid
   * out in place and the completion runs at once.
   */
  function AnimateShift(so: StackOptions.Options, visibleCount: nat, distance: int, animated: bool): (r: Plan)
    ensures r.end == Positions(visibleCount, 0)
    ensures |r.start| == visibleCount
    ensures animated ==> forall k :: 0 <= k < visibleCount ==> r.start[k] == r.end[k] + distance
    ensures !animated ==> r.start == r.end && r.completion == Now(true)
    ensures animated ==> r.completion == AtAnimationEnd(ShiftDuration(so), 0.0)
  {
    if !animated then Plan(Positions(visibleCount, 0), Positions(visibleCount, 0), Now(true))
    else Plan(Positions(visibleCount, distance), Positions(visibleCount, 0), AtAnimationEnd(ShiftDuration(so), 0.0))
  }

  /**
   * `animateUndo(_:topCard:animated:completion:)`: background card `k` (stack position `k + 1`)
   * starts at the transform of position `k`, the place it had before the undo, and moves back.
   */
  function AnimateUndo(so: StackOptions.Options, co: CardOptions.Options, backgroundCount: nat, animated: bool): (r: Plan)
    ensures r.end == Positions(backgroundCount, 1)
    ensures |r.start| == backgroundCount
    ensures animated ==> forall k :: 0 <= k < backgroundCount ==> r.start[k] == r.end[k] - 1
    ensures !animated ==> r.start == r.end && r.completion == Now(true)
    ensures animated ==> r.completion == AtAnimationEnd(UndoDuration(so, co), 0.0)
  {
    if !animated then Plan(Positions(backgroundCount, 1), Positions(backgroundCount, 1), Now(true))
    else Plan(Positions(backgroundCount, 0), Positions(backgroundCount, 1), AtAnimationEnd(UndoDuration(so, co), 0.0))
  }

  /**
   * `animateSwipe(_:topCard:direction:forced:animated:completion:)`: the remaining visible
   * cards move into their positions. Without animation the completion runs at once; with no
   * card left to animate it still runs, once, after the delay and the duration.
   */
  function AnimateSwipe(so: StackOptions.Options, co: CardOptions.Options, p: Policy, pan: Pan, d: SwipeDirection,
                        forced: bool, animated: bool, visibleCount: nat): (r: Plan)
    requires p.minSpeed > 0.0
    ensures r.end == Positions(visibleCount, 0)
    ensures !animated ==> r.completion == Now(true)
    ensures animated && visibleCount == 0 ==>
      r.completion == After(SwipeDelay(co, forced) + SwipeDuration(so, co, p, pan, d, forced))
    ensures animated && visibleCount > 0 ==>
      r.completion == AtAnimationEnd(SwipeDuration(so, co, p, pan, d, forced), SwipeDelay(co, forced))
  {
    var layout := Positions(visibleCount, 0);
    if !animated then Plan(layout, layout, Now(true))
    else
      var delay := SwipeDelay(co, forced);
      var duration := SwipeDuration(so, co, p, pan, d, forced);
      if visibleCount == 0 then Plan(layout, layout, After(delay + duration))
      else Plan(layout, layout, AtAnimationEnd(duration, delay))
  }

  /**
   * `animateReset(_:topCard:)` after a cancelled drag: background card `k` returns to stack
   * position `k + 1`; nobody waits for it to finish.
   */
  function AnimateReset(so: StackOptions.Options, co: CardOptions.Options, backgroundCount: nat): (r: Plan)
    ensures r.end == Positions(backgroundCount, 1)
    ensures r.completion == NoCompletion
  {
    Plan(Positions(backgroundCount, 1), Positions(backgroundCount, 1), NoCompletion)
  }

  // ---------------------------------------------------------------------------
  // Properties

  /**
   * Without a configured duration the background cards take exactly half as long as the top
   * card's own swipe animation.
   */
  lemma SwipeDurationIsHalfTheCards(so: StackOptions.Options, co: CardOptions.Options, p: Policy, pan: Pan, d: SwipeDirection, forced: bool)
    requires p.minSpeed > 0.0 && so.swipeDuration.None?
    ensures 2.0 * SwipeDuration(so, co, p, pan, d, forced) == CardAnimator.SwipeDuration(co, p, pan, d, forced)
  {
    if !forced {
      var velocityFactor := DragSpeed(pan, d) / p.minSpeed;
      if velocityFactor >= 1.0 {
        HalfReciprocal(velocityFactor);
      }
    }
  }

  /** A configured swipe duration wins over everything the card would compute. */
  lemma ConfiguredSwipeDurationWins(so: StackOptions.Options, co: CardOptions.Options, p: Policy, a: Pan, b: Pan, d: SwipeDirection, fa: bool, fb: bool)
    requires p.minSpeed > 0.0 && so.swipeDuration.Some?
    ensures SwipeDuration(so, co, p, a, d, fa) == SwipeDuration(so, co, p, b, d, fb)
  {
  }

  /** Durations built from valid options are never negative. */
  lemma DurationsNonNegative(so: StackOptions.Options, co: CardOptions.Options, pi: real, p: Policy, pan: Pan, d: SwipeDirection, forced: bool)
    requires StackOptions.NonNegative(so) && CardOptions.InRange(co, pi) && p.minSpeed > 0.0
    ensures ResetDuration(so, co) >= 0.0 && ShiftDuration(so) >= 0.0 && UndoDuration(so, co) >= 0.0
    ensures SwipeDelay(co, forced) >= 0.0
    ensures SwipeDuration(so, co, p, pan, d, forced) >= 0.0
  {
    MulMonotone(co.totalSwipeDuration, 0.0, co.relativeSwipeOverlayFadeDuration);
    if so.swipeDuration.None? {
      SwipeDurationIsHalfTheCards(so, co, p, pan, d, forced);
    }
  }

  /**
   * A forced swipe's background animation starts when the top card's overlay has faded in:
   * the delay is the overlay keyframe's length in seconds.
   */
  lemma ForcedDelayMatchesOverlayFade(co: CardOptions.Options)
    ensures SwipeDelay(co, true)
         == co.totalSwipeDuration * CardAnimator.SwipeKeyframes(CardAnimator.RelativeSwipeOverlayFadeDuration(co, true, true)).0.duration
  {
  }
}

=== FILE: stack_layout.dfy ===
/**
 * `CardStackLayoutProvider` (CardStackLayoutProvider.swift): the card container is the stack's
 * bounds less its insets, and each card fills the container.
 */
module StackLayout {
  import opened Rects

  datatype Insets = Insets(top: real, left: real, bottom: real, right: real)

  /** `createCardContainerFrame(for:)` */
  function CardContainerFrame(width: real, height: real, insets: Insets): (r: Rect)
    ensures r.x == insets.left && r.y == insets.top
    ensures MaxX(r) == width - insets.right && MaxY(r) == height - insets.bottom
  {
    Rect(insets.left, insets.top, width - (insets.left + insets.right), height - (insets.top + insets.bottom))
  }

  /** `createCardFrame(for:)`: the container's size at the origin. */
  function CardFrame(width: real, height: real, insets: Insets): (r: Rect)
    ensures r.x == 0.0 && r.y == 0.0
    ensures r.width == CardContainerFrame(width, height, insets).width
    ensures r.height == CardContainerFrame(width, height, insets).height
  {
    var container := CardContainerFrame(width, height, insets);
    Rect(0.0, 0.0, container.width, container.height)
  }

  /** Each inset moves exactly the edge it names; the card is the container moved to the origin. */
  lemma InsetsMoveOneEdge(width: real, height: real, insets: Insets, more: real)
    ensures var a := CardContainerFrame(width, height, insets);
      var b := CardContainerFrame(width, height, insets.(left := insets.left + more));
      b.x == a.x + more && MaxX(b) == MaxX(a) && b.y == a.y && MaxY(b) == MaxY(a)
    ensures var a := CardContainerFrame(width, height, insets);
      var b := CardContainerFrame(width, height, insets.(bottom := insets.bottom + more));
      b.x == a.x && MaxX(b) == MaxX(a) && b.y == a.y && MaxY(b) == MaxY(a) - more
    ensures var a := CardContainerFrame(width, height, insets);
      var b := CardContainerFrame(width, height, insets.(top := insets.top + more));
      b.x == a.x && MaxX(b) == MaxX(a) && b.y == a.y + more && MaxY(b) == MaxY(a)
    ensures var a := CardContainerFrame(width, height, insets);
      var b := CardContainerFrame(width, height, insets.(right := insets.right + more));
      b.x == a.x && MaxX(b) == MaxX(a) - more && b.y == a.y && MaxY(b) == MaxY(a)
    ensures var c := CardContainerFrame(width, height, insets);
      CardFrame(width, height, insets) == Rect(0.0, 0.0, c.width, c.height)
  {
  }
}

=== FILE: stack_options.dfy ===
/**
 * `CardStackAnimationOptions` (CardStackAnimationOptions.swift): the background-card
 * animator's settings. Absent durations stay absent; present ones are floored at 0.
 */
module StackOptions {
  import opened Wrappers
  import opened RealArith

  datatype Options = Options(
    resetDuration: Option<real>,
    shiftDuration: real,
    swipeDuration: Option<real>,
    undoDuration: Option<real>)

  /** `if let d = d { max(0, d) } else { nil }` */
  function FloorOptional(d: Option<real>): (r: Option<real>)
    ensures r.None? <==> d.None?
    ensures r.Some? ==> r.value >= 0.0 && (d.value >= 0.0 ==> r.value == d.value)
    ensures r.Some? && d.value < 0.0 ==> r.value == 0.0
  {
    match d
    case Some(v) => Some(Max(0.0, v))
    case None => None
  }

  predicate NonNegative(o: Options) {
    && (o.resetDuration.Some? ==> o.resetDuration.value >= 0.0)
    && o.shiftDuration >= 0.0
    && (o.swipeDuration.Some? ==> o.swipeDuration.value >= 0.0)
    && (o.undoDuration.Some? ==> o.undoDuration.value >= 0.0)
  }

  /** `init(resetDuration:shiftDuration:swipeDuration:undoDuration:)` */
  function Make(raw: Options): (r: Options)
    ensures NonNegative(r)
    ensures r.resetDuration.None? <==> raw.resetDuration.None?
    ensures r.swipeDuration.None? <==> raw.swipeDuration.None?
    ensures r.undoDuration.None? <==> raw.undoDuration.None?
    ensures NonNegative(raw) ==> r == raw
  {
    Options(FloorOptional(raw.resetDuration), Max(0.0, raw.shiftDuration),
            FloorOptional(raw.swipeDuration), FloorOptional(raw.undoDuration))
  }

  /** `CardStackAnimationOptions()`, the stack's initial options: only the shift duration, 0.1, is set. */
  function Default(): (r: Options)
    ensures NonNegative(r)
    ensures r.resetDuration.None? && r.swipeDuration.None? && r.undoDuration.None?
    ensures r.shiftDuration == 0.1
  {
    Make(Options(None, 0.1, None, None))
  }

  lemma MakeIdempotent(raw: Options)
    ensures Make(Make(raw)) == Make(raw)
  {
  }
}

=== FILE: stack_transform.dfy ===
/**
 * `CardStackTransformProvider` (CardStackTransformProvider.swift): as the top card is dragged,
 * each background card grows from its own scale towards the scale of the position above it.
 */
module StackTransform {
  import opened Vectors
  import opened RealArith
  import CardStack

  /**
   * `backgroundCardTransformPercentage(for:topCard:)`: twice the larger translation component
   * as a fraction of the stack's shorter side, capped at 1. A stack of zero size divides by
   * zero in the source and is excluded.
   */
  function BackgroundPercentage(translation: Vec, width: real, height: real): (r: real)
    requires width > 0.0 && height > 0.0
    ensures 0.0 <= r <= 1.0
    ensures translation == Zero ==> r == 0.0
    ensures r == 1.0 <==>
      Abs(translation.dx) * 2.0 >= Min(width, height) || Abs(translation.dy) * 2.0 >= Min(width, height)
  {
    var side := Min(width, height);
    DivSign(2.0 * Abs(translation.dx), side);
    DivSign(2.0 * Abs(translation.dy), side);
    Max(Min(2.0 * Abs(translation.dx) / side, 1.0), Min(2.0 * Abs(translation.dy) / side, 1.0))
  }

  /**
   * The scale of `backgroundCardDragTransform(for:topCard:currentPosition:)`: a blend of the
   * card's own scale and that of the position in front of it, the same on both axes.
   */
  function BlendedScale(isScale: bool, position: int, percentage: real): (r: real)
    requires 0.0 <= percentage <= 1.0
    ensures percentage == 0.0 ==> r == CardStack.ScaleFactor(isScale, position)
    ensures percentage == 1.0 ==> r == CardStack.ScaleFactor(isScale, position - 1)
    ensures Min(CardStack.ScaleFactor(isScale, position), CardStack.ScaleFactor(isScale, position - 1)) <= r
    ensures r <= Max(CardStack.ScaleFactor(isScale, position), CardStack.ScaleFactor(isScale, position - 1))
  {
    var current := CardStack.ScaleFactor(isScale, position);
    var next := CardStack.ScaleFactor(isScale, position - 1);
    (1.0 - percentage) * current + percentage * next
  }

  // ---------------------------------------------------------------------------
  // Properties

  /** Flipping the sign of either translation component leaves the percentage unchanged. */
  lemma BackgroundPercentageSymmetric(translation: Vec, width: real, height: real)
    requires width > 0.0 && height > 0.0
    ensures BackgroundPercentage(Vec(-translation.dx, translation.dy), width, height)
         == BackgroundPercentage(translation, width, height)
    ensures BackgroundPercentage(Vec(translation.dx, -translation.dy), width, height)
         == BackgroundPercentage(translation, width, height)
    ensures BackgroundPercentage(Vec(translation.dy, translation.dx), width, height)
         == BackgroundPercentage(translation, width, height)
  {
  }

  /** A larger drag never shrinks the percentage. */
  lemma BackgroundPercentageMonotone(a: Vec, b: Vec, width: real, height: real)
    requires width > 0.0 && height > 0.0
    requires Abs(a.dx) <= Abs(b.dx) && Abs(a.dy) <= Abs(b.dy)
    ensures BackgroundPercentage(a, width, height) <= BackgroundPercentage(b, width, height)
  {
    var side := Min(width, height);
    DivMonotone(2.0 * Abs(a.dx), 2.0 * Abs(b.dx), side);
    DivMonotone(2.0 * Abs(a.dy), 2.0 * Abs(b.dy), side);
  }

  /** The front background card (position 1) grows from 0.95 to full size when scaling is on. */
  lemma FrontCardGrowsToFull(percentage: real)
    requires 0.0 <= percentage <= 1.0
    ensures BlendedScale(true, 1, percentage) == 0.95 + 0.05 * percentage
    ensures BlendedScale(false, 1, percentage) == 1.0
  {
  }
}

=== FILE: state_manager.dfy ===
/**
 * The index bookkeeping of `CardStackStateManager` (CardStackStateManager.swift):
 * `remainingIndices`, the backing-data indices not yet swiped in display order, and
 * `swipes`, the swipe history. Every mutator is a pure function from the old manager to
 * the new one. Swift's array traps (`remove(at:)`, `insert(_:at:)`, `0..<n` with `n < 0`)
 * are preconditions.
 */
module StateManager {
  import opened Wrappers
  import opened Direction
  import opened ArrayExt

  /** `struct Swipe` */
  datatype Swipe = Swipe(index: int, direction: SwipeDirection)

  datatype Manager = Manager(remaining: seq<int>, swipes: seq<Swipe>)

  // ---------------------------------------------------------------------------
  // Renumbering helpers

  /** The renumbering `insert` applies to each stored index: `$0 >= index ? $0 + 1 : $0`. */
  function Up(x: int, index: int): int {
    if x >= index then x + 1 else x
  }

  /** The renumbering the deletes apply to each stored index: `$0 >= index ? $0 - 1 : $0`. */
  function Down(x: int, index: int): int {
    if x >= index then x - 1 else x
  }

  function MapUp(xs: seq<int>, index: int): (r: seq<int>)
    ensures |r| == |xs|
    ensures forall k :: 0 <= k < |xs| ==> r[k] == Up(xs[k], index)
  {
    if |xs| == 0 then [] else [Up(xs[0], index)] + MapUp(xs[1..], index)
  }

  function MapDown(xs: seq<int>, index: int): (r: seq<int>)
    ensures |r| == |xs|
    ensures forall k :: 0 <= k < |xs| ==> r[k] == Down(xs[k], index)
  {
    if |xs| == 0 then [] else [Down(xs[0], index)] + MapDown(xs[1..], index)
  }

  function MapUpSwipes(ss: seq<Swipe>, index: int): (r: seq<Swipe>)
    ensures |r| == |ss|
    ensures forall k :: 0 <= k < |ss| ==> r[k] == Swipe(Up(ss[k].index, index), ss[k].direction)
  {
    if |ss| == 0 then [] else [Swipe(Up(ss[0].index, index), ss[0].direction)] + MapUpSwipes(ss[1..], index)
  }

  function MapDownSwipes(ss: seq<Swipe>, index: int): (r: seq<Swipe>)
    ensures |r| == |ss|
    ensures forall k :: 0 <= k < |ss| ==> r[k] == Swipe(Down(ss[k].index, index), ss[k].direction)
  {
    if |ss| == 0 then [] else [Swipe(Down(ss[0].index, index), ss[0].direction)] + MapDownSwipes(ss[1..], index)
  }

  /** `swipes.removeAll { $0.index == index }` */
  function RemoveSwipesOf(ss: seq<Swipe>, index: int): (r: seq<Swipe>)
    ensures forall s :: s in r <==> s in ss && s.index != index
  {
    if |ss| == 0 then []
    else (if ss[0].index == index then [] else [ss[0]]) + RemoveSwipesOf(ss[1..], index)
  }

  /** The indices of a swipe history, in swipe order. */
  function Indices(ss: seq<Swipe>): (r: seq<int>)
    ensures |r| == |ss|
    ensures forall k :: 0 <= k < |ss| ==> r[k] == ss[k].index
  {
    if |ss| == 0 then [] else [ss[0].index] + Indices(ss[1..])
  }

  /** `firstIndex(of:)` */
  function FirstPosition(xs: seq<int>, v: int): (r: Option<nat>)
    ensures r.None? <==> v !in xs
    ensures r.Some? ==> r.value < |xs| && xs[r.value] == v && v !in xs[..r.value]
  {
    if |xs| == 0 then None
    else if xs[0] == v then Some(0)
    else match FirstPosition(xs[1..], v)
      case None => None
      case Some(p) => assert xs[..p + 1] == [xs[0]] + xs[1..][..p]; Some(p + 1)
  }

  /** `insert(_:at:)` on an array. */
  function InsertAt(xs: seq<int>, p: nat, v: int): (r: seq<int>)
    requires p <= |xs|
    ensures |r| == |xs| + 1 && r[p] == v
    ensures forall k :: 0 <= k < p ==> r[k] == xs[k]
    ensures forall k :: p < k <= |xs| ==> r[k] == xs[k - 1]
  {
    xs[..p] + [v] + xs[p..]
  }

  /** `remove(at:)` on an array. */
  function RemoveAt(xs: seq<int>, p: nat): (r: seq<int>)
    requires p < |xs|
    ensures |r| == |xs| - 1
    ensures forall k :: 0 <= k < p ==> r[k] == xs[k]
    ensures forall k :: p <= k < |r| ==> r[k] == xs[k + 1]
  {
    xs[..p] + xs[p + 1..]
  }

  // ---------------------------------------------------------------------------
  // The manager

  /** Every stored index: the remaining ones, then the swiped ones in swipe order. */
  function AllIndices(m: Manager): seq<int> {
    m.remaining + Indices(m.swipes)
  }

  /** `totalIndexCount` */
  function TotalIndexCount(m: Manager): (r: nat)
    ensures r == |AllIndices(m)|
  {
    |m.remaining| + |m.swipes|
  }

  /**
   * `xs` holds each of `0, 1, ..., n-1` exactly once and nothing else: the invariant
   * tying remaining and swiped indices to the data source's `n` items.
   */
  ghost predicate IsPermutation(xs: seq<int>, n: int) {
    && |xs| == n
    && forall x :: multiset(xs)[x] == (if 0 <= x < n then 1 else 0)
  }

  ghost predicate Valid(m: Manager, n: int) {
    IsPermutation(AllIndices(m), n)
  }

  /** `reset(withNumberOfCards:)`: the identity order and an empty history. */
  function Reset(n: int): (r: Manager)
    requires n >= 0
    ensures |r.remaining| == n && forall k :: 0 <= k < n ==> r.remaining[k] == k
    ensures r.swipes == []
    ensures Valid(r, n)
  {
    var r := Manager(seq(n, k => k), []);
    RangeIsPermutation(n);
    assert AllIndices(r) == seq(n, k => k);
    r
  }

  /** `insert(_:at:)`: renumber every stored index `>= index` up by one, then place `index`. */
  function Insert(m: Manager, index: int, position: nat): (r: Manager)
    requires position <= |m.remaining|
    ensures |r.remaining| == |m.remaining| + 1 && r.remaining[position] == index
    ensures forall k :: 0 <= k < position ==> r.remaining[k] == Up(m.remaining[k], index)
    ensures forall k :: position < k < |r.remaining| ==> r.remaining[k] == Up(m.remaining[k - 1], index)
    ensures |r.swipes| == |m.swipes|
    ensures forall k :: 0 <= k < |m.swipes| ==>
      r.swipes[k].direction == m.swipes[k].direction && r.swipes[k].index == Up(m.swipes[k].index, index)
    ensures TotalIndexCount(r) == TotalIndexCount(m) + 1
  {
    Manager(InsertAt(MapUp(m.remaining, index), position, index), MapUpSwipes(m.swipes, index))
  }

  /** The remaining indices once the first occurrence of `index` is removed, before renumbering. */
  function RemoveFirst(xs: seq<int>, index: int): (r: seq<int>)
    ensures index in xs ==> |r| == |xs| - 1
    ensures index !in xs ==> r == xs
  {
    match FirstPosition(xs, index)
    case None => xs
    case Some(p) => RemoveAt(xs, p)
  }

  /**
   * `delete(_ index:)`: drop `index` from the history and its first occurrence from the
   * remaining indices, then renumber every stored index `>= index` down by one.
   */
  function Delete(m: Manager, index: int): (r: Manager)
    ensures |r.swipes| <= |m.swipes|
    ensures index in m.remaining ==> |r.remaining| == |m.remaining| - 1
    ensures index !in m.remaining ==> |r.remaining| == |m.remaining|
    ensures index !in m.remaining ==>
      forall k :: 0 <= k < |r.remaining| ==> r.remaining[k] == Down(m.remaining[k], index)
    ensures index in m.remaining ==>
      var p := FirstPosition(m.remaining, index).value;
      && (forall k :: 0 <= k < p ==> r.remaining[k] == Down(m.remaining[k], index))
      && (forall k :: p <= k < |r.remaining| ==> r.remaining[k] == Down(m.remaining[k + 1], index))
    ensures forall s :: s in r.swipes ==>
      (exists t :: t in m.swipes && t.index != index && s == Swipe(Down(t.index, index), t.direction))
  {
    var swipes := RemoveSwipesOf(m.swipes, index);
    var remaining := RemoveFirst(m.remaining, index);
    LengthOfRemoveSwipes(m.swipes, index);
    Manager(MapDown(remaining, index), MapDownSwipes(swipes, index))
  }

  /** `delete(indexAtPosition:)`: remove the index at a position and renumber. */
  function DeleteAtPosition(m: Manager, position: nat): (r: Manager)
    requires position < |m.remaining|
    ensures |r.remaining| == |m.remaining| - 1 && |r.swipes| == |m.swipes|
    ensures TotalIndexCount(r) == TotalIndexCount(m) - 1
    ensures forall k :: 0 <= k < position ==> r.remaining[k] == Down(m.remaining[k], m.remaining[position])
    ensures forall k :: position <= k < |r.remaining| ==> r.remaining[k] == Down(m.remaining[k + 1], m.remaining[position])
  {
    var index := m.remaining[position];
    Manager(MapDown(RemoveAt(m.remaining, position), index), MapDownSwipes(m.swipes, index))
  }

  /**
   * The `while` loop of `delete(_ indices:)`: delete the first pending index, then re-bias
   * the remaining pending ones down by one when they are `>=` it.
   */
  function DeleteEach(m: Manager, pending: seq<int>): Manager
    decreases |pending|
  {
    if |pending| == 0 then m
    else DeleteEach(Delete(m, pending[0]), MapDown(pending[1..], pending[0]))
  }

  /** `delete(_ indices:)`: de-duplicate, then delete one by one. */
  function DeleteMany(m: Manager, indices: seq<int>): Manager {
    DeleteEach(m, KeepFirst(indices))
  }

  /** All positions are valid positions of `xs` and distinct. */
  predicate PositionsOk(positions: seq<int>, n: int) {
    Distinct(positions) && forall k :: 0 <= k < |positions| ==> 0 <= positions[k] < n
  }

  /** The `while` loop of `delete(indicesAtPositions:)`. */
  function DeleteEachAtPosition(m: Manager, pending: seq<int>): (r: Manager)
    requires PositionsOk(pending, |m.remaining|)
    ensures |r.remaining| == |m.remaining| - |pending| && |r.swipes| == |m.swipes|
    decreases |pending|
  {
    if |pending| == 0 then m
    else
      var p := pending[0];
      var next := DeleteAtPosition(m, p);
      RebiasedPositionsOk(pending, |m.remaining|);
      DeleteEachAtPosition(next, MapDown(pending[1..], p))
  }

  /**
   * `delete(indicesAtPositions:)`: de-duplicate, then delete one position at a time,
   * re-biasing the later positions. Every position must be in range, else `remove(at:)` traps.
   */
  function DeleteAtPositions(m: Manager, positions: seq<int>): (r: Manager)
    requires forall q :: q in positions ==> 0 <= q < |m.remaining|
    ensures |r.remaining| == |m.remaining| - |KeepFirst(positions)|
    ensures |r.swipes| == |m.swipes|
  {
    KeepFirstProperties(positions);
    KeptInRange(positions, |m.remaining|);
    DeleteEachAtPosition(m, KeepFirst(positions))
  }

  /** De-duplicating values that all lie in `0..n-1` gives distinct values in range. */
  lemma KeptInRange(xs: seq<int>, n: int)
    requires forall q :: q in xs ==> 0 <= q < n
    ensures PositionsOk(KeepFirst(xs), n)
  {
    KeepFirstProperties(xs);
    var ks := KeepFirst(xs);
    forall k | 0 <= k < |ks|
      ensures 0 <= ks[k] < n
    {
      assert ks[k] in ks;
    }
  }

  /** `swipe(_:)`: move the top index to the end of the history; nothing when none remain. */
  function SwipeTop(m: Manager, d: SwipeDirection): (r: Manager)
    ensures |m.remaining| == 0 ==> r == m
    ensures |m.remaining| > 0 ==>
      && r.remaining == m.remaining[1..]
      && r.swipes == m.swipes + [Swipe(m.remaining[0], d)]
    ensures TotalIndexCount(r) == TotalIndexCount(m)
  {
    if |m.remaining| == 0 then m
    else Manager(m.remaining[1..], m.swipes + [Swipe(m.remaining[0], d)])
  }

  /** `undoSwipe()`: pop the last record and put its index back on top. */
  function UndoSwipe(m: Manager): (r: (Option<Swipe>, Manager))
    ensures |m.swipes| == 0 ==> r == (None, m)
    ensures |m.swipes| > 0 ==>
      && r.0 == Some(m.swipes[|m.swipes| - 1])
      && r.1.swipes == m.swipes[..|m.swipes| - 1]
      && r.1.remaining == [m.swipes[|m.swipes| - 1].index] + m.remaining
    ensures TotalIndexCount(r.1) == TotalIndexCount(m)
  {
    if |m.swipes| == 0 then (None, m)
    else
      var last := m.swipes[|m.swipes| - 1];
      (Some(last), Manager([last.index] + m.remaining, m.swipes[..|m.swipes| - 1]))
  }

  /** `shift(withDistance:)`: rotate the remaining indices; the history is untouched. */
  function Shift(m: Manager, distance: int): (r: Manager)
    ensures r.swipes == m.swipes
    ensures multiset(r.remaining) == multiset(m.remaining)
    ensures ArrayExt.ShiftOffset(|m.remaining|, distance).None? ==> r == m
    ensures ArrayExt.ShiftOffset(|m.remaining|, distance).Some? ==>
      var k := ArrayExt.ShiftOffset(|m.remaining|, distance).value;
      forall i :: 0 <= i < |m.remaining| ==> r.remaining[i] == m.remaining[(i + k) % |m.remaining|]
  {
    Manager(ArrayExt.Shift(m.remaining, distance), m.swipes)
  }

  // ---------------------------------------------------------------------------
  // Counting lemmas

  lemma RangeIsPermutation(n: nat)
    ensures IsPermutation(seq(n, k => k), n)
  {
    if n > 0 {
      RangeIsPermutation(n - 1);
      assert seq(n, k => k) == seq(n - 1, k => k) + [n - 1];
    }
  }

  lemma LengthOfRemoveSwipes(ss: seq<Swipe>, index: int)
    ensures |RemoveSwipesOf(ss, index)| == |ss| - multiset(Indices(ss))[index]
    ensures Indices(RemoveSwipesOf(ss, index)) == FilterOut(Indices(ss), index)
  {
    IndicesOfRemoveSwipes(ss, index);
    FilterOutLength(Indices(ss), index);
  }

  lemma {:induction false} IndicesOfRemoveSwipes(ss: seq<Swipe>, index: int)
    ensures Indices(RemoveSwipesOf(ss, index)) == FilterOut(Indices(ss), index)
  {
    if |ss| > 0 {
      var rest := RemoveSwipesOf(ss[1..], index);
      IndicesOfRemoveSwipes(ss[1..], index);
      assert Indices(ss) == [ss[0].index] + Indices(ss[1..]);
      if ss[0].index != index {
        assert RemoveSwipesOf(ss, index) == [ss[0]] + rest;
        assert ([ss[0]] + rest)[1..] == rest;
      } else {
        assert RemoveSwipesOf(ss, index) == rest;
      }
    }
  }

  lemma {:induction false} FilterOutLength(xs: seq<int>, v: int)
    ensures |FilterOut(xs, v)| == |xs| - multiset(xs)[v]
  {
    if |xs| > 0 {
      FilterOutLength(xs[1..], v);
      assert xs == [xs[0]] + xs[1..];
      MultisetConsCount(xs[0], xs[1..], v);
      SingletonCount(xs[0], v);
    }
  }

  /** Remove every occurrence of `v`. */
  function FilterOut(xs: seq<int>, v: int): seq<int> {
    if |xs| == 0 then [] else (if xs[0] == v then [] else [xs[0]]) + FilterOut(xs[1..], v)
  }

  lemma {:induction false} FilterOutCount(xs: seq<int>, v: int)
    ensures forall x :: multiset(FilterOut(xs, v))[x] == (if x == v then 0 else multiset(xs)[x])
  {
    if |xs| > 0 {
      FilterOutCount(xs[1..], v);
      assert xs == [xs[0]] + xs[1..];
    }
  }

  /** How often renumbering up yields `x`, by induction on `xs`. */
  lemma {:induction false} MapUpCountAt(xs: seq<int>, index: int, x: int)
    ensures multiset(MapUp(xs, index))[x] ==
      (if x == index then 0 else if x > index then multiset(xs)[x - 1] else multiset(xs)[x])
  {
    if |xs| > 0 {
      var y, t := xs[0], xs[1..];
      MapUpCountAt(t, index, x);
      var uy := Up(y, index);
      assert xs == [y] + t;
      assert MapUp(xs, index) == [uy] + MapUp(t, index);
      MultisetConsCount(uy, MapUp(t, index), x);
      MultisetConsCount(y, t, x);
      MultisetConsCount(y, t, x - 1);
      SingletonCount(uy, x);
      SingletonCount(y, x);
      SingletonCount(y, x - 1);
    } else {
      assert MapUp(xs, index) == [];
    }
  }

  /** How often renumbering down yields `x`, by induction on `xs`. */
  lemma {:induction false} MapDownCountAt(xs: seq<int>, index: int, x: int)
    ensures multiset(MapDown(xs, index))[x] ==
      (if x >= index then multiset(xs)[x + 1]
       else if x == index - 1 then multiset(xs)[x] + multiset(xs)[index]
       else multiset(xs)[x])
  {
    if |xs| > 0 {
      var y, t := xs[0], xs[1..];
      MapDownCountAt(t, index, x);
      var dy := Down(y, index);
      assert xs == [y] + t;
      assert MapDown(xs, index) == [dy] + MapDown(t, index);
      MultisetConsCount(dy, MapDown(t, index), x);
      MultisetConsCount(y, t, x);
      MultisetConsCount(y, t, x + 1);
      MultisetConsCount(y, t, index);
      SingletonCount(dy, x);
      SingletonCount(y, x);
      SingletonCount(y, x + 1);
      SingletonCount(y, index);
    } else {
      assert MapDown(xs, index) == [];
    }
  }

  lemma SingletonCount(y: int, x: int)
    ensures multiset{y}[x] == if y == x then 1 else 0
  {
  }

  /** The count of `x` in `[y] + t` splits into the head and the tail. */
  lemma MultisetConsCount(y: int, t: seq<int>, x: int)
    ensures multiset([y] + t)[x] == multiset{y}[x] + multiset(t)[x]
  {
    assert multiset([y] + t) == multiset{y} + multiset(t);
  }

  lemma IndicesMapUp(ss: seq<Swipe>, index: int)
    ensures Indices(MapUpSwipes(ss, index)) == MapUp(Indices(ss), index)
  {
  }

  lemma IndicesMapDown(ss: seq<Swipe>, index: int)
    ensures Indices(MapDownSwipes(ss, index)) == MapDown(Indices(ss), index)
  {
  }

  lemma MapUpConcat(a: seq<int>, b: seq<int>, index: int)
    ensures MapUp(a + b, index) == MapUp(a, index) + MapUp(b, index)
  {
  }

  lemma MapDownConcat(a: seq<int>, b: seq<int>, index: int)
    ensures MapDown(a + b, index) == MapDown(a, index) + MapDown(b, index)
  {
  }

  lemma RemoveAtCount(xs: seq<int>, p: nat)
    requires p < |xs|
    ensures multiset(RemoveAt(xs, p)) == multiset(xs) - multiset{xs[p]}
  {
    assert xs == xs[..p] + [xs[p]] + xs[p + 1..];
  }

  lemma InsertAtCount(xs: seq<int>, p: nat, v: int)
    requires p <= |xs|
    ensures multiset(InsertAt(xs, p, v)) == multiset(xs) + multiset{v}
  {
    assert xs == xs[..p] + xs[p..];
  }

  /** A permutation has no duplicates and holds exactly `0..n-1`. */
  lemma PermutationFacts(xs: seq<int>, n: int)
    requires IsPermutation(xs, n)
    ensures Distinct(xs)
    ensures forall x :: x in xs <==> 0 <= x < n
  {
    forall x
      ensures x in xs <==> 0 <= x < n
    {
      assert x in xs <==> x in multiset(xs);
    }
    forall i, j | 0 <= i < j < |xs|
      ensures xs[i] != xs[j]
    {
      RepeatCountsTwice(xs, i, j);
    }
  }

  /** Two equal entries make the value's count at least two. */
  lemma RepeatCountsTwice(xs: seq<int>, i: nat, j: nat)
    requires i < j < |xs|
    ensures xs[i] == xs[j] ==> multiset(xs)[xs[i]] >= 2
  {
    assert xs == xs[..j] + xs[j..];
    assert xs[i] in multiset(xs[..j]);
    assert xs[j] in multiset(xs[j..]);
    assert multiset(xs)[xs[i]] == multiset(xs[..j])[xs[i]] + multiset(xs[j..])[xs[i]];
  }

  // ---------------------------------------------------------------------------
  // The invariant and the round trips

  /** Reordering keeps the invariant: it depends on the counts alone. */
  lemma SameCountsPermutation(a: seq<int>, b: seq<int>, n: int)
    requires IsPermutation(a, n) && multiset(a) == multiset(b)
    ensures IsPermutation(b, n)
  {
    assert |a| == |multiset(a)| == |multiset(b)| == |b|;
  }

  /** Renumbering up from `index` and adding `index` itself grows a permutation by one. */
  lemma {:induction false} UpPermutation(all: seq<int>, n: int, index: int)
    requires IsPermutation(all, n) && 0 <= index <= n
    ensures IsPermutation(MapUp(all, index) + [index], n + 1)
  {
    var grown := MapUp(all, index) + [index];
    forall x
      ensures multiset(grown)[x] == (if 0 <= x < n + 1 then 1 else 0)
    {
      MapUpCountAt(all, index, x);
      assert multiset(grown)[x] == multiset(MapUp(all, index))[x] + multiset{index}[x];
    }
  }

  /** Renumbering down from a value no longer present shrinks a permutation with a hole at `index`. */
  lemma DownPermutation(cut: seq<int>, n: int, index: int)
    requires 0 <= index < n && |cut| == n - 1
    requires forall x :: multiset(cut)[x] == (if 0 <= x < n && x != index then 1 else 0)
    ensures IsPermutation(MapDown(cut, index), n - 1)
  {
    forall x
      ensures multiset(MapDown(cut, index))[x] == (if 0 <= x < n - 1 then 1 else 0)
    {
      MapDownCountAt(cut, index, x);
      assert multiset(cut)[x + 1] == (if 0 <= x + 1 < n && x + 1 != index then 1 else 0);
    }
  }

  /** `reset` establishes the invariant (stated on `Reset`); `swipe` preserves it. */
  lemma SwipePreservesValid(m: Manager, n: int, d: SwipeDirection)
    requires Valid(m, n)
    ensures Valid(SwipeTop(m, d), n)
  {
    if |m.remaining| > 0 {
      var r := SwipeTop(m, d);
      assert m.remaining == [m.remaining[0]] + m.remaining[1..];
      assert Indices(r.swipes) == Indices(m.swipes) + [m.remaining[0]];
      assert multiset(AllIndices(r)) == multiset(AllIndices(m));
      SameCountsPermutation(AllIndices(m), AllIndices(r), n);
    }
  }

  lemma UndoPreservesValid(m: Manager, n: int)
    requires Valid(m, n)
    ensures Valid(UndoSwipe(m).1, n)
  {
    if |m.swipes| > 0 {
      var r := UndoSwipe(m).1;
      var k := |m.swipes| - 1;
      assert m.swipes == m.swipes[..k] + [m.swipes[k]];
      assert Indices(m.swipes) == Indices(r.swipes) + [m.swipes[k].index];
      assert multiset(AllIndices(r)) == multiset(AllIndices(m));
      SameCountsPermutation(AllIndices(m), AllIndices(r), n);
    }
  }

  /** Swipe then undo restores both sequences and hands back the record just made. */
  lemma SwipeUndoRoundTrip(m: Manager, d: SwipeDirection)
    requires |m.remaining| > 0
    ensures UndoSwipe(SwipeTop(m, d)) == (Some(Swipe(m.remaining[0], d)), m)
  {
    var s := SwipeTop(m, d);
    assert s.swipes[..|s.swipes| - 1] == m.swipes;
    assert [m.remaining[0]] + m.remaining[1..] == m.remaining;
  }

  /** Shifting preserves the invariant. */
  lemma {:induction false} ShiftPreservesValid(m: Manager, n: int, distance: int)
    requires Valid(m, n)
    ensures Valid(Shift(m, distance), n)
  {
    var r := Shift(m, distance);
    assert multiset(AllIndices(r)) == multiset(AllIndices(m));
    SameCountsPermutation(AllIndices(m), AllIndices(r), n);
  }

  /** Inserting any index `0 <= i <= n` turns a permutation of `n` into one of `n + 1`. */
  lemma {:induction false} InsertPreservesValid(m: Manager, n: int, index: int, position: nat)
    requires Valid(m, n) && 0 <= index <= n && position <= |m.remaining|
    ensures Valid(Insert(m, index, position), n + 1)
  {
    var r := Insert(m, index, position);
    var all := AllIndices(m);
    var upRemaining := MapUp(m.remaining, index);
    IndicesMapUp(m.swipes, index);
    MapUpConcat(m.remaining, Indices(m.swipes), index);
    InsertAtCount(upRemaining, position, index);
    assert AllIndices(r) == InsertAt(upRemaining, position, index) + MapUp(Indices(m.swipes), index);
    assert multiset(AllIndices(r)) == multiset(MapUp(all, index) + [index]);
    UpPermutation(all, n, index);
    SameCountsPermutation(MapUp(all, index) + [index], AllIndices(r), n + 1);
  }

  lemma {:induction false} RemoveFirstCount(xs: seq<int>, v: int)
    ensures multiset(RemoveFirst(xs, v)) == multiset(xs) - multiset{v}
  {
    match FirstPosition(xs, v)
    case None =>
      assert multiset(xs)[v] == 0;
    case Some(p) =>
      RemoveAtCount(xs, p);
  }

  /** The count arithmetic behind `DeleteCutCounts`. */
  lemma CutArithmetic(a: multiset<int>, b: multiset<int>, ra: multiset<int>, rb: multiset<int>, n: int, index: int)
    requires forall x :: a[x] + b[x] == (if 0 <= x < n then 1 else 0)
    requires ra == a - multiset{index}
    requires forall x :: rb[x] == (if x == index then 0 else b[x])
    ensures forall x :: (ra + rb)[x] == (if 0 <= x < n && x != index then 1 else 0)
  {
    forall x
      ensures (ra + rb)[x] == (if 0 <= x < n && x != index then 1 else 0)
    {
      assert a[x] + b[x] == (if 0 <= x < n then 1 else 0);
    }
  }

  /** The invariant read separately on the two halves: each index is remaining or swiped, once. */
  lemma ValidSplits(m: Manager, n: int)
    requires Valid(m, n)
    ensures forall x :: multiset(m.remaining)[x] + multiset(Indices(m.swipes))[x] == (if 0 <= x < n then 1 else 0)
  {
    var a, b := multiset(m.remaining), multiset(Indices(m.swipes));
    assert multiset(AllIndices(m)) == a + b;
    forall x
      ensures a[x] + b[x] == (if 0 <= x < n then 1 else 0)
    {
      assert multiset(AllIndices(m))[x] == (a + b)[x];
    }
  }

  /** What `delete(i)` keeps before renumbering, as one sequence. */
  function DeleteCut(m: Manager, index: int): seq<int> {
    RemoveFirst(m.remaining, index) + Indices(RemoveSwipesOf(m.swipes, index))
  }

  lemma DeleteCutLength(m: Manager, n: int, index: int)
    requires Valid(m, n) && 0 <= index < n
    ensures |DeleteCut(m, index)| == n - 1
  {
    var a, b := multiset(m.remaining), multiset(Indices(m.swipes));
    ValidSplits(m, n);
    LengthOfRemoveSwipes(m.swipes, index);
    assert a[index] + b[index] == 1;
    assert index in m.remaining <==> a[index] > 0;
  }

  /** For a permutation of `n` holding `i`, `delete(i)` drops exactly `i` before renumbering. */
  lemma DeleteCutCounts(m: Manager, n: int, index: int)
    requires Valid(m, n) && 0 <= index < n
    ensures forall x :: multiset(DeleteCut(m, index))[x] == (if 0 <= x < n && x != index then 1 else 0)
  {
    var sw := RemoveSwipesOf(m.swipes, index);
    var rem := RemoveFirst(m.remaining, index);
    ValidSplits(m, n);
    LengthOfRemoveSwipes(m.swipes, index);
    FilterOutCount(Indices(m.swipes), index);
    RemoveFirstCount(m.remaining, index);
    CutArithmetic(multiset(m.remaining), multiset(Indices(m.swipes)), multiset(rem), multiset(Indices(sw)), n, index);
    assert multiset(DeleteCut(m, index)) == multiset(rem) + multiset(Indices(sw));
  }

  /** Deleting an index `0 <= i < n` turns a permutation of `n` into one of `n - 1`. */
  lemma {:induction false} DeletePreservesValid(m: Manager, n: int, index: int)
    requires Valid(m, n) && 0 <= index < n
    ensures Valid(Delete(m, index), n - 1)
  {
    var r := Delete(m, index);
    var sw := RemoveSwipesOf(m.swipes, index);
    var rem := RemoveFirst(m.remaining, index);
    var cut := DeleteCut(m, index);
    DeleteCutLength(m, n, index);
    DeleteCutCounts(m, n, index);
    IndicesMapDown(sw, index);
    MapDownConcat(rem, Indices(sw), index);
    assert AllIndices(r) == MapDown(cut, index);
    DownPermutation(cut, n, index);
  }

  /** Renumbering up then down from the same index is the identity. */
  lemma DownAfterUp(xs: seq<int>, ss: seq<Swipe>, index: int)
    ensures MapDown(MapUp(xs, index), index) == xs
    ensures MapDownSwipes(MapUpSwipes(ss, index), index) == ss
    ensures index !in MapUp(xs, index)
    ensures forall s :: s in MapUpSwipes(ss, index) ==> s.index != index
  {
  }

  /** The first occurrence of a value placed where it did not occur is where it was placed. */
  lemma RemoveFirstOfInserted(xs: seq<int>, p: nat, v: int)
    requires p <= |xs| && v !in xs
    ensures RemoveFirst(InsertAt(xs, p, v), v) == xs
  {
    var ys := InsertAt(xs, p, v);
    assert ys[..p] == xs[..p];
    assert v !in ys[..p];
    assert FirstPosition(ys, v) == Some(p);
    assert RemoveAt(ys, p) == xs;
  }

  /** `insert(i, at: p)` followed by `delete(i)` restores the manager exactly, in any state. */
  lemma {:induction false} InsertDeleteRoundTrip(m: Manager, index: int, position: nat)
    requires position <= |m.remaining|
    ensures Delete(Insert(m, index, position), index) == m
  {
    var ins := Insert(m, index, position);
    var mapped := MapUp(m.remaining, index);
    DownAfterUp(m.remaining, m.swipes, index);
    RemoveSwipesOfNone(ins.swipes, index);
    RemoveFirstOfInserted(mapped, position, index);
  }

  lemma {:induction false} RemoveSwipesOfNone(ss: seq<Swipe>, index: int)
    requires forall s :: s in ss ==> s.index != index
    ensures RemoveSwipesOf(ss, index) == ss
  {
    if |ss| > 0 {
      RemoveSwipesOfNone(ss[1..], index);
    }
  }

  /** Under the invariant, deleting by position is deleting the index found there. */
  lemma {:induction false} DeleteAtPositionIsDelete(m: Manager, n: int, position: nat)
    requires Valid(m, n) && position < |m.remaining|
    ensures DeleteAtPosition(m, position) == Delete(m, m.remaining[position])
  {
    var all := AllIndices(m);
    var v := m.remaining[position];
    PermutationFacts(all, n);
    assert Distinct(m.remaining) by {
      forall i, j | 0 <= i < j < |m.remaining| ensures m.remaining[i] != m.remaining[j] {
        assert all[i] == m.remaining[i] && all[j] == m.remaining[j];
      }
    }
    forall s | s in m.swipes
      ensures s.index != v
    {
      var k :| 0 <= k < |m.swipes| && m.swipes[k] == s;
      assert all[|m.remaining| + k] == s.index;
      assert all[position] == v;
    }
    RemoveSwipesOfNone(m.swipes, v);
    assert FirstPosition(m.remaining, v) == Some(position);
  }

  // ---------------------------------------------------------------------------
  // Batch deletes

  /** The re-biased pending positions are still distinct and in range after one deletion. */
  lemma RebiasedPositionsOk(pending: seq<int>, n: int)
    requires |pending| > 0 && PositionsOk(pending, n)
    ensures PositionsOk(MapDown(pending[1..], pending[0]), n - 1)
  {
    var p := pending[0];
    var rest := pending[1..];
    var next := MapDown(rest, p);
    assert forall k :: 0 <= k < |rest| ==> rest[k] != p by {
      forall k | 0 <= k < |rest| ensures rest[k] != p {
        assert pending[k + 1] == rest[k];
      }
    }
    forall i, j | 0 <= i < j < |next|
      ensures next[i] != next[j]
    {
      assert rest[i] == pending[i + 1] && rest[j] == pending[j + 1];
    }
    forall k | 0 <= k < |next|
      ensures 0 <= next[k] < n - 1
    {
      assert pending[k + 1] == rest[k];
    }
  }

  /** Distinct indices in range keep the invariant, ending at `n - |pending|` items. */
  lemma {:induction false} DeleteEachPreservesValid(m: Manager, n: int, pending: seq<int>)
    requires Valid(m, n) && PositionsOk(pending, n)
    ensures Valid(DeleteEach(m, pending), n - |pending|)
    decreases |pending|
  {
    if |pending| > 0 {
      DeletePreservesValid(m, n, pending[0]);
      RebiasedPositionsOk(pending, n);
      DeleteEachPreservesValid(Delete(m, pending[0]), n - 1, MapDown(pending[1..], pending[0]));
    }
  }

  /** `delete(_ indices:)` with indices in range keeps the invariant, minus one per distinct index. */
  lemma {:induction false} DeleteManyPreservesValid(m: Manager, n: int, indices: seq<int>)
    requires Valid(m, n) && forall i :: i in indices ==> 0 <= i < n
    ensures Valid(DeleteMany(m, indices), n - |KeepFirst(indices)|)
  {
    KeptInRange(indices, n);
    DeleteEachPreservesValid(m, n, KeepFirst(indices));
  }

  lemma FiveCardsDeleteOne()
    ensures Delete(Manager([0, 1, 2, 3, 4], []), 1) == Manager([0, 1, 2, 3], [])
  {
    assert FirstPosition([0, 1, 2, 3, 4], 1) == Some(1);
    assert RemoveFirst([0, 1, 2, 3, 4], 1) == [0, 2, 3, 4];
    assert MapDown([0, 2, 3, 4], 1) == [0, 1, 2, 3];
  }

  /** Worked example: deleting index 1 from five fresh cards, once or twice over. */
  lemma DeleteManyExample()
    ensures DeleteMany(Reset(5), [1]).remaining == [0, 1, 2, 3]
    ensures DeleteMany(Reset(5), [1, 1]).remaining == [0, 1, 2, 3]
  {
    var m := Reset(5);
    assert m == Manager([0, 1, 2, 3, 4], []);
    assert KeepFirst([1]) == [1];
    assert [1, 1][..1] == [1];
    assert KeepFirst([1, 1]) == [1];
    FiveCardsDeleteOne();
    assert DeleteEach(m, [1]) == DeleteEach(Manager([0, 1, 2, 3], []), MapDown([], 1));
  }

  // ---------------------------------------------------------------------------
  // What a batch delete keeps: a reference definition

  /** How many of `ds` lie below `x`. */
  function CountBelow(ds: seq<int>, x: int): (r: nat)
    ensures r <= |ds|
  {
    if |ds| == 0 then 0 else (if ds[0] < x then 1 else 0) + CountBelow(ds[1..], x)
  }

  /**
   * The survivors of deleting the indices `ds` all at once: every stored index not in `ds`,
   * in order, lowered by the number of deleted indices below it.
   */
  function Compact(xs: seq<int>, ds: seq<int>): (r: seq<int>)
    ensures |r| <= |xs|
  {
    if |xs| == 0 then []
    else (if xs[0] in ds then [] else [xs[0] - CountBelow(ds, xs[0])]) + Compact(xs[1..], ds)
  }

  lemma {:induction false} FilterOutConcat(a: seq<int>, b: seq<int>, v: int)
    ensures FilterOut(a + b, v) == FilterOut(a, v) + FilterOut(b, v)
  {
    if |a| > 0 {
      FilterOutConcat(a[1..], b, v);
      assert (a + b)[1..] == a[1..] + b;
    } else {
      assert a + b == b;
    }
  }

  lemma {:induction false} FilterOutMembers(xs: seq<int>, v: int)
    ensures forall x :: x in FilterOut(xs, v) <==> x in xs && x != v
    ensures Distinct(xs) ==> Distinct(FilterOut(xs, v))
    ensures v !in xs ==> FilterOut(xs, v) == xs
  {
    if |xs| > 0 {
      FilterOutMembers(xs[1..], v);
      assert xs == [xs[0]] + xs[1..];
      if Distinct(xs) {
        assert Distinct(xs[1..]);
        assert xs[0] !in xs[1..];
      }
    }
  }

  /** With no duplicates, removing the first occurrence is removing every occurrence. */
  lemma {:induction false} RemoveFirstOfDistinct(xs: seq<int>, v: int)
    requires Distinct(xs)
    ensures RemoveFirst(xs, v) == FilterOut(xs, v)
  {
    if |xs| > 0 {
      var y, t := xs[0], xs[1..];
      assert xs == [y] + t;
      assert Distinct(t);
      assert FilterOut(xs, v) == (if y == v then [] else [y]) + FilterOut(t, v);
      if y == v {
        assert v !in t;
        FilterOutMembers(t, v);
        assert FirstPosition(xs, v) == Some(0);
        assert RemoveAt(xs, 0) == t;
      } else {
        RemoveFirstOfDistinct(t, v);
        RemoveFirstSkipsHead(xs, v);
      }
    }
  }

  /** Removing the first `v` from a sequence that does not start with `v` keeps the head. */
  lemma RemoveFirstSkipsHead(xs: seq<int>, v: int)
    requires |xs| > 0 && xs[0] != v
    ensures RemoveFirst(xs, v) == [xs[0]] + RemoveFirst(xs[1..], v)
  {
    var t := xs[1..];
    assert xs == [xs[0]] + t;
    match FirstPosition(t, v)
    case None =>
      assert FirstPosition(xs, v) == None;
    case Some(p) =>
      assert FirstPosition(xs, v) == Some(p + 1);
      assert xs[..p + 1] == [xs[0]] + t[..p];
      assert xs[p + 2..] == t[p + 1..];
      assert RemoveAt(xs, p + 1) == [xs[0]] + RemoveAt(t, p);
  }

  /** Renumbering down from `d` is injective on everything but `d` and keeps its order. */
  lemma DownOrder(x: int, y: int, d: int)
    requires x != d && y != d
    ensures Down(x, d) == Down(y, d) <==> x == y
    ensures Down(y, d) < Down(x, d) <==> y < x
  {
  }

  lemma DownDistinct(xs: seq<int>, d: int)
    requires Distinct(xs) && d !in xs
    ensures Distinct(MapDown(xs, d))
    ensures forall x :: x in xs ==> (Down(x, d) in MapDown(xs, d))
    ensures forall x :: x != d ==> (Down(x, d) in MapDown(xs, d) <==> x in xs)
  {
    var ys := MapDown(xs, d);
    forall i, j | 0 <= i < j < |ys|
      ensures ys[i] != ys[j]
    {
      DownOrder(xs[i], xs[j], d);
    }
    forall x | x in xs
      ensures Down(x, d) in ys
    {
      var k :| 0 <= k < |xs| && xs[k] == x;
      assert ys[k] == Down(x, d);
    }
    forall x | x != d && Down(x, d) in ys
      ensures x in xs
    {
      var k :| 0 <= k < |ys| && ys[k] == Down(x, d);
      DownOrder(x, xs[k], d);
    }
  }

  lemma {:induction false} CountBelowDown(ds: seq<int>, x: int, d: int)
    requires x != d && d !in ds
    ensures CountBelow(MapDown(ds, d), Down(x, d)) == CountBelow(ds, x)
  {
    if |ds| > 0 {
      CountBelowDown(ds[1..], x, d);
      assert ds[0] in ds;
      DownOrder(x, ds[0], d);
      assert MapDown(ds, d)[1..] == MapDown(ds[1..], d);
    }
  }

  /** One step of the batch: deleting `d`, then compacting by the re-biased rest, compacts by all. */
  lemma {:induction false} CompactStep(xs: seq<int>, d: int, rest: seq<int>)
    requires Distinct(rest) && d !in rest
    ensures Compact(MapDown(FilterOut(xs, d), d), MapDown(rest, d)) == Compact(xs, [d] + rest)
  {
    if |xs| > 0 {
      var x, t := xs[0], xs[1..];
      CompactStep(t, d, rest);
      assert FilterOut(xs, d) == (if x == d then [] else [x]) + FilterOut(t, d);
      MapDownConcat(if x == d then [] else [x], FilterOut(t, d), d);
      if x != d {
        var down := MapDown(FilterOut(xs, d), d);
        assert down == [Down(x, d)] + MapDown(FilterOut(t, d), d);
        assert down[1..] == MapDown(FilterOut(t, d), d);
        DownDistinct(rest, d);
        CountBelowDown(rest, x, d);
        assert Down(x, d) in MapDown(rest, d) <==> x in rest;
        assert ([d] + rest)[1..] == rest;
        assert CountBelow([d] + rest, x) == (if d < x then 1 else 0) + CountBelow(rest, x);
        assert x in [d] + rest <==> x in rest;
      } else {
        assert FilterOut(xs, d) == FilterOut(t, d);
        assert x in [d] + rest;
      }
    } else {
      assert FilterOut(xs, d) == [];
    }
  }

  /**
   * The batch delete, in closed form: on a manager whose remaining indices have no duplicates,
   * deleting the distinct indices `ds` one by one with re-biasing keeps exactly the stored
   * indices not named in `ds`, each lowered by the number of named indices below it.
   */
  lemma {:induction false} DeleteEachCompacts(m: Manager, ds: seq<int>)
    requires Distinct(m.remaining) && Distinct(ds)
    ensures DeleteEach(m, ds).remaining == Compact(m.remaining, ds)
    ensures Indices(DeleteEach(m, ds).swipes) == Compact(Indices(m.swipes), ds)
    decreases |ds|
  {
    if |ds| == 0 {
      NothingToCompact(m.remaining);
      NothingToCompact(Indices(m.swipes));
    } else {
      var d, rest := ds[0], ds[1..];
      assert ds == [d] + rest;
      assert d !in rest;
      var next := Delete(m, d);
      RemoveFirstOfDistinct(m.remaining, d);
      FilterOutMembers(m.remaining, d);
      DownDistinct(FilterOut(m.remaining, d), d);
      DownDistinct(rest, d);
      LengthOfRemoveSwipes(m.swipes, d);
      IndicesMapDown(RemoveSwipesOf(m.swipes, d), d);
      DeleteEachCompacts(next, MapDown(rest, d));
      CompactStep(m.remaining, d, rest);
      CompactStep(Indices(m.swipes), d, rest);
    }
  }

  lemma {:induction false} NothingToCompact(xs: seq<int>)
    ensures Compact(xs, []) == xs
  {
    if |xs| > 0 {
      NothingToCompact(xs[1..]);
    }
  }

  /** `delete(_ indices:)`, in closed form (see `DeleteEachCompacts`). */
  lemma DeleteManyCompacts(m: Manager, indices: seq<int>)
    requires Distinct(m.remaining)
    ensures DeleteMany(m, indices).remaining == Compact(m.remaining, KeepFirst(indices))
    ensures Indices(DeleteMany(m, indices).swipes) == Compact(Indices(m.swipes), KeepFirst(indices))
  {
    KeepFirstProperties(indices);
    DeleteEachCompacts(m, KeepFirst(indices));
  }

  // ---------------------------------------------------------------------------
  // Deleting by positions is deleting the indices at those positions

  /** The entries of `xs` at the given positions. */
  function At(xs: seq<int>, positions: seq<int>): (r: seq<int>)
    requires forall k :: 0 <= k < |positions| ==> 0 <= positions[k] < |xs|
    ensures |r| == |positions|
    ensures forall k :: 0 <= k < |positions| ==> r[k] == xs[positions[k]]
  {
    if |positions| == 0 then [] else [xs[positions[0]]] + At(xs, positions[1..])
  }

  /** After deleting position `p`, the re-biased positions find the renumbered entries. */
  lemma {:induction false} AtAfterDeleteAtPosition(m: Manager, pending: seq<int>)
    requires |pending| > 0 && PositionsOk(pending, |m.remaining|)
    ensures PositionsOk(MapDown(pending[1..], pending[0]), |m.remaining| - 1)
    ensures At(DeleteAtPosition(m, pending[0]).remaining, MapDown(pending[1..], pending[0]))
         == MapDown(At(m.remaining, pending)[1..], m.remaining[pending[0]])
  {
    var p, rest := pending[0], pending[1..];
    RebiasedPositionsOk(pending, |m.remaining|);
    var next := DeleteAtPosition(m, p).remaining;
    var rest' := MapDown(rest, p);
    var lhs := At(next, rest');
    var rhs := MapDown(At(m.remaining, pending)[1..], m.remaining[p]);
    forall k | 0 <= k < |rest|
      ensures lhs[k] == rhs[k]
    {
      assert rest[k] == pending[k + 1];
      assert rest[k] != p;
      assert At(m.remaining, pending)[k + 1] == m.remaining[rest[k]];
    }
  }

  lemma {:induction false} DeleteEachAtPositionIsDeleteEach(m: Manager, n: int, pending: seq<int>)
    requires Valid(m, n) && PositionsOk(pending, |m.remaining|)
    ensures DeleteEachAtPosition(m, pending) == DeleteEach(m, At(m.remaining, pending))
    decreases |pending|
  {
    if |pending| > 0 {
      var p := pending[0];
      var v := m.remaining[p];
      var targets := At(m.remaining, pending);
      DeleteAtPositionIsDelete(m, n, p);
      ValidHoldsRemaining(m, n, p);
      DeletePreservesValid(m, n, v);
      AtAfterDeleteAtPosition(m, pending);
      DeleteEachAtPositionIsDeleteEach(DeleteAtPosition(m, p), n - 1, MapDown(pending[1..], p));
      assert targets[0] == v;
    }
  }

  /** Every remaining index lies in `0..n-1`. */
  lemma ValidHoldsRemaining(m: Manager, n: int, p: nat)
    requires Valid(m, n) && p < |m.remaining|
    ensures 0 <= m.remaining[p] < n
  {
    PermutationFacts(AllIndices(m), n);
    assert AllIndices(m)[p] == m.remaining[p];
    assert m.remaining[p] in AllIndices(m);
  }

  /** Under the invariant the remaining indices have no duplicates. */
  lemma ValidRemainingDistinct(m: Manager, n: int)
    requires Valid(m, n)
    ensures Distinct(m.remaining)
  {
    PermutationFacts(AllIndices(m), n);
    forall i, j | 0 <= i < j < |m.remaining|
      ensures m.remaining[i] != m.remaining[j]
    {
      assert AllIndices(m)[i] == m.remaining[i] && AllIndices(m)[j] == m.remaining[j];
    }
  }

  /** Distinct positions into a sequence without duplicates find distinct entries. */
  lemma AtDistinct(xs: seq<int>, ps: seq<int>)
    requires Distinct(xs) && PositionsOk(ps, |xs|)
    ensures Distinct(At(xs, ps))
  {
  }

  /**
   * `delete(indicesAtPositions:)` is `delete(_ indices:)` applied to the indices found at
   * those positions, when the invariant holds.
   */
  lemma {:induction false} DeleteAtPositionsIsDeleteMany(m: Manager, n: int, positions: seq<int>)
    requires Valid(m, n) && forall q :: q in positions ==> 0 <= q < |m.remaining|
    ensures PositionsOk(KeepFirst(positions), |m.remaining|)
    ensures DeleteAtPositions(m, positions) == DeleteMany(m, At(m.remaining, KeepFirst(positions)))
  {
    KeptInRange(positions, |m.remaining|);
    var ps := KeepFirst(positions);
    DeleteEachAtPositionIsDeleteEach(m, n, ps);
    ValidRemainingDistinct(m, n);
    AtDistinct(m.remaining, ps);
    KeepFirstOfDistinct(At(m.remaining, ps));

  }
}

=== FILE: string_utils.dfy ===
/**
 * `StringUtils.createInvalidUpdateErrorString` (StringUtils.swift): the message a card stack
 * dies with when its data source's count disagrees with an insert or delete.
 */
module StringUtils {
  import opened Wrappers

  predicate IsDigit(c: char) {
    '0' <= c <= '9'
  }

  function DigitChar(d: nat): (c: char)
    requires d < 10
    ensures IsDigit(c) && (c as int) - ('0' as int) == d
  {
    ('0' as int + d) as char
  }

  /** Decimal digits of a natural number, most significant first, without leading zeros. */
  function Digits(n: nat): (s: string)
    ensures |s| >= 1 && forall i :: 0 <= i < |s| ==> IsDigit(s[i])
    ensures n >= 10 ==> s[0] != '0'
  {
    if n < 10 then [DigitChar(n)] else Digits(n / 10) + [DigitChar(n % 10)]
  }

  /** Swift's string interpolation of an `Int`: a minus sign for negatives, then the digits. */
  function IntToString(i: int): (s: string)
    ensures |s| >= 1
    ensures forall k :: 0 <= k < |s| ==> IsNumberChar(s[k])
    ensures i < 0 <==> s[0] == '-'
  {
    if i < 0 then "-" + Digits(-i) else Digits(i)
  }

  /** The value of a non-empty digit string. */
  function DigitsValue(s: string): nat
    requires forall i :: 0 <= i < |s| ==> IsDigit(s[i])
  {
    if |s| == 0 then 0
    else
      assert IsDigit(s[|s| - 1]);
      10 * DigitsValue(s[..|s| - 1]) + ((s[|s| - 1] as int) - ('0' as int))
  }

  /** Reads back an interpolated `Int`; `None` for anything that is not one. */
  function ParseInt(s: string): (r: Option<int>)
    ensures r.Some? ==> |s| >= 1
  {
    if |s| >= 2 && s[0] == '-' && forall i :: 1 <= i < |s| ==> IsDigit(s[i]) then
      var magnitude: int := DigitsValue(s[1..]);
      Some(-magnitude)
    else if |s| >= 1 && forall i :: 0 <= i < |s| ==> IsDigit(s[i]) then
      Some(DigitsValue(s))
    else None
  }

  lemma {:induction false} DigitsRoundTrip(n: nat)
    ensures DigitsValue(Digits(n)) == n
  {
    if n >= 10 {
      DigitsRoundTrip(n / 10);
      var s := Digits(n);
      assert s[..|s| - 1] == Digits(n / 10);
    }
  }

  /** Interpolating then reading back gives the same `Int`. */
  lemma IntToStringRoundTrip(i: int)
    ensures ParseInt(IntToString(i)) == Some(i)
  {
    if i < 0 {
      DigitsRoundTrip(-i);
      assert IntToString(i)[1..] == Digits(-i);
    } else {
      DigitsRoundTrip(i);
    }
  }

  /** Distinct `Int`s interpolate to distinct strings. */
  lemma IntToStringInjective(a: int, b: int)
    ensures IntToString(a) == IntToString(b) ==> a == b
  {
    IntToStringRoundTrip(a);
    IntToStringRoundTrip(b);
  }

  // The fixed text around the four numbers, in order.
  const Head: string := "更新无效:卡片数量无效。更新后卡片堆栈中包含的卡片数量 ("
  const AfterNew: string := ") 必须等于更新前卡栈中包含的卡的数量 ("
  const AfterOld: string := "), 加减插入或删除的卡片数量 ("
  const AfterInserted: string := " 插入, "
  const Tail: string := " 删除)"

  /** `createInvalidUpdateErrorString(newCount:oldCount:insertedCount:deletedCount:)` */
  function InvalidUpdateMessage(newCount: int, oldCount: int, insertedCount: int, deletedCount: int): (s: string)
    ensures |s| > |Head| + |Tail| && s[..|Head|] == Head && s[|s| - |Tail|..] == Tail
  {
    Head + IntToString(newCount) + FromOld(oldCount, insertedCount, deletedCount)
  }

  /** The message from just after the new count onwards. */
  function FromOld(oldCount: int, insertedCount: int, deletedCount: int): string {
    AfterNew + IntToString(oldCount) + FromInserted(insertedCount, deletedCount)
  }

  /** The message from just after the old count onwards. */
  function FromInserted(insertedCount: int, deletedCount: int): string {
    AfterOld + IntToString(insertedCount) + FromDeleted(deletedCount)
  }

  /** The message from just after the inserted count onwards. */
  function FromDeleted(deletedCount: int): string {
    AfterInserted + IntToString(deletedCount) + Tail
  }

  predicate IsNumberChar(c: char) {
    IsDigit(c) || c == '-'
  }

  /** The length of the run of digits and minus signs a string starts with. */
  function NumberPrefixLength(s: string): (r: nat)
    ensures r <= |s|
  {
    if |s| == 0 || !IsNumberChar(s[0]) then 0 else 1 + NumberPrefixLength(s[1..])
  }

  lemma {:induction false} NumberPrefixOfConcat(x: string, a: string)
    requires forall k :: 0 <= k < |x| ==> IsNumberChar(x[k])
    requires |a| > 0 && !IsNumberChar(a[0])
    ensures NumberPrefixLength(x + a) == |x|
  {
    if |x| > 0 {
      assert (x + a)[1..] == x[1..] + a;
      NumberPrefixOfConcat(x[1..], a);
    } else {
      assert x + a == a;
    }
  }

  /**
   * If `x + a == y + b` where `x`, `y` are interpolated numbers and `a`, `b` start with a
   * character no number contains, the numbers and the rests agree.
   */
  lemma PeelNumber(x: string, a: string, y: string, b: string)
    requires forall k :: 0 <= k < |x| ==> IsNumberChar(x[k])
    requires forall k :: 0 <= k < |y| ==> IsNumberChar(y[k])
    requires |a| > 0 && |b| > 0 && !IsNumberChar(a[0]) && !IsNumberChar(b[0])
    requires x + a == y + b
    ensures x == y && a == b
  {
    NumberPrefixOfConcat(x, a);
    NumberPrefixOfConcat(y, b);
    assert x == (x + a)[..|x|] == (y + b)[..|y|] == y;
    assert a == (x + a)[|x|..] == (y + b)[|y|..] == b;
  }

  /** A common prefix cancels. */
  lemma CancelPrefix(p: string, a: string, b: string)
    requires p + a == p + b
    ensures a == b
  {
    assert a == (p + a)[|p|..];
    assert b == (p + b)[|p|..];
  }

  /** One number and what follows it, after a fixed piece of text, determine the number. */
  lemma PeelField(p: string, x: int, a: string, y: int, b: string)
    requires |a| > 0 && |b| > 0 && !IsNumberChar(a[0]) && !IsNumberChar(b[0])
    requires p + IntToString(x) + a == p + IntToString(y) + b
    ensures x == y && a == b
  {
    assert p + IntToString(x) + a == p + (IntToString(x) + a);
    assert p + IntToString(y) + b == p + (IntToString(y) + b);
    CancelPrefix(p, IntToString(x) + a, IntToString(y) + b);
    PeelNumber(IntToString(x), a, IntToString(y), b);
    IntToStringInjective(x, y);
  }

  /** The message determines all four counts: equal messages come from equal arguments. */
  lemma MessageDeterminesCounts(n1: int, o1: int, i1: int, d1: int, n2: int, o2: int, i2: int, d2: int)
    requires InvalidUpdateMessage(n1, o1, i1, d1) == InvalidUpdateMessage(n2, o2, i2, d2)
    ensures n1 == n2 && o1 == o2 && i1 == i2 && d1 == d2
  {
    PeelField(Head, n1, FromOld(o1, i1, d1), n2, FromOld(o2, i2, d2));
    PeelField(AfterNew, o1, FromInserted(i1, d1), o2, FromInserted(i2, d2));
    PeelField(AfterOld, i1, FromDeleted(d1), i2, FromDeleted(d2));
    PeelField(AfterInserted, d1, Tail, d2, Tail);
  }

  /** Worked example: interpolation of a few `Int`s. */
  lemma IntToStringExamples()
    ensures IntToString(0) == "0" && IntToString(42) == "42" && IntToString(-7) == "-7"
  {
  }
}

=== FILE: swipe_card.dfy ===
/**
 * `SwipeCard` (SwipeCard.swift): a swipeable card's own state and its routing of gestures to
 * its delegate and animator. Each operation returns the new card and the calls it made, in
 * order. The delegate's `card(isCanMove:)` answer is an input: `None` when there is no
 * delegate, which never vetoes.
 */
module SwipeCard {
  import opened Wrappers
  import opened Vectors
  import opened Direction
  import opened SwipeView
  import CardTransform

  /** An overlay view, identified by `view`, and its alpha. */
  datatype Overlay = Overlay(view: int, alpha: real)

  /** Where the card is drawn relative to its resting place. */
  datatype Pose = Rest | Dragged(translation: Vec, rotation: real)

  datatype Card = Card(
    /** `isUserInteractionEnabled` */
    interactive: bool,
    overlays: map<SwipeDirection, Overlay>,
    touchLocation: Option<Point>,
    pose: Pose,
    /** `toCardisCancelAnimation` */
    notifyCancel: bool,
    /** Removed from its superview by the swipe completion. */
    removed: bool)

  /** What a gesture on the card sets off: delegate calls and animator requests. */
  datatype Call =
    | DidTap
    | DidBeginSwipe
    | DidContinueSwipe
    | EndSwipingCall
    | DidSwipe(direction: SwipeDirection)
    | DidCancelSwipe
    | RemoveAllAnimations
    | AnimateSwipe(direction: SwipeDirection, forced: bool)
    | AnimateReset
    | AnimateReverseSwipe(direction: SwipeDirection)

  /** The card's geometry as the transform provider reads it. */
  datatype Env = Env(policy: Policy, screenWidth: real, cardHeight: real, maximumRotationAngle: real)

  predicate ValidEnv(env: Env) {
    ValidPolicy(env.policy) && env.screenWidth > 0.0
  }

  /** A new card: interactive, no overlays, no touch, at rest, notifying cancels. */
  const NewCard: Card := Card(true, map[], None, Rest, true, false)

  /** `delegate?.card(isCanMove:) == false` */
  predicate Vetoed(canMove: Option<bool>) {
    canMove == Some(false)
  }

  // ---------------------------------------------------------------------------
  // Overlays

  /** `setOverlay(_:forDirection:)`: replace or remove one entry; a new overlay starts hidden. */
  function SetOverlay(c: Card, overlay: Option<int>, d: SwipeDirection): (r: Card)
    ensures r == c.(overlays := r.overlays)
    ensures overlay.None? ==> d !in r.overlays
    ensures overlay.Some? ==> d in r.overlays && r.overlays[d] == Overlay(overlay.value, 0.0)
    ensures forall e :: e != d ==> (e in r.overlays <==> e in c.overlays)
    ensures forall e :: e != d && e in c.overlays ==> r.overlays[e] == c.overlays[e]
  {
    match overlay
    case Some(v) => c.(overlays := c.overlays[d := Overlay(v, 0.0)])
    case None => c.(overlays := c.overlays - {d})
  }

  /** `overlay(forDirection:)` */
  function OverlayFor(c: Card, d: SwipeDirection): (r: Option<int>)
    ensures r.Some? <==> d in c.overlays
    ensures r.Some? ==> r.value == c.overlays[d].view
  {
    if d in c.overlays then Some(c.overlays[d].view) else None
  }

  /** `setOverlays(_:)`: one `setOverlay` per dictionary entry. */
  function SetOverlays(c: Card, entries: seq<(SwipeDirection, int)>): (r: Card)
    ensures r == c.(overlays := r.overlays)
    decreases |entries|
  {
    if |entries| == 0 then c
    else SetOverlays(SetOverlay(c, Some(entries[0].1), entries[0].0), entries[1..])
  }

  /** The directions of a dictionary's entries are distinct. */
  predicate DistinctKeys(entries: seq<(SwipeDirection, int)>) {
    forall i, j :: 0 <= i < j < |entries| ==> entries[i].0 != entries[j].0
  }

  // ---------------------------------------------------------------------------
  // Gestures

  /** `didTap(_:)`: remember where the finger was and tell the delegate. */
  function Tap(c: Card, location: Point): (r: (Card, seq<Call>))
    ensures r.0 == c.(touchLocation := Some(location))
    ensures r.1 == [DidTap]
  {
    (c.(touchLocation := Some(location)), [DidTap])
  }

  /** `beginSwiping(_:)`: remember the touch, tell the delegate, stop running animations. */
  function BeginSwiping(c: Card, location: Point): (r: (Card, seq<Call>))
    ensures r.0 == c.(touchLocation := Some(location))
    ensures r.1 == [DidBeginSwipe, RemoveAllAnimations]
  {
    (c.(touchLocation := Some(location)), [DidBeginSwipe, RemoveAllAnimations])
  }

  /**
   * `continueSwiping(_:)`: unless vetoed, tell the delegate, follow the finger, and show each
   * overlay by its percentage.
   */
  function ContinueSwiping(c: Card, env: Env, pan: Pan, dirs: seq<SwipeDirection>, canMove: Option<bool>): (r: (Card, seq<Call>))
    requires ValidEnv(env)
    ensures Vetoed(canMove) ==> r == (c, [])
    ensures !Vetoed(canMove) ==>
      && r.1 == [DidContinueSwipe]
      && r.0.overlays.Keys == c.overlays.Keys
      && (forall d :: d in c.overlays ==>
            && r.0.overlays[d].view == c.overlays[d].view
            && r.0.overlays[d].alpha == CardTransform.OverlayPercentage(env.policy, pan, dirs, d)
            && 0.0 <= r.0.overlays[d].alpha <= 1.0)
      && r.0.pose.Dragged? && r.0.pose.translation == pan.translation
      && r.0 == c.(pose := r.0.pose, overlays := r.0.overlays)
  {
    if Vetoed(canMove) then (c, [])
    else
      var angle := CardTransform.RotationAngle(pan.translation.dx, env.screenWidth, c.touchLocation,
                                               env.cardHeight, env.maximumRotationAngle);
      var shown := map d | d in c.overlays ::
        c.overlays[d].(alpha := CardTransform.OverlayPercentage(env.policy, pan, dirs, d));
      (c.(pose := Dragged(pan.translation, angle), overlays := shown), [DidContinueSwipe])
  }

  /** `swipeAction(direction:forced:)`: stop accepting touches and animate the card away. */
  function SwipeAction(c: Card, d: SwipeDirection, forced: bool): (r: (Card, seq<Call>))
    ensures !r.0.interactive && r.0 == c.(interactive := false)
    ensures r.1 == [AnimateSwipe(d, forced)]
  {
    (c.(interactive := false), [AnimateSwipe(d, forced)])
  }

  /** `swipe(direction:)`: the programmatic, forced swipe. */
  function Swipe(c: Card, d: SwipeDirection): (r: (Card, seq<Call>))
    ensures !r.0.interactive && r.0 == c.(interactive := false)
    ensures r.1 == [AnimateSwipe(d, true)]
  {
    SwipeAction(c, d, true)
  }

  /** `didSwipe(_:with:)`: unless vetoed, tell the delegate, then swipe without forcing. */
  function DidSwipeRoute(c: Card, d: SwipeDirection, canMove: Option<bool>): (r: (Card, seq<Call>))
    ensures Vetoed(canMove) ==> r == (c, [])
    ensures !Vetoed(canMove) ==> r.0 == c.(interactive := false) && r.1 == [Call.DidSwipe(d), AnimateSwipe(d, false)]
  {
    if Vetoed(canMove) then (c, [])
    else
      var swiped := SwipeAction(c, d, false);
      (swiped.0, [Call.DidSwipe(d)] + swiped.1)
  }

  /** `didCancelSwipe(_:)`: always animate back; tell the delegate only when asked to. */
  function DidCancelRoute(c: Card): (r: (Card, seq<Call>))
    ensures r.0 == c
    ensures c.notifyCancel ==> r.1 == [Call.DidCancelSwipe, AnimateReset]
    ensures !c.notifyCancel ==> r.1 == [AnimateReset]
  {
    (c, (if c.notifyCancel then [Call.DidCancelSwipe] else []) + [AnimateReset])
  }

  /**
   * The swipe-or-cancel decision `super.endSwiping` makes: `didSwipe` (which asks the delegate
   * whether the card can move) or `didCancelSwipe`. It never reports the end of the drag.
   */
  function DecideEnd(c: Card, env: Env, pan: Pan, dirs: seq<SwipeDirection>, firstCanMove: Option<bool>): (r: (Card, seq<Call>))
    requires ValidEnv(env)
    ensures EndSwipingCall !in r.1
    ensures SwipeView.EndSwiping(env.policy, pan, dirs).DidSwipe? ==>
      r == DidSwipeRoute(c, SwipeView.EndSwiping(env.policy, pan, dirs).direction, firstCanMove)
    ensures SwipeView.EndSwiping(env.policy, pan, dirs).DidCancelSwipe? ==> r == DidCancelRoute(c)
  {
    match SwipeView.EndSwiping(env.policy, pan, dirs)
    case DidSwipe(d) => DidSwipeRoute(c, d, firstCanMove)
    case DidCancelSwipe => DidCancelRoute(c)
  }

  /**
   * `endSwiping(_:)`: the swipe-or-cancel decision runs first (its `didSwipe` asks the delegate
   * once), then, unless the delegate vetoes on being asked again, the end is reported.
   */
  function EndSwiping(c: Card, env: Env, pan: Pan, dirs: seq<SwipeDirection>, firstCanMove: Option<bool>, secondCanMove: Option<bool>): (r: (Card, seq<Call>))
    requires ValidEnv(env)
    ensures !Vetoed(secondCanMove) ==> |r.1| > 0 && r.1[|r.1| - 1] == EndSwipingCall
    ensures Vetoed(secondCanMove) ==> EndSwipingCall !in r.1
    ensures multiset(r.1)[EndSwipingCall] == (if Vetoed(secondCanMove) then 0 else 1)
  {
    var decided := DecideEnd(c, env, pan, dirs, firstCanMove);
    var reported := if Vetoed(secondCanMove) then [] else [EndSwipingCall];
    assert EndSwipingCall !in decided.1;
    assert multiset(decided.1 + reported) == multiset(decided.1) + multiset(reported);
    (decided.0, decided.1 + reported)
  }

  /** The end of a drag is the swipe-or-cancel decision followed by the end report, unless vetoed. */
  lemma EndSwipingDecidesThenReports(c: Card, env: Env, pan: Pan, dirs: seq<SwipeDirection>,
                                     firstCanMove: Option<bool>, secondCanMove: Option<bool>)
    requires ValidEnv(env)
    ensures var decided := DecideEnd(c, env, pan, dirs, firstCanMove);
      EndSwiping(c, env, pan, dirs, firstCanMove, secondCanMove)
        == (decided.0, decided.1 + (if Vetoed(secondCanMove) then [] else [EndSwipingCall]))
  {
  }

  /** `handlePan(_:)` on a card: route the recognizer state to the matching hook. */
  function OnPan(c: Card, state: GestureState, location: Point, env: Env, pan: Pan, dirs: seq<SwipeDirection>,
                 firstCanMove: Option<bool>, secondCanMove: Option<bool>): (r: (Card, seq<Call>))
    requires ValidEnv(env)
    ensures state == Failed ==> r == (c, [])
    ensures state == Possible || state == Began ==>
      r.0 == c.(touchLocation := Some(location)) && r.1 == [DidBeginSwipe, RemoveAllAnimations]
    ensures state == Changed ==> r.1 == (if Vetoed(firstCanMove) then [] else [DidContinueSwipe])
    ensures (state == Ended || state == Cancelled) && !Vetoed(secondCanMove) ==>
      |r.1| > 0 && r.1[|r.1| - 1] == EndSwipingCall
    ensures state == Ended || state == Cancelled ==>
      multiset(r.1)[EndSwipingCall] == (if Vetoed(secondCanMove) then 0 else 1)
  {
    match HandlePan(state)
    case BeginSwiping => BeginSwiping(c, location)
    case ContinueSwiping => ContinueSwiping(c, env, pan, dirs, firstCanMove)
    case EndSwipingAction => EndSwiping(c, env, pan, dirs, firstCanMove, secondCanMove)
    case Ignore => (c, [])
  }

  /** `reverseSwipe(from:)`: stop accepting touches and animate the card back in. */
  function ReverseSwipe(c: Card, d: SwipeDirection): (r: (Card, seq<Call>))
    ensures !r.0.interactive && r.0 == c.(interactive := false)
    ensures r.1 == [AnimateReverseSwipe(d)]
  {
    (c.(interactive := false), [AnimateReverseSwipe(d)])
  }

  /** The swipe animation's completion: a finished swipe removes the card. */
  function CompleteSwipe(c: Card, finished: bool): (r: Card)
    ensures r.removed <==> finished || c.removed
    ensures r == c.(removed := r.removed)
  {
    if finished then c.(removed := true) else c
  }

  /** The reverse swipe's completion: a finished one gives the card its touches back. */
  function CompleteReverseSwipe(c: Card, finished: bool): (r: Card)
    ensures r.interactive <==> finished || c.interactive
    ensures r == c.(interactive := r.interactive)
  {
    if finished then c.(interactive := true) else c
  }

  // ---------------------------------------------------------------------------
  // Properties

  /** `setOverlays` with distinct directions sets each one, hidden, and leaves the rest alone. */
  lemma {:induction false} SetOverlaysSetsEach(c: Card, entries: seq<(SwipeDirection, int)>, d: SwipeDirection)
    requires DistinctKeys(entries)
    ensures forall k :: 0 <= k < |entries| && entries[k].0 == d ==>
      OverlayFor(SetOverlays(c, entries), d) == Some(entries[k].1)
      && SetOverlays(c, entries).overlays[d].alpha == 0.0
    ensures (forall k :: 0 <= k < |entries| ==> entries[k].0 != d) ==>
      OverlayFor(SetOverlays(c, entries), d) == OverlayFor(c, d)
      && (d in c.overlays ==> SetOverlays(c, entries).overlays[d] == c.overlays[d])
    decreases |entries|
  {
    if |entries| > 0 {
      var c1 := SetOverlay(c, Some(entries[0].1), entries[0].0);
      assert DistinctKeys(entries[1..]);
      SetOverlaysSetsEach(c1, entries[1..], d);
      if entries[0].0 == d {
        assert forall k :: 1 <= k < |entries| ==> entries[k].0 != d;
        assert forall k :: 0 <= k < |entries[1..]| ==> entries[1..][k].0 != d;
      } else {
        assert forall k :: 1 <= k < |entries| ==> entries[k] == entries[1..][k - 1];
      }
    }
  }

  /** The last overlay set for a direction is the one reported for it. */
  lemma OverlayForReturnsLastSet(c: Card, a: Option<int>, b: Option<int>, d: SwipeDirection)
    ensures OverlayFor(SetOverlay(SetOverlay(c, a, d), b, d), d) == b
    ensures OverlayFor(SetOverlay(c, a, d), d) == a
  {
  }

  /**
   * The touch a tap or the start of a drag records is the one the drag's tilt reads: the card
   * tilts as `rotationAngle` computes for that touch, positively for a rightward drag held in
   * the upper half of the card. A card that never recorded a touch does not tilt.
   */
  lemma TouchFeedsTilt(c: Card, location: Point, env: Env, pan: Pan, dirs: seq<SwipeDirection>, canMove: Option<bool>)
    requires ValidEnv(env) && !Vetoed(canMove)
    ensures var tilt := CardTransform.RotationAngle(pan.translation.dx, env.screenWidth, Some(location),
                                                    env.cardHeight, env.maximumRotationAngle);
      && ContinueSwiping(Tap(c, location).0, env, pan, dirs, canMove).0.pose == Dragged(pan.translation, tilt)
      && ContinueSwiping(BeginSwiping(c, location).0, env, pan, dirs, canMove).0.pose == Dragged(pan.translation, tilt)
    ensures pan.translation.dx > 0.0 && env.maximumRotationAngle != 0.0 ==>
      var after := ContinueSwiping(BeginSwiping(c, location).0, env, pan, dirs, canMove).0;
      (after.pose.rotation > 0.0 <==> location.y < env.cardHeight / 2.0)
    ensures c.touchLocation.None? ==> ContinueSwiping(c, env, pan, dirs, canMove).0.pose.rotation == 0.0
  {
    CardTransform.RotationFollowsTouchHalf(pan.translation.dx, env.screenWidth, location.y, location.x, location.x,
                                           env.cardHeight, env.maximumRotationAngle);
  }

  /**
   * A swipe's card is removed once its animation finishes; an interrupted animation leaves it
   * in place but still refusing touches.
   */
  lemma SwipeThenComplete(c: Card, d: SwipeDirection, forced: bool)
    ensures var done := CompleteSwipe(SwipeAction(c, d, forced).0, true);
      done.removed && !done.interactive
    ensures CompleteSwipe(SwipeAction(c, d, forced).0, false) == c.(interactive := false)
    ensures !c.removed ==> !CompleteSwipe(SwipeAction(c, d, forced).0, false).removed
  {
  }

  /**
   * Swiping a card away and reversing the swipe, both to completion, gives back the card as it
   * was, accepting touches.
   */
  lemma SwipeReverseRoundTrip(c: Card, d: SwipeDirection, e: SwipeDirection, forced: bool)
    ensures CompleteReverseSwipe(ReverseSwipe(SwipeAction(c, d, forced).0, e).0, true) == c.(interactive := true)
    ensures c.interactive ==> CompleteReverseSwipe(ReverseSwipe(SwipeAction(c, d, forced).0, e).0, true) == c
  {
  }

  /** A reverse swipe disables the card; only a finished completion enables it again. */
  lemma ReverseSwipeInteraction(c: Card, d: SwipeDirection, finished: bool)
    ensures CompleteReverseSwipe(ReverseSwipe(c, d).0, finished).interactive == finished
  {
  }

  /**
   * Ending a drag starts exactly one animation, a swipe or a reset, unless the decision was a
   * swipe the delegate vetoed; the delegate hears of a swipe only together with its animation.
   */
  lemma EndSwipingStartsOneAnimation(c: Card, env: Env, pan: Pan, dirs: seq<SwipeDirection>, first: Option<bool>, second: Option<bool>)
    requires ValidEnv(env)
    ensures var r := EndSwiping(c, env, pan, dirs, first, second);
      var decision := SwipeView.EndSwiping(env.policy, pan, dirs);
      && (decision.DidSwipe? && !Vetoed(first) ==>
            r.1[..2] == [Call.DidSwipe(decision.direction), AnimateSwipe(decision.direction, false)] && !r.0.interactive)
      && (decision.DidSwipe? && Vetoed(first) ==> r.0 == c && r.1 == (if Vetoed(second) then [] else [EndSwipingCall]))
      && (decision.DidCancelSwipe? ==> AnimateReset in r.1 && r.0 == c)
  {
    var r := EndSwiping(c, env, pan, dirs, first, second);
    var decision := SwipeView.EndSwiping(env.policy, pan, dirs);
    var reported := if Vetoed(second) then [] else [EndSwipingCall];
    EndSwipingDecidesThenReports(c, env, pan, dirs, first, second);
    if decision.DidCancelSwipe? {
      var routed := DidCancelRoute(c);
      assert r == (routed.0, routed.1 + reported);
      assert AnimateReset in routed.1;
    } else {
      var routed := DidSwipeRoute(c, decision.direction, first);
      assert r == (routed.0, routed.1 + reported);
      if !Vetoed(first) {
        assert (routed.1 + reported)[..2] == routed.1;
      }
    }
  }
}

=== FILE: swipe_view.dfy ===
/**
 * `SwipeView` (SwipeView.swift): turns a pan gesture into a swipe decision. The recognizer's
 * translation and velocity are inputs; the per-direction thresholds are a `Policy`.
 */
module SwipeView {
  import opened Wrappers
  import opened Vectors
  import opened Direction
  import opened RealArith

  /** `minimumSwipeSpeed(on:)` and `minimumSwipeDistance(on:)`, the same for every direction by default. */
  datatype Policy = Policy(minSpeed: real, minDistance: real)

  /** A policy is usable when the distance can be divided by. */
  predicate ValidPolicy(p: Policy) {
    p.minDistance > 0.0
  }

  /** The defaults: 1100 points per second, and a quarter of the screen's shorter side. */
  function DefaultPolicy(screenWidth: real, screenHeight: real): (p: Policy)
    requires screenWidth > 0.0 && screenHeight > 0.0
    ensures ValidPolicy(p) && p.minSpeed == 1100.0
    ensures p.minDistance * 4.0 <= screenWidth && p.minDistance * 4.0 <= screenHeight
    ensures p.minDistance * 4.0 == screenWidth || p.minDistance * 4.0 == screenHeight
  {
    Policy(1100.0, (if screenWidth <= screenHeight then screenWidth else screenHeight) / 4.0)
  }

  /** The recognizer's readings in the superview: translation and velocity. */
  datatype Pan = Pan(translation: Vec, velocity: Vec)

  /** The component of `v` along `d`, read off the axis without multiplying. */
  function Along(v: Vec, d: SwipeDirection): real {
    match d
    case Left => -v.dx
    case Right => v.dx
    case Up => -v.dy
    case Down => v.dy
  }

  /** `Along` is the projection `v · d.vector` the source computes. */
  lemma AlongIsDot(v: Vec, d: SwipeDirection)
    ensures Along(v, d) == Dot(v, Vector(d)) == Dot(Vector(d), v)
  {
    match d
    case Left => assert Dot(v, Vec(-1.0, 0.0)) == Dot(Vec(-1.0, 0.0), v) == -v.dx;
    case Right => assert Dot(v, Vec(1.0, 0.0)) == Dot(Vec(1.0, 0.0), v) == v.dx;
    case Up => assert Dot(v, Vec(0.0, -1.0)) == Dot(Vec(0.0, -1.0), v) == -v.dy;
    case Down => assert Dot(v, Vec(0.0, 1.0)) == Dot(Vec(0.0, 1.0), v) == v.dy;
  }

  /** `scaleFactor * along`, floored at 0. */
  function Fraction(along: real, distance: real): (r: real)
    requires distance > 0.0
    ensures r >= 0.0
    ensures along <= 0.0 ==> r == 0.0
    ensures along > 0.0 ==> r == along / distance
    ensures r >= 1.0 <==> along >= distance
  {
    var percentage := (1.0 / distance) * along;
    Reciprocal(distance, along);
    DivSign(along, distance);
    if percentage < 0.0 then 0.0 else percentage
  }

  /**
   * `dragPercentage(on:)`: the translation along `d` as a fraction of the minimum distance,
   * floored at 0; it reaches 1 exactly when the drag covers the minimum distance.
   */
  function DragPercentage(p: Policy, pan: Pan, d: SwipeDirection): (r: real)
    requires ValidPolicy(p)
    ensures r >= 0.0
    ensures Along(pan.translation, d) <= 0.0 ==> r == 0.0
    ensures Along(pan.translation, d) > 0.0 ==> r == Along(pan.translation, d) / p.minDistance
    ensures r >= 1.0 <==> Along(pan.translation, d) >= p.minDistance
  {
    Fraction(Along(pan.translation, d), p.minDistance)
  }

  /** `dragSpeed(on:)`: the magnitude of the velocity's component along `d`. */
  function DragSpeed(pan: Pan, d: SwipeDirection): (r: real)
    ensures r >= 0.0
    ensures r == Along(pan.velocity, d) || r == -Along(pan.velocity, d)
  {
    Abs(Along(pan.velocity, d))
  }

  /** The percentage of each direction, in order. */
  function Percentages(p: Policy, pan: Pan, dirs: seq<SwipeDirection>): (r: seq<real>)
    requires ValidPolicy(p)
    ensures |r| == |dirs|
    ensures forall k :: 0 <= k < |dirs| ==> r[k] == DragPercentage(p, pan, dirs[k])
  {
    seq(|dirs|, k requires 0 <= k < |dirs| => DragPercentage(p, pan, dirs[k]))
  }

  /**
   * The `reduce` in `activeDirection()`, over the directions and their percentages: starting
   * from `(0, nil)`, a direction replaces the running best only when its percentage is
   * strictly greater.
   */
  function Reduce(dirs: seq<SwipeDirection>, pcts: seq<real>): (r: (real, Option<SwipeDirection>))
    requires |dirs| == |pcts|
    ensures r.0 >= 0.0
    ensures r.1.None? ==> r.0 == 0.0
    ensures r.1.Some? ==> r.0 > 0.0
    ensures r.1.Some? ==> exists k :: 0 <= k < |dirs| && dirs[k] == r.1.value && pcts[k] == r.0
  {
    if |dirs| == 0 then (0.0, None)
    else
      var n := |dirs| - 1;
      var last := Reduce(dirs[..n], pcts[..n]);
      if pcts[n] > last.0 then (pcts[n], Some(dirs[n])) else last
  }

  /** `activeDirection()` */
  function ActiveDirection(p: Policy, pan: Pan, dirs: seq<SwipeDirection>): (r: Option<SwipeDirection>)
    requires ValidPolicy(p)
    ensures r.Some? ==> r.value in dirs && DragPercentage(p, pan, r.value) > 0.0
  {
    var pcts := Percentages(p, pan, dirs);
    Reduce(dirs, pcts).1
  }

  /** What `endSwiping` calls: `didSwipe(_:with:)` or `didCancelSwipe(_:)`. */
  datatype EndDecision = DidSwipe(direction: SwipeDirection) | DidCancelSwipe

  /** `endSwiping(_:)`: swipe in the active direction when fast enough or far enough, otherwise cancel. */
  function EndSwiping(p: Policy, pan: Pan, dirs: seq<SwipeDirection>): (r: EndDecision)
    requires ValidPolicy(p)
    ensures r.DidSwipe? <==>
      && ActiveDirection(p, pan, dirs).Some?
      && var d := ActiveDirection(p, pan, dirs).value;
         DragSpeed(pan, d) >= p.minSpeed || DragPercentage(p, pan, d) >= 1.0
    ensures r.DidSwipe? ==> Some(r.direction) == ActiveDirection(p, pan, dirs)
  {
    match ActiveDirection(p, pan, dirs)
    case Some(d) =>
      if DragSpeed(pan, d) >= p.minSpeed || DragPercentage(p, pan, d) >= 1.0 then DidSwipe(d)
      else DidCancelSwipe
    case None => DidCancelSwipe
  }

  /** `UIGestureRecognizer.State` */
  datatype GestureState = Possible | Began | Changed | Ended | Cancelled | Failed

  /** The `SwipeView` hook `handlePan` calls. */
  datatype PanAction = BeginSwiping | ContinueSwiping | EndSwipingAction | Ignore

  /** `handlePan(_:)` */
  function HandlePan(state: GestureState): (r: PanAction)
    ensures r == BeginSwiping <==> state == Possible || state == Began
    ensures r == ContinueSwiping <==> state == Changed
    ensures r == EndSwipingAction <==> state == Ended || state == Cancelled
    ensures r == Ignore <==> state == Failed
  {
    match state
    case Possible => BeginSwiping
    case Began => BeginSwiping
    case Changed => ContinueSwiping
    case Ended => EndSwipingAction
    case Cancelled => EndSwipingAction
    case Failed => Ignore
  }

  // ---------------------------------------------------------------------------
  // Properties

  /** A longer translation along `d` never lowers the percentage for `d`. */
  lemma DragPercentageMonotone(p: Policy, a: Pan, b: Pan, d: SwipeDirection)
    requires ValidPolicy(p)
    requires Along(a.translation, d) <= Along(b.translation, d)
    ensures DragPercentage(p, a, d) <= DragPercentage(p, b, d)
  {
    DivMonotone(Along(a.translation, d), Along(b.translation, d), p.minDistance);
  }

  /**
   * The reduction picks the strictly greatest positive percentage, the earliest among equals,
   * and nothing when every percentage is 0.
   */
  lemma {:induction false} ReduceIsFirstMaximum(dirs: seq<SwipeDirection>, pcts: seq<real>)
    requires |dirs| == |pcts| && forall k :: 0 <= k < |pcts| ==> pcts[k] >= 0.0
    ensures var r := Reduce(dirs, pcts);
      && (forall k :: 0 <= k < |pcts| ==> pcts[k] <= r.0)
      && (r.1.None? <==> forall k :: 0 <= k < |pcts| ==> pcts[k] == 0.0)
      && (r.1.Some? ==> exists k :: (0 <= k < |dirs| && dirs[k] == r.1.value && pcts[k] == r.0
            && forall j :: 0 <= j < k ==> pcts[j] < r.0))
  {
    if |dirs| > 0 {
      var n := |dirs| - 1;
      ReduceIsFirstMaximum(dirs[..n], pcts[..n]);
      var last := Reduce(dirs[..n], pcts[..n]);
      if pcts[n] > last.0 {
        assert forall j :: 0 <= j < n ==> pcts[j] == pcts[..n][j];
      } else if last.1.Some? {
        var k :| 0 <= k < n && dirs[..n][k] == last.1.value && pcts[..n][k] == last.0
          && forall j :: 0 <= j < k ==> pcts[..n][j] < last.0;
        assert dirs[k] == last.1.value && pcts[k] == last.0;
        assert forall j :: 0 <= j < k ==> pcts[j] == pcts[..n][j];
      } else {
        assert forall j :: 0 <= j < n ==> pcts[j] == pcts[..n][j];
      }
    }
  }

  /** The active direction is the earliest direction of strictly greatest positive percentage. */
  lemma {:induction false} ActiveDirectionIsFirstMaximum(p: Policy, pan: Pan, dirs: seq<SwipeDirection>)
    requires ValidPolicy(p)
    ensures var r := ActiveDirection(p, pan, dirs);
      && (r.None? <==> forall k :: 0 <= k < |dirs| ==> DragPercentage(p, pan, dirs[k]) == 0.0)
      && (r.Some? ==>
            && (forall k :: 0 <= k < |dirs| ==> DragPercentage(p, pan, dirs[k]) <= DragPercentage(p, pan, r.value))
            && exists k :: (0 <= k < |dirs| && dirs[k] == r.value
                 && forall j :: 0 <= j < k ==> DragPercentage(p, pan, dirs[j]) < DragPercentage(p, pan, r.value)))
  {
    var pcts := Percentages(p, pan, dirs);
    ReduceIsFirstMaximum(dirs, pcts);
  }

  /** Exactly one of the two delegate hooks runs at the end of a drag. */
  lemma EndSwipingChoosesOne(p: Policy, pan: Pan, dirs: seq<SwipeDirection>)
    requires ValidPolicy(p)
    ensures EndSwiping(p, pan, dirs).DidSwipe? != EndSwiping(p, pan, dirs).DidCancelSwipe?
    ensures ActiveDirection(p, pan, dirs).None? ==> EndSwiping(p, pan, dirs) == DidCancelSwipe
  {
  }

  /** Dragging along `d` by `s` points gives `d` the percentage `s / minDistance` and every other direction 0. */
  lemma AxisDragPercentages(p: Policy, pan: Pan, d: SwipeDirection, s: real, e: SwipeDirection)
    requires ValidPolicy(p) && s >= 0.0 && pan.translation == Scale(Vector(d), s)
    ensures DragPercentage(p, pan, e) == (if e == d then s / p.minDistance else 0.0)
  {
    var t := match d
      case Left => Vec(-s, 0.0)
      case Right => Vec(s, 0.0)
      case Up => Vec(0.0, -s)
      case Down => Vec(0.0, s);
    assert pan.translation == t;
    assert Along(t, e) == (if e == d then s else if e == Opposite(d) then -s else 0.0);
  }

  /**
   * A drag of exactly the minimum distance along an allowed direction commits to that
   * direction whatever the speed.
   */
  lemma MinimumDistanceCommits(p: Policy, pan: Pan, d: SwipeDirection, dirs: seq<SwipeDirection>)
    requires ValidPolicy(p) && d in dirs
    requires pan.translation == Scale(Vector(d), p.minDistance)
    ensures EndSwiping(p, pan, dirs) == DidSwipe(d)
  {
    DivSign(p.minDistance, p.minDistance);
    AxisDragPercentages(p, pan, d, p.minDistance, d);
    assert DragPercentage(p, pan, d) == 1.0;
    ActiveDirectionIsFirstMaximum(p, pan, dirs);
    var r := ActiveDirection(p, pan, dirs);
    var k :| 0 <= k < |dirs| && dirs[k] == d;
    assert DragPercentage(p, pan, dirs[k]) != 0.0;
    assert r.Some?;
    AxisDragPercentages(p, pan, d, p.minDistance, r.value);
    assert DragPercentage(p, pan, r.value) >= 1.0;
    assert r.value == d;
  }

}

=== FILE: vectors.dfy ===
/**
 * Planar vector algebra of the `CGVector` extension (CGVector+Extensions.swift) and
 * the `CGPoint(vector)` field copy (CGPoint+Extensions.swift). `CGFloat` is modelled
 * as `real`; `length` and `normalized` (which use `hypot`) are not part of this model.
 */
module Vectors {

  datatype Vec = Vec(dx: real, dy: real)

  datatype Point = Point(x: real, y: real)

  const Zero: Vec := Vec(0.0, 0.0)
  const Origin: Point := Point(0.0, 0.0)

  /** prefix `+` */
  function Identity(v: Vec): (r: Vec)
    ensures r == v
  {
    v
  }

  /** prefix `-` */
  function Neg(v: Vec): (r: Vec)
    ensures Add(v, r) == Zero
  {
    Vec(-v.dx, -v.dy)
  }

  /** infix `+` */
  function Add(a: Vec, b: Vec): (r: Vec)
    ensures b == Zero ==> r == a
    ensures a == Vec(-b.dx, -b.dy) ==> r == Zero
  {
    Vec(a.dx + b.dx, a.dy + b.dy)
  }

  function Sub(a: Vec, b: Vec): (r: Vec)
    ensures Add(r, b) == a
  {
    Vec(a.dx - b.dx, a.dy - b.dy)
  }

  /** `scalar * vector` */
  function ScaleLeft(s: real, v: Vec): (r: Vec)
    ensures r == Scale(v, s)
  {
    Vec(v.dx * s, v.dy * s)
  }

  /** `vector * scalar` */
  function Scale(v: Vec, s: real): (r: Vec)
    ensures s == 0.0 ==> r == Zero
    ensures s == 1.0 ==> r == v
    ensures s == -1.0 ==> r == Neg(v)
    ensures s == 2.0 ==> r == Add(v, v)
  {
    Vec(v.dx * s, v.dy * s)
  }

  /** `scalar * vector` with an `Int` scalar: converts the integer to `CGFloat` first. */
  function ScaleLeftInt(s: int, v: Vec): (r: Vec)
    ensures r == ScaleLeft(s as real, v) && r == ScaleInt(v, s)
    ensures s != 0 ==> DivInt(r, s) == v
  {
    var r := Scale(v, s as real);
    if s != 0 then
      QuotientCancels(v.dx, s as real);
      QuotientCancels(v.dy, s as real);
      r
    else r
  }

  lemma QuotientCancels(x: real, s: real)
    requires s != 0.0
    ensures (x * s) / s == x
  {
  }

  /** `vector * scalar` with an `Int` scalar. */
  function ScaleInt(v: Vec, s: int): (r: Vec)
    ensures r == ScaleLeft(s as real, v)
  {
    Scale(v, s as real)
  }

  /** `vector / scalar`; IEEE division by zero is not modelled, so the scalar is non-zero. */
  function Div(v: Vec, s: real): (r: Vec)
    requires s != 0.0
    ensures Scale(r, s) == v
  {
    Vec(v.dx / s, v.dy / s)
  }

  function DivInt(v: Vec, s: int): (r: Vec)
    requires s != 0
    ensures Scale(r, s as real) == v
  {
    Div(v, s as real)
  }

  /** `lhs * rhs` between two vectors: the dot product. */
  function Dot(a: Vec, b: Vec): (r: real)
    ensures a == Zero || b == Zero ==> r == 0.0
    ensures a == b ==> r >= 0.0
  {
    a.dx * b.dx + a.dy * b.dy
  }

  /** `CGVector(from: origin, to: target)`: the displacement from `origin` to `target`. */
  function FromTo(origin: Point, target: Point): (r: Vec)
    ensures PointPlus(origin, r) == target
  {
    Vec(target.x - origin.x, target.y - origin.y)
  }

  /** `CGVector(to: target)`: the default origin is the zero point. */
  function ToPoint(target: Point): (r: Vec)
    ensures r.dx == target.x && r.dy == target.y
  {
    FromTo(Origin, target)
  }

  /** `CGPoint(vector)` */
  function AsPoint(v: Vec): (p: Point)
    ensures ToPoint(p) == v
  {
    Point(v.dx, v.dy)
  }

  /** Translating a point by a vector (used only to state what `FromTo` means). */
  function PointPlus(p: Point, v: Vec): Point {
    Point(p.x + v.dx, p.y + v.dy)
  }

  // Compound assignments: each writes back the corresponding binary operator.
  function AddAssign(lhs: Vec, rhs: Vec): (r: Vec)
    ensures Sub(r, rhs) == lhs
  {
    Add(lhs, rhs)
  }

  function SubAssign(lhs: Vec, rhs: Vec): (r: Vec)
    ensures Add(r, rhs) == lhs
  {
    Sub(lhs, rhs)
  }

  function ScaleAssign(v: Vec, s: real): (r: Vec)
    ensures r == ScaleLeft(s, v)
  {
    Scale(v, s)
  }

  function ScaleAssignInt(v: Vec, s: int): (r: Vec)
    ensures r == ScaleLeft(s as real, v)
  {
    ScaleInt(v, s)
  }

  function DivAssign(v: Vec, s: real): (r: Vec)
    requires s != 0.0
    ensures r == Scale(v, 1.0 / s)
  {
    Div(v, s)
  }

  function DivAssignInt(v: Vec, s: int): (r: Vec)
    requires s != 0
    ensures r == Scale(v, 1.0 / (s as real))
  {
    DivInt(v, s)
  }

  lemma DotCommutative(a: Vec, b: Vec)
    ensures Dot(a, b) == Dot(b, a)
  {
  }

  /** The dot product is linear in its first argument (and so, by symmetry, in both). */
  lemma DotBilinear(a: Vec, b: Vec, c: Vec, s: real)
    ensures Dot(Add(a, b), c) == Dot(a, c) + Dot(b, c)
    ensures Dot(c, Add(a, b)) == Dot(c, a) + Dot(c, b)
    ensures Dot(Scale(a, s), c) == s * Dot(a, c)
    ensures Dot(c, Scale(a, s)) == s * Dot(c, a)
  {
  }

  lemma NegInvolution(v: Vec)
    ensures Neg(Neg(v)) == v
    ensures Identity(v) == v
  {
  }

  lemma ScalarCommutes(s: real, v: Vec)
    ensures ScaleLeft(s, v) == Scale(v, s)
  {
  }

  lemma DivIsScaleByReciprocal(v: Vec, s: real)
    requires s != 0.0
    ensures Div(v, s) == Scale(v, 1.0 / s)
  {
    assert v.dx / s == v.dx * (1.0 / s);
    assert v.dy / s == v.dy * (1.0 / s);
  }
}

=== FILE: view_tree.dfy ===
/**
 * `UIView.setUserInteraction(_:)` (UIView+Extensions.swift): set `isUserInteractionEnabled`
 * on a view and, recursively, on every subview. A view is its flag, the rest of its state
 * (opaque here), and its subviews in order.
 */
module ViewTree {

  datatype View = View(interactive: bool, attributes: int, subviews: seq<View>)

  /** Every view in the tree has the flag `b`. */
  predicate AllInteractive(v: View, b: bool)
    decreases v
  {
    v.interactive == b && forall k :: 0 <= k < |v.subviews| ==> AllInteractive(v.subviews[k], b)
  }

  /** The two trees differ at most in their flags. */
  predicate SameShape(v: View, w: View)
    decreases v
  {
    && v.attributes == w.attributes
    && |v.subviews| == |w.subviews|
    && forall k :: 0 <= k < |v.subviews| ==> SameShape(v.subviews[k], w.subviews[k])
  }

  /** `setUserInteraction(_:)` */
  function SetUserInteraction(v: View, b: bool): (r: View)
    ensures r.interactive == b
    ensures r.attributes == v.attributes && |r.subviews| == |v.subviews|
    ensures AllInteractive(r, b)
    ensures SameShape(v, r)
    decreases v, 1
  {
    View(b, v.attributes, SetEach(v.subviews, b))
  }

  /** The `for subview in subviews` loop. */
  function SetEach(vs: seq<View>, b: bool): (r: seq<View>)
    ensures |r| == |vs|
    ensures forall k :: 0 <= k < |vs| ==> r[k] == SetUserInteraction(vs[k], b)
    decreases vs, 0
  {
    if |vs| == 0 then []
    else [SetUserInteraction(vs[0], b)] + SetEach(vs[1..], b)
  }

  /** A tree that already has the flag everywhere is left as it is. */
  lemma {:induction false} SetOnUniformTree(v: View, b: bool)
    requires AllInteractive(v, b)
    ensures SetUserInteraction(v, b) == v
    decreases v
  {
    var r := SetUserInteraction(v, b);
    forall k | 0 <= k < |v.subviews|
      ensures r.subviews[k] == v.subviews[k]
    {
      SetOnUniformTree(v.subviews[k], b);
    }
    assert r.subviews == v.subviews;
  }

  /** Applying it twice with the same flag is applying it once. */
  lemma SetUserInteractionIdempotent(v: View, b: bool)
    ensures SetUserInteraction(SetUserInteraction(v, b), b) == SetUserInteraction(v, b)
  {
    SetOnUniformTree(SetUserInteraction(v, b), b);
  }

  /** The last call wins: setting `a` then `b` is setting `b`. */
  lemma {:induction false} LastSetWins(v: View, a: bool, b: bool)
    ensures SetUserInteraction(SetUserInteraction(v, a), b) == SetUserInteraction(v, b)
    decreases v
  {
    var l := SetUserInteraction(SetUserInteraction(v, a), b);
    var r := SetUserInteraction(v, b);
    forall k | 0 <= k < |v.subviews|
      ensures l.subviews[k] == r.subviews[k]
    {
      LastSetWins(v.subviews[k], a, b);
    }
    assert l.subviews == r.subviews;
  }
}

=== FILE: wrappers.dfy ===
/** Failure-compatible helper datatypes shared by the model: Swift's `Optional`. */
module Wrappers {

  /** Swift's `Optional<T>`: `nil` is `None`. */
  datatype Option<+T> = None | Some(value: T) {

    /** `x ?? default` */
    function GetOr(default: T): T {
      match this
      case Some(v) => v
      case None => default
    }
  }
}
